=== FILE: README.md ===
# Zuul gating core in Dafny

This project models the decision logic at the heart of Zuul, the project
gating system. Each part below is proved correct against its own
specification:

- how configuration stanzas (projects, pipelines, queues, nodesets, jobs and
  tenants) are checked and turned into configuration objects;
- how a tenant's branches and configuration files are ordered;
- how Gerrit and git events and change attributes are matched against
  pipeline filters;
- how the scheduler and the executor client classify build results,
  promote and dequeue items, and carry pipeline windows across
  reconfigurations;
- how reporters assemble the text and the file comments of a report;
- the caches of branch lists and unparsed configuration files;
- the small library helpers (`filter_allowed_disallowed`, `ZuulRegex`,
  `get_default`, `any_to_bool`).

Python's behaviour is spelled out where the code relies on it:

- truthiness (`Values.Truthy`);
- `as_list` (`ConfigLoader.AsList`);
- the order dicts iterate in;
- `divmod` on durations;
- `str()` of scalars.

Exceptions become `Result`/`Option` values. The regular-expression engine
is modelled as a record of three total functions (`match`, `fullmatch`,
`search`), passed as a parameter. The clock, the connection registry and
tenant lookups are parameters too.

One module per source area:

| file | module | source |
|---|---|---|
| wrappers.dfy | Wrappers | `Option`, `Result`, `Outcome` (error paths as values) |
| strings.dfy | Strings | string order, sorting, prefixes, substring search, splitting, decimal text |
| values.dfy | Values | untyped YAML/JSON values and truthiness |
| re2util.dfy | Re2Util | zuul/lib/re2util.py |
| change_matcher.dfy | ChangeMatcher | zuul/change_matcher.py |
| gerrit_model.dfy | GerritModel | zuul/driver/gerrit/gerritmodel.py |
| git_model.dfy | GitModel | zuul/driver/git/gitmodel.py |
| branch_cache.dfy | BranchCache | zuul/zk/branch_cache.py |
| config_cache.dfy | ConfigCache | zuul/zk/config_cache.py |
| config_loader.dfy | ConfigLoader | zuul/configloader.py helpers |
| nodeset_parser.dfy | NodeSetParser | zuul/configloader.py `NodeSetParser` |
| job_parser.dfy | JobParser | zuul/configloader.py `JobParser` |
| project_parser.dfy | ProjectParser | zuul/configloader.py `ProjectParser` |
| pipeline_parser.dfy | PipelineParser | zuul/configloader.py `PipelineParser`, `QueueParser` |
| tenant_parser.dfy | TenantParser | zuul/configloader.py `TenantParser` project loading |
| tenant_branches.dfy | TenantBranches | zuul/configloader.py branch ordering and dynamic loading |
| scheduler.dfy | Scheduler | zuul/scheduler.py |
| executor_client.dfy | ExecutorClient | zuul/executor/client.py |
| reporter.dfy | Reporter | zuul/reporter/__init__.py |
| lib_config.dfy | LibConfig | zuul/lib/config.py |

## Model

| member | source | states |
|---|---|---|
| Re2Util.FilterAllowedDisallowed | zuul/lib/re2util.py:21-48 | the loop returns exactly the reference filter: subjects, in order, that an empty allow list or some allow pattern admits and no deny pattern matches |
| Re2Util.FilteredIsSubsequence | zuul/lib/re2util.py:32-48 | the output is an order-preserving subsequence of the input |
| Re2Util.FilteredMembership | zuul/lib/re2util.py:33-47 | a name is in the output iff it is an input subject that the allow/deny rule keeps |
| Re2Util.FilteredNoPatterns | zuul/lib/re2util.py:26-30 | with no allow and no deny patterns every subject passes, in order |
| Re2Util.NegationComplements | zuul/lib/re2util.py:66-79 | a negated regex answers the opposite of the plain one for match, fullmatch and search |
| Re2Util.DeserializeRegex | zuul/lib/re2util.py:87-90 | a successful result carries the mapping's pattern and negate values; a missing key fails |
| Re2Util.RegexRoundTrip | zuul/lib/re2util.py:81-90 | deserializing a serialized regex gives back an equal regex |
| ChangeMatcher.ContainingBranchMatches | zuul/change_matcher.py:86-93 | true iff some containing branch equals the pattern (implied matcher) or fully matches it |
| ChangeMatcher.SomeRegexMatches | zuul/change_matcher.py:168-171 | true iff some regex of the matcher matches the file |
| ChangeMatcher.EveryFileMatched | zuul/change_matcher.py:166-176 | true iff every file is matched by a regex or is the commit message |
| ChangeMatcher.SomeFileMatched | zuul/change_matcher.py:188-192 | true iff some file is matched by some regex |
| ChangeMatcher.AllMatchMeansEvery | zuul/change_matcher.py:197-201 | the early-exit loop of MatchAll is the conjunction of its matchers |
| ChangeMatcher.AnyMatchMeansSome | zuul/change_matcher.py:206-210 | the early-exit loop of MatchAny is the disjunction of its matchers |
| ChangeMatcher.ImpliedBranchIsExact | zuul/change_matcher.py:75-79 | for a change on a branch, an implied branch matcher matches iff the pattern text equals the branch |
| ChangeMatcher.BranchIgnoresRefWhenBranched | zuul/change_matcher.py:75-83 | for a change on a branch, neither the ref nor the containing branches affect a branch matcher |
| ChangeMatcher.BranchlessMatching | zuul/change_matcher.py:84-94 | for a ref without a branch, a branch matcher matches iff its regex matches the ref or a containing branch qualifies |
| ChangeMatcher.MatchAnyFilesMeaning | zuul/change_matcher.py:181-192 | with no real files MatchAnyFiles holds; otherwise iff some file matches some regex |
| ChangeMatcher.MatchAllFilesMeaning | zuul/change_matcher.py:159-176 | with no real files MatchAllFiles fails; otherwise iff every file is matched or is the commit message |
| ChangeMatcher.CollectionsMeaning | zuul/change_matcher.py:195-210 | MatchAll is the conjunction and MatchAny the disjunction of their matchers; empty: all true, any false |
| ChangeMatcher.LeafEqualsIsIdentity | zuul/change_matcher.py:51-53 | single-regex matchers are equal iff they have the same class and regex, and equal ones agree on every change |
| ChangeMatcher.CollectionEqualityIgnoresNegation | zuul/change_matcher.py:133-138 | as written: two file matchers differing only in negation compare equal yet disagree on a change |
| ChangeMatcher.CollectionEqualsIsEquality | zuul/change_matcher.py:51-53 | the corrected collection equality (same class, members pairwise equal by their own equality) holds iff the matchers are identical |
| ChangeMatcher.CollectionEqualsAgrees | zuul/change_matcher.py:133-138 | under the corrected equality, equal collections agree on every change, render the same, and so also compare equal as written |
| ChangeMatcher.SerializeBranchMatcher | zuul/change_matcher.py:96-106 | the mapping carries `implied`, and `regex` as the bare pattern text before model API 17, or from 17 on a regex mapping that reads back as the matcher's regex |
| ChangeMatcher.DeserializeBranchMatcher | zuul/change_matcher.py:108-116 | the matcher built is of the class the method is called on; a missing `regex` fails; a string is a non-negated pattern; a mapping is read as a regex and fails iff that read fails; any other value fails |
| ChangeMatcher.BranchMatcherRoundTrip | zuul/change_matcher.py:96-116 | from model API 17 on, deserializing a serialized branch matcher gives it back |
| ChangeMatcher.BranchMatcherOldApiLosesNegation | zuul/change_matcher.py:97-101 | before model API 17 the round trip succeeds and gives the matcher back iff its regex was not negated |
| GerritModel.VoterOf | zuul/driver/gerrit/gerritmodel.py:189-192 | the voter mapping has only `name`, `username` and `email` keys, each present exactly when the vote carries that field and then holding the vote's value |
| GerritModel.LabelApprovals | zuul/driver/gerrit/gerritmodel.py:186-200 | the approvals of a label are exactly the approvals of its non-zero votes, each described by the label |
| GerritModel.HttpApprovals | zuul/driver/gerrit/gerritmodel.py:183-200 | the approvals are exactly the approvals of the non-zero votes of all labels: every such vote gives one, and each one comes from such a vote |
| GerritModel.PendingCheckIsPatchsetCreated | zuul/driver/gerrit/gerritmodel.py:271-272 | a pending check counts as a new patchset and an abandonment does not; only such events can fail a filter's pending-check test |
| GerritModel.HttpMissingLabels | zuul/driver/gerrit/gerritmodel.py:184-208 | a label is missing iff some label entry with that name is missing by the optional/blocking/approved rule |
| GerritModel.HttpMissingLabelRules | zuul/driver/gerrit/gerritmodel.py:201-208 | optional labels are never missing, blocking ones always, others iff not approved |
| GerritModel.LabelsNeeded | zuul/driver/gerrit/gerritmodel.py:140-144 | the labels of a submit record whose status is NEED or REJECT |
| GerritModel.SshMissingLabels | zuul/driver/gerrit/gerritmodel.py:137-144 | a label is missing iff some NOT_READY submit record lists it as NEED or REJECT |
| GerritModel.ApprovalRuleAgeLimits | zuul/driver/gerrit/gerritmodel.py:680-707 | an approval without a description never matches; matched approvals respect newer-than, older-than and the value list |
| GerritModel.NewRefFilter | zuul/driver/gerrit/gerritmodel.py:502-534 | a given reject flag wins and is inverted; otherwise the require flag is kept |
| GerritModel.MatchesApprovals | zuul/driver/gerrit/gerritmodel.py:709-724 | a ref that is not a change fails whenever there are required or reject rules, and passes when there are none; required approvals with no approvals on the change fail; for a change the verdict is required-and-no-reject; a matched reject always fails |
| GerritModel.NoRejectMeaning | zuul/driver/gerrit/gerritmodel.py:742-753 | the no-reject check fails iff some reject rule matches some approval |
| GerritModel.RefFilterMatches | zuul/driver/gerrit/gerritmodel.py:596-662 | a passing change has an allowed status, no rejected status, every required hashtag, no rejected hashtag and matching approvals |
| GerritModel.RejectFlagsComplementRequire | zuul/driver/gerrit/gerritmodel.py:536-564 | for open, wip and current-patchset, the reject filter from a config passes exactly the changes the require filter refuses |
| GerritModel.RejectApprovalComplementsRequire | zuul/driver/gerrit/gerritmodel.py:536-564 | for a change with approvals, rejecting an approval rule is the complement of requiring it |
| GerritModel.NewEventFilter | zuul/driver/gerrit/gerritmodel.py:282-328 | a `require`/`reject` mapping builds the ref filter; otherwise the legacy approval lists do, and with neither there is none |
| GerritModel.EventFilterMatches | zuul/driver/gerrit/gerritmodel.py:367-498 | a passing event passes the base filter, has a listed type, is not an ignored deletion, has a ref when refs are listed, carries every configured approval and passes the require filter |
| GerritModel.EmptyEventFilterPasses | zuul/driver/gerrit/gerritmodel.py:367-498 | a filter that constrains nothing passes every event the base filter passes |
| GitModel.NewGitEventFilter | zuul/driver/git/gitmodel.py:41-51 | absent type and ref lists become empty lists |
| GitModel.GitMatches | zuul/driver/git/gitmodel.py:67-92 | an event matches iff the base filter does, its type is listed (or none are), its ref matches (or none are listed) and it is not an ignored deletion |
| GitModel.TypeListed | zuul/driver/git/gitmodel.py:71-76 | true iff the event type is in the list |
| GitModel.RefListed | zuul/driver/git/gitmodel.py:79-86 | true iff some ref regex matches the ref |
| GitModel.DeletionsIgnoredByDefault | zuul/driver/git/gitmodel.py:41-42 | by default a deletion (all-zero new sha) never matches, and a filter without lists passes everything |
| BranchCache.Difference | zuul/zk/branch_cache.py:140-147 | the elements of the first list not in the second, each once |
| BranchCache.GetProjectBranches | zuul/zk/branch_cache.py:111-121 | protected-only queries return the protected list; full queries need a remainder and return protected plus remainder; otherwise no answer |
| BranchCache.SetProjectBranches | zuul/zk/branch_cache.py:134-150 | a protected store replaces the protected list and prunes the remainder; a full store sets the remainder to the branches that are not protected; other projects are untouched |
| BranchCache.ClearProjectCache | zuul/zk/branch_cache.py:152-157 | the project disappears from both maps and nothing else changes |
| BranchCache.ClearProtectedProjectCache | zuul/zk/branch_cache.py:159-163 | only the protected list of the project is dropped |
| BranchCache.SetThenGetProtected | zuul/zk/branch_cache.py:111-137 | a protected query after a protected store returns the stored list |
| BranchCache.SetThenGetAll | zuul/zk/branch_cache.py:111-150 | a full query after a full store answers with every stored branch |
| BranchCache.SetThenGetAllExact | zuul/zk/branch_cache.py:111-150 | when the protected list is within the stored branches, the full query returns exactly the stored branches as a set |
| BranchCache.SetMakesDisjoint | zuul/zk/branch_cache.py:134-150 | after either store, no branch is both protected and in the remainder |
| BranchCache.OperationsPreserveDisjoint | zuul/zk/branch_cache.py:123-163 | every operation keeps protected and remainder lists disjoint |
| BranchCache.ClearLeavesOthers | zuul/zk/branch_cache.py:152-163 | clearing one project changes no answer about another, and the cleared project has no answer |
| ConfigCache.SetValidFor | zuul/zk/config_cache.py:45-56 | the record stores the searched files, dirs and logical time; the files are untouched |
| ConfigCache.IsValidFor | zuul/zk/config_cache.py:58-84 | a missing, unreadable, incomplete or older record is invalid; a valid one covers every extra file and dir of the project |
| ConfigCache.AllIn | zuul/zk/config_cache.py:83-84 | true iff every element of the first list is in the second |
| ConfigCache.ValidAfterSet | zuul/zk/config_cache.py:45-84 | after recording files, dirs and time, the cache is valid for any project whose extra paths were searched and any minimum time not above it |
| ConfigCache.LTime | zuul/zk/config_cache.py:86-93 | the stored logical time, or -1 when there is none |
| ConfigCache.LTimeAfterSet | zuul/zk/config_cache.py:45-93 | the logical time reads back what was recorded |
| ConfigCache.GetFile | zuul/zk/config_cache.py:98-105 | a missing name is an error; otherwise the stored content |
| ConfigCache.SetFile | zuul/zk/config_cache.py:107-111 | the name is added and reads as the content; every other file keeps its content and the record is untouched |
| ConfigCache.DeleteFile | zuul/zk/config_cache.py:113-117 | deleting a missing name is an error; otherwise exactly that name is removed, the other files keep their content and the record is untouched |
| ConfigCache.FileRoundTrip | zuul/zk/config_cache.py:98-117 | a file reads back what was written, other files are unaffected, and a deleted file is gone |
| ConfigCache.Iter | zuul/zk/config_cache.py:119-131 | every cached name once, in sorted order, as many as the length |
| ConfigCache.GetFilesCache | zuul/zk/config_cache.py:153-155 | a project branch never stored reads as an empty cache |
| ConfigCache.ClearCache | zuul/zk/config_cache.py:164-170 | clearing a project drops all its branches, clearing a branch drops only it, and other projects are untouched |
| ConfigCache.ClearCacheScope | zuul/zk/config_cache.py:153-170 | a cleared cache reads back empty and invalid, and every other cache is unchanged |
| ConfigLoader.AsList | zuul/configloader.py:79-84 | a falsy value gives no items, a list is itself, any other value is a one-item list |
| ConfigLoader.AsListIdempotent | zuul/configloader.py:79-84 | applying `as_list` to its own result changes nothing; a non-list value yields only itself |
| ConfigLoader.CheckConfigPath | zuul/configloader.py:97-102 | a path passes iff it is a string other than the four default configuration locations |
| ConfigLoader.CheckEach | zuul/configloader.py:88-90 | a list passes iff every element passes `check_config_path` |
| ConfigLoader.NoDupConfigPathsAsWritten | zuul/configloader.py:87-94 | as written: every plain string is refused (the branch names an unbound variable); a list is checked element by element |
| ConfigLoader.NoDupConfigPaths | zuul/configloader.py:87-102 | corrected: a string or list passes iff every path in it is an allowed string; other values fail |
| ConfigLoader.NoDupConfigPathsStringBranch | zuul/configloader.py:87-94 | the string `extra.yaml` is refused as written and accepted once corrected; on lists the two agree |
| NodeSetParser.Names | zuul/configloader.py:468-475 | the names of a node entry as `as_list` gives them; an empty name gives none |
| NodeSetParser.NameSet | zuul/configloader.py:475-476 | the set holds exactly the names listed |
| NodeSetParser.CheckLabels | zuul/configloader.py:458-466 | no label is reported iff every requested label passes the tenant's allowed/disallowed filter; a reported one is a requested label the filter refuses |
| NodeSetParser.FirstIn | zuul/configloader.py:470-472 | the first name already taken, or none iff no name is taken |
| NodeSetParser.FirstNotIn | zuul/configloader.py:480-485 | the first name not among the nodes, or none iff every name is a node |
| NodeSetParser.LoadNodes | zuul/configloader.py:467-476 | succeeds iff no node is named `localhost` and no node reuses an earlier node's name; then one node per entry in order; errors name the offending entry |
| NodeSetParser.LoadGroups | zuul/configloader.py:477-493 | succeeds iff no group name contains `localhost`, every group node exists and no group name repeats; then one group per entry in order |
| NodeSetParser.LoadNodeset | zuul/configloader.py:449-495 | succeeds exactly for a valid stanza (labels, then nodes, then groups) and then holds every node and group in order; a label error names a forbidden label |
| JobParser.PlaybookOf | zuul/configloader.py:760-776 | a playbook keeps its name; its semaphores are the entry's, sorted by name; a bare path has none |
| JobParser.Playbooks | zuul/configloader.py:778-783 | one playbook per entry, in order |
| JobParser.PrependReversedKeepsOrder | zuul/configloader.py:784-799 | walking the entries reversed and prepending each lists them in the order written, ahead of inherited ones |
| JobParser.PlaybooksAppend | zuul/configloader.py:778-783 | appending an entry appends its playbook |
| JobParser.SemaphoresOf | zuul/configloader.py:762-766 | the names of every semaphore a playbook mapping lists |
| JobParser.DependencyOf | zuul/configloader.py:861-868 | a bare name is a hard dependency; a mapping is soft only when `soft` is true |
| JobParser.Dependencies | zuul/configloader.py:858-869 | one dependency per entry, in order |
| JobParser.SemaphoreOf | zuul/configloader.py:875-880 | a bare name does not take resources first; a mapping does only when `resources-first` is true |
| JobParser.Semaphores | zuul/configloader.py:872-880 | one semaphore per entry, in order |
| JobParser.FromYaml | zuul/configloader.py:712-894 | a timeout above the tenant maximum, `post-review: false`, or intermediate without abstract fails; otherwise post-review only grows, semaphores come out sorted by name and as configured, none is also a playbook semaphore, pre-run and run are the configured playbooks, post-run and cleanup-run come out in the order written, and dependencies are parsed only when given |
| JobParser.BuildJob | zuul/configloader.py:784-869 | the built job carries the grown post-review flag, the configured pre-run and run playbooks, post-run and cleanup-run in the order written (reverse-and-prepend undoes itself), and dependencies only when configured |
| JobParser.WithSemaphores | zuul/configloader.py:870-894 | the semaphore step succeeds iff no job semaphore is also a playbook semaphore; it then sets the semaphores sorted by name, as configured, and changes nothing else; otherwise it reports the common names, each a configured job semaphore |
| JobParser.FromYamlAccepts | zuul/configloader.py:712-894 | a job stanza is accepted iff both timeouts are within the maximum, `post-review` is not false, `intermediate` only comes with `abstract`, and no job semaphore is a playbook semaphore |
| JobParser.CommonNamesAreConfigured | zuul/configloader.py:889-894 | every name reported as both a job and a playbook semaphore is a configured job semaphore |
| ProjectParser.StanzaName | zuul/configloader.py:1105-1110 | a missing or empty name means the project the stanza was read from |
| ProjectParser.AddTemplates | zuul/configloader.py:1156-1159 | the earlier templates stay first, and the result holds exactly the earlier and the added names |
| ProjectParser.AddTemplatesNoDuplicates | zuul/configloader.py:1156-1159 | adding templates never lists one twice |
| ProjectParser.Access | zuul/configloader.py:1105-1152 | a regex name needs a trusted context and is a template; another name must be a known project and, untrusted, the context's own; success exactly when access is allowed, with no implied branch (trusted) or the context branch |
| ProjectParser.WithSettings | zuul/configloader.py:1154-1178 | templates are appended without repeats, default branch and queue copied, and a non-empty `vars` is kept exactly when it avoids the forbidden names |
| ProjectParser.FromYaml | zuul/configloader.py:1101-1180 | a regex name needs a trusted context, another name a known project and, untrusted, the context's own; implied branches are none (trusted) or the context branch; forbidden variable names fail |
| ProjectParser.FromYamlAccepts | zuul/configloader.py:1101-1180 | a stanza is accepted iff access is allowed and its variables avoid `zuul`, `nodepool` and `unsafe_vars` |
| PipelineParser.MessageOr | zuul/configloader.py:1284-1302 | a configured message wins, otherwise the default |
| PipelineParser.ReportersFor | zuul/configloader.py:1318-1329 | one reporter per configured connection, in order, each set to the action |
| PipelineParser.FirstForbidden | zuul/configloader.py:1319-1323 | the first connection the allow-list refuses, or none iff it permits all |
| PipelineParser.BuildActions | zuul/configloader.py:1314-1329 | succeeds iff every configured reporter connection is permitted, then holds each key's reporters; a failure names a refused configured connection |
| PipelineParser.ReporterNames | zuul/configloader.py:1315-1328 | exactly the connections named under some reporter key |
| PipelineParser.ManagerOf | zuul/configloader.py:1359-1371 | a manager exists exactly for the four known names |
| PipelineParser.FromYaml | zuul/configloader.py:1271-1409 | a ceiling below the floor, an unknown manager or a refused reporter or trigger connection fails; an accepted stanza is its reporter lists and manager assembled, with every kept reporter and trigger permitted |
| PipelineParser.Assemble | zuul/configloader.py:1278-1407 | name, description and disable limit as given; `allow-other-connections` and `dequeue-on-new-patchset` default to true, `ignore-dependencies` and `post-review` to false; `supercedes` as a list; defaults for precedence, every message (footer, enqueue and no-jobs empty) and the window keys, a given ceiling kept; reporter lists for every key with the failure fallbacks; permission kept; connections are exactly those named |
| PipelineParser.WithFallbacks | zuul/configloader.py:1331-1337 | empty merge-conflict and config-error lists take the failure list; others unchanged; permission is kept |
| PipelineParser.Connections | zuul/configloader.py:1314-1407 | exactly the reporter, require, reject and trigger connections |
| PipelineParser.ActionFallbacks | zuul/configloader.py:1331-1337 | in a parsed pipeline an empty merge-conflict or config-error action is the failure action, a configured one is its own |
| PipelineParser.WindowDefaults | zuul/configloader.py:1342-1357 | without window keys: window 20, floor 3, no ceiling, linear increase by 1, exponential decrease by 2 |
| PipelineParser.FromYamlAccepts | zuul/configloader.py:1271-1409 | a stanza is accepted iff every reporter and trigger connection is allowed, the ceiling is not below the floor and the manager is known |
| PipelineParser.QueueFromYaml | zuul/configloader.py:1453-1469 | flags default to false; dependencies-by-topic without circular dependencies fails, and a parsed queue never has one without the other |
| TenantParser.Setting | zuul/configloader.py:1907-1961 | `get(key)` is present exactly when the key is set to something other than null |
| TenantParser.ClassSet | zuul/configloader.py:1911-1916 | the classes are exactly the items `as_list` gives |
| TenantParser.SplitExtraPaths | zuul/configloader.py:1955-1961 | succeeds iff every path is a string; paths ending in `/` become directories without the slash, the rest files, none lost |
| TenantParser.AlwaysDynamic | zuul/configloader.py:1943-1954 | corrected: every pattern becomes always-dynamic, and the excluded patterns gain exactly those the exclude list does not already name |
| TenantParser.AlwaysDynamicAsWritten | zuul/configloader.py:1948-1952 | as written: a list setting is walked item by item, a string setting character by character |
| TenantParser.IterateAsWritten | zuul/configloader.py:1948 | `for x in v` visits the items of a list, the characters of a string, and the keys of a mapping, each once |
| TenantParser.AlwaysDynamicWalk | zuul/configloader.py:1948-1952 | the as-written loop over the visited patterns keeps every pattern as always-dynamic |
| TenantParser.AlwaysDynamicStringSetting | zuul/configloader.py:1941-1952 | the string setting `ab` gives patterns `a` and `b` as written and `ab` once corrected; on lists the two agree |
| TenantParser.WalkAgrees | zuul/configloader.py:1943-1952 | for a list setting and a list exclude, the as-written walk equals the corrected loop |
| TenantParser.ProjectWithOptions | zuul/configloader.py:1906-1966 | load classes are the include (or inherited) minus the exclude; shadow projects, `exclude-unprotected-branches`, `load-branch` and `implied-branch-matchers` as given; `include-branches` as a list when set; `always-dynamic-branches` as a list, its patterns added to the excluded ones, which start with `exclude-branches` and are exactly the union of both; extra paths split into files and directories |
| TenantParser.GetProject | zuul/configloader.py:1895-1982 | a name inherits the current classes and sets nothing else; a one-entry mapping configures its key's project and needs a mapping of options |
| TenantParser.GroupInclude | zuul/configloader.py:1992-1998 | a class is handed on iff it is in the group's include (or the inherited classes when there is none) and not in its exclude |
| TenantParser.GroupEntries | zuul/configloader.py:1999-2002 | corrected: a non-empty string is one project, a list its items, a falsy value none |
| TenantParser.GroupEntriesAsWritten | zuul/configloader.py:1999 | as written: a list is walked item by item, a string by single characters, and a single project mapping by its keys as bare names |
| TenantParser.GroupEntriesStringSetting | zuul/configloader.py:1999-2002 | a group listing `ab` visits `a` and `b` as written and `ab` once corrected; on lists they agree |
| TenantParser.GroupSingleMappingDropsOverrides | zuul/configloader.py:1999-2002 | a group whose `projects` is the mapping `foo: {include: []}` loads `foo` as a plain project with the group's classes as written, but with no classes once normalised |
| TenantParser.GetProjects | zuul/configloader.py:1984-2009 | a name is one project; a one-entry mapping is a project with overrides; a group hands its classes to every entry in order; anything else fails |
| TenantParser.GetAll | zuul/configloader.py:1999-2002 | a group of plain names gives one project per name, in order, with the group's classes |
| TenantBranches.IndexOf | zuul/configloader.py:1866-1867 | the position of the first occurrence |
| TenantBranches.RemoveFirst | zuul/configloader.py:1867 | `list.remove` drops exactly one occurrence |
| TenantBranches.RemoveFirstSorted | zuul/configloader.py:1863-1868 | removing the default branch keeps the rest sorted |
| TenantBranches.OrderBranches | zuul/configloader.py:1863-1868 | a permutation of the branches: the default branch first when present, the rest sorted |
| TenantBranches.Partition | zuul/configloader.py:1869-1876 | static branches are exactly the included ones; always-dynamic ones exactly the non-included always-dynamic ones |
| TenantBranches.ProjectBranches | zuul/configloader.py:1851-1878 | static and always-dynamic lists as above, with an included default branch first |
| TenantBranches.BranchListsDisjoint | zuul/configloader.py:1869-1878 | no branch is both static and always-dynamic, and every included branch is static |
| TenantBranches.DynamicBranches | zuul/configloader.py:2884-2901 | trusted: only the load branch, `master` when unset; untrusted: the cached branches first, then new always-dynamic branches of the queue |
| TenantBranches.NewDynamic | zuul/configloader.py:2896-2899 | exactly the extra branches not cached and always-dynamic |
| TenantBranches.WithPrefix | zuul/configloader.py:2921-2924 | exactly the files with the prefix |
| TenantBranches.FileHits | zuul/configloader.py:2925-2927 | the file is listed iff it is an extra file, and only itself |
| TenantBranches.DirHits | zuul/configloader.py:2928-2930 | the file is listed iff it lies under some extra directory, and only itself |
| TenantBranches.AllFileHits | zuul/configloader.py:2920-2927 | exactly the files that are extra files |
| TenantBranches.AllDirHits | zuul/configloader.py:2920-2930 | exactly the files under some extra directory |
| TenantBranches.SortedSection | zuul/configloader.py:2931-2932 | sorted, holding exactly the files with the prefix |
| TenantBranches.AfterDotZuulYaml | zuul/configloader.py:2931-2932 | exactly the `.zuul.d/` files, extra files and files under extra directories, in three blocks: the sorted `.zuul.d/` files, the extra-file hits in their listed order, then the directory hits sorted |
| TenantBranches.ConfigFileOrder | zuul/configloader.py:2904-2932 | reads exactly the configuration files: `zuul.yaml` first, then the sorted `zuul.d/` files, then `.zuul.yaml`, then the `.zuul.d/` and extra blocks in their order |
| TenantBranches.ZuulDSection | zuul/configloader.py:2921-2932 | the `zuul.d/` section is sorted and holds exactly the branch's `zuul.d/` files |
| TenantBranches.NestedExtraDirsRepeatFile | zuul/configloader.py:2928-2930 | a file under two nested extra directories is read twice |
| Scheduler.NodeHoldExpiration | zuul/scheduler.py:807-817 | none requested gives the default; with a maximum, unlimited or too long gives the maximum; otherwise the request |
| Scheduler.HoldExpirationBounded | zuul/scheduler.py:811-815 | with a positive maximum an expiration is never unlimited nor above it |
| Scheduler.CarriedWindow | zuul/scheduler.py:1201-1222 | a static configuration or a zero old window gives the new window; otherwise at least the old window and the new floor, and one of them |
| Scheduler.StaticWindowKept | zuul/scheduler.py:1201-1211 | a static window keeps its configured size |
| Scheduler.FindBuildSet | zuul/scheduler.py:1924-1943 | the first item whose current build set has the UUID; none iff no item has it |
| Scheduler.FirstWithUuid | zuul/scheduler.py:1937-1941 | the first position from the start point with the UUID; none iff there is none |
| Scheduler.FindBuild | zuul/scheduler.py:1945-1971 | a found build is in the found build set, under the event's job, with the event's UUID |
| Scheduler.StaleResultDiscarded | zuul/scheduler.py:1924-1971 | a result is discarded iff no current build set has its UUID, or that build set has no such job, or the job's build has another UUID |
| Scheduler.CompleteBuild | zuul/scheduler.py:2071-2099 | a missing result or ABORTED retries, MERGER_FAILURE while attempts remain; a retry reports RETRY; a canceled build keeps its result or CANCELED and never retries |
| Scheduler.MergerFailureAfterLastAttempt | zuul/scheduler.py:2075-2090 | after the last attempt a merger failure is reported as such |
| Scheduler.CompletedResult | zuul/scheduler.py:2020-2047 | a stale completion records the executor's result as is |
| Scheduler.FindItem | zuul/scheduler.py:1409-1413 | the item found is the first one in the queue that is for the change; none iff no item is |
| Scheduler.FindQueue | zuul/scheduler.py:1406-1413 | the first queue holding the change; none iff none holds it |
| Scheduler.Requested | zuul/scheduler.py:1417-1427 | succeeds iff every named change is in the queue, then its items in the order named |
| Scheduler.Others | zuul/scheduler.py:1428-1430 | exactly the queue items not requested |
| Scheduler.Promote | zuul/scheduler.py:1400-1438 | fails without a queue for the first change or when a named change is missing; otherwise the named items first, then the rest in queue order |
| Scheduler.ParseChangeId | zuul/scheduler.py:1403-1417 | an id parses iff it holds exactly one comma; the parts hold no comma and, joined with a comma, give the id back |
| Scheduler.ChangeIdRoundTrip | zuul/scheduler.py:1403 | an id printed as `number,patchset` from comma-free parts parses back to itself |
| Scheduler.ParseChangeIds | zuul/scheduler.py:1403 | the ids parse iff each one does, and then element by element |
| Scheduler.PromoteEvent | zuul/scheduler.py:1400-1438 | an event with an id that does not hold exactly one comma fails; otherwise it is the promote of the parsed ids |
| Scheduler.PromoteEventOfPrinted | zuul/scheduler.py:1400-1438 | an event naming comma-free ids as `number,patchset` promotes exactly those changes |
| Strings.SplitJoin | zuul/scheduler.py:1403 | joining the pieces of `split(',')` with the separator gives back the text |
| Strings.SplitCount | zuul/scheduler.py:1403 | `split` gives one piece more than there are separators |
| Scheduler.PromoteIsPermutation | zuul/scheduler.py:1417-1438 | with distinct items and each change named once, the new order is a permutation of the queue |
| Scheduler.DistinctCount | zuul/scheduler.py:1428-1430 | an item of a duplicate-free queue occurs once |
| Scheduler.OthersDistinct | zuul/scheduler.py:1428-1430 | the remaining items of a duplicate-free queue are duplicate-free |
| Scheduler.FindDequeue | zuul/scheduler.py:1457-1468 | the first matching item in queue order; none iff no item matches |
| Scheduler.FirstMatch | zuul/scheduler.py:1458-1468 | the first matching position from the start; none iff none matches |
| Scheduler.DoDequeue | zuul/scheduler.py:1440-1471 | unknown tenant, pipeline or project and a change of another project fail in that order; otherwise it fails iff no item matches |
| ExecutorClient.GearPrecedenceOf | zuul/executor/client.py:204-209 | normal, high and low map to the job queue's level of the same name |
| ExecutorClient.PrecedenceBijection | zuul/executor/client.py:204-209 | the mapping is one-to-one and onto |
| ExecutorClient.Classify | zuul/executor/client.py:270-317 | the reported result wins; retry iff already retrying, missing with attempts left, DISCONNECT, ABORTED, or MERGER_FAILURE with attempts left; a missing result after the last attempt is RETRY_LIMIT; canceled keeps the build's result |
| ExecutorClient.OnBuildCompleted | zuul/executor/client.py:265-325 | a meta job is consumed; a known build is reported and forgotten; otherwise nothing changes and an error is logged unless it was a stop request |
| ExecutorClient.MetaJobsLeaveBuildsAlone | zuul/executor/client.py:266-268 | a meta job's completion touches no build |
| ExecutorClient.ClientAgreesWithScheduler | zuul/executor/client.py:287-317 | for a reported result other than DISCONNECT the client classifies as the scheduler does |
| ExecutorClient.MissingResultAfterLastAttempt | zuul/executor/client.py:278-286 | a missing result after the last attempt is RETRY_LIMIT in the client but a retry in the scheduler |
| Reporter.CollectedAbsent | zuul/reporter/__init__.py:97-108 | a file with no entry has no comments |
| Reporter.Extend | zuul/reporter/__init__.py:105-106 | `setdefault(...).extend`: the file gains an entry and keys stay distinct |
| Reporter.ExtendCollected | zuul/reporter/__init__.py:105-106 | the file's comments gain the new ones at the end; other files are unchanged |
| Reporter.ExtendAll | zuul/reporter/__init__.py:104-106 | the files are those of both dicts, each once |
| Reporter.ExtendAllCollected | zuul/reporter/__init__.py:104-106 | each file's comments are the earlier ones followed by the build's |
| Reporter.GatherBuildComments | zuul/reporter/__init__.py:100-106 | the files are those of every build, each once |
| Reporter.GatherCollected | zuul/reporter/__init__.py:100-106 | each file's comments are every build's comments for it, in build order |
| Reporter.ErrorComment | zuul/reporter/__init__.py:88-95 | a ranged comment at the mark's end line whose start line is the mark's line plus one |
| Reporter.ErrorPaths | zuul/reporter/__init__.py:74-88 | only files of the change get error comments |
| Reporter.AddConfigErrorComments | zuul/reporter/__init__.py:74-95 | the files gain exactly the paths of relevant errors, each once |
| Reporter.ConfigErrorsCollected | zuul/reporter/__init__.py:74-95 | each file gains one comment per relevant error, in order, and only errors with context, mark and short error on the change's project, branch and files count |
| Reporter.FileCommentsOf | zuul/reporter/__init__.py:97-108 | the files are those of the builds and of relevant errors, each once |
| Reporter.FileCommentsCollected | zuul/reporter/__init__.py:97-108 | each file's comments are the builds' comments followed by its error comments |
| Reporter.FilterComments | zuul/reporter/__init__.py:115-128 | exactly the entries for changed files are kept, and every other entry gives one warning |
| Reporter.FilterWarnings | zuul/reporter/__init__.py:125-128 | there is a warning for a file iff the file had comments and is not in the change |
| Reporter.FilterCollected | zuul/reporter/__init__.py:115-128 | a changed file keeps its comments; any other file has none |
| Reporter.FileCommentsOnChangedFiles | zuul/reporter/__init__.py:97-128 | after filtering, a changed file has its builds' and errors' comments and no other file has any |
| Reporter.ReasonOf | zuul/reporter/__init__.py:193-216 | the reason chosen applies and no reason ranked higher does |
| Reporter.WithReason | zuul/reporter/__init__.py:195-201 | a text reason is appended on its own line; any other value adds nothing |
| Reporter.WithJobs | zuul/reporter/__init__.py:217-221 | the message is kept at the front and the job list is at the end after a blank line |
| Reporter.FormatFailure | zuul/reporter/__init__.py:193-222 | each reason gives its own text: bundle cannot merge, needing change, missing requirement, bundle failing, merge conflict, first config error, else the failure message |
| Reporter.BundleCannotMergeFirst | zuul/reporter/__init__.py:194-197 | a bundle that cannot merge wins over every other reason |
| Reporter.DefaultFailureOnlyWithoutReason | zuul/reporter/__init__.py:215-216 | the pipeline's failure message is used iff no other reason applies |
| Reporter.Section | zuul/reporter/__init__.py:151-157 | a section is empty iff it has no lines |
| Reporter.SectionContains | zuul/reporter/__init__.py:151-157 | a section shows each of its lines |
| Reporter.FormatItemReport | zuul/reporter/__init__.py:145-162 | the body comes first; with nothing to add it is the report; a footer ends it |
| Reporter.FormatItemReportSections | zuul/reporter/__init__.py:151-162 | the report is the body, then the warning section, then the debug section, then the footer: folding the leading sections into the body gives the same report, and the footer is appended last |
| Reporter.ReportListsEveryMessage | zuul/reporter/__init__.py:151-157 | every warning and debug message appears in the report |
| Reporter.ElapsedParts | zuul/reporter/__init__.py:298-300 | hours, minutes under 60 and seconds under 60 that add up to the duration |
| Reporter.Elapsed | zuul/reporter/__init__.py:290-308 | empty iff times are off or a timestamp is missing; otherwise ` in ...s` with hours only when non-zero and minutes only with hours or when non-zero |
| Reporter.ElapsedShortDurations | zuul/reporter/__init__.py:301-306 | under a minute shows only seconds; under an hour minutes and two-digit seconds |
| Reporter.FieldsOf | zuul/reporter/__init__.py:285-324 | a missing or empty URL shows the job name; an error detail is shown after a space; non-voting jobs are marked |
| Reporter.SkippedByChildJobsIsIn | zuul/reporter/__init__.py:281-282 | a job is skipped iff it has an error detail that contains `Skipped due to child_jobs` |
| Reporter.JobsFields | zuul/reporter/__init__.py:268-325 | the lines are those of the jobs not skipped by child_jobs, at strictly increasing job indices and in job order; the count is the number of skipped jobs; so every job is listed or counted, nothing is counted iff no job was skipped, and nothing is listed iff all were |
| Reporter.JobsFieldsComplete | zuul/reporter/__init__.py:273-324 | every job not skipped by child_jobs is listed |
| Reporter.JobsFieldsSound | zuul/reporter/__init__.py:273-324 | every listed entry comes from a job not skipped by child_jobs |
| Reporter.SkippedTail | zuul/reporter/__init__.py:333-335 | nothing when no job was skipped, `Skipped 1 job` for one, `Skipped N jobs` otherwise |
| Reporter.JobsText | zuul/reporter/__init__.py:329-336 | the job lines come first and the skipped tail last |
| Reporter.FormatJobs | zuul/reporter/__init__.py:327-336 | the lines of the listed jobs, then the skipped tail |
| Reporter.JobsTextContains | zuul/reporter/__init__.py:331-332 | each job line appears in the text |
| Reporter.FormatJobsListsEveryJob | zuul/reporter/__init__.py:273-336 | every job not skipped by child_jobs has its line in the report |
| Reporter.JobLinesContain | zuul/reporter/__init__.py:331-332 | each job line appears among the lines |
| Reporter.AllSkipped | zuul/reporter/__init__.py:327-336 | when every job was skipped the report is only the skipped tail |
| LibConfig.GetBoolean | zuul/lib/config.py:20-21 | accepted iff the lower-cased text is a yes/no word; true iff a yes word |
| LibConfig.GetInt | zuul/lib/config.py:22-23 | accepted iff the text is digits with an optional sign |
| LibConfig.GetIntReadsIntToString | zuul/lib/config.py:22-23 | reading an integer's decimal text gives the integer back |
| LibConfig.ReadTyped | zuul/lib/config.py:20-25 | read as a boolean for a boolean default, as an integer for an integer default, as text otherwise |
| LibConfig.GetDefault | zuul/lib/config.py:16-30 | an absent option gives the default; a present one is read as the default's type, and its read error is the result; a falsy value is returned as read; a truthy value is expanded when asked, and must then be text |
| LibConfig.GetDefaultFails | zuul/lib/config.py:16-30 | reading fails iff the stored text does not read as the default's type, or expansion is asked of a truthy value that is not text |
| LibConfig.TextDefaultNeverFails | zuul/lib/config.py:16-30 | with a text or null default the read always succeeds, whether or not expansion is asked |
| LibConfig.NoExpansionOfFalsyValues | zuul/lib/config.py:28-29 | an empty or null default is never expanded |
| LibConfig.PyStr | zuul/lib/config.py:33-37 | a list's text starts with `[` and a dict's with `{` |
| LibConfig.IntTrueWordIsOne | zuul/lib/config.py:33-37 | the only integer whose text is a true word is 1 |
| LibConfig.AnyToBoolByKind | zuul/lib/config.py:33-37 | a boolean is itself, an integer true iff 1, text true iff a true word in any case, None, lists and dicts false |
| LibConfig.AnyToBoolAgreesWithGetBoolean | zuul/lib/config.py:33-37 | wherever `getboolean` accepts a text, `any_to_bool` reads it the same way |

## Left out

- Regular expressions: the `re`/`re2` engines are library code. Every matcher takes an `Engine` of three total functions, so each property holds for any engine.
- Time: `time.time()` in the Gerrit approval age checks is the parameter `now`. Build start and end times are whole seconds rather than floats, so `int(end - start)` needs no truncation.
- `os.path.expanduser`: a parameter `expand` of `LibConfig.GetDefault`.
- INI parsing: the configuration is already a map from section and option to text. `getint` accepts an optional sign and decimal digits; surrounding whitespace and digit-group underscores, which Python's `int()` also takes, are not modelled.
- Lookups into zuul/model.py (`tenant.getProject`, `source.getProject`, `getBuild`, tries and attempts counters) become parameters or fields of the input records. zuul/model.py is not part of this model, so the job dependency graph, `Freezable` and project-name ambiguity are not modelled either.
- The queue managers (`zuul/manager/*`) are not part of this model. Dequeueing, re-enqueueing, job cancellation and `addChange` after a promote are reduced to the positions and order they act on.
- ZooKeeper: storage, sessions, locks and retries in branch_cache.py and config_cache.py, plus zuul/zk/zkobject.py and zuul/zk/locks.py. The caches are in-memory maps. An unreadable record is a flag of the input.
- Scheduler plumbing: the main loop, threads, statistics, SQL reporting of builds and node cleanup. These are concurrency and external I/O.
- Executor submission and cancellation over Gearman, and the job payload: external I/O. The payload's result is an input of `ExecutorClient.Classify`.
- zuul/lib/fingergw.py and zuul/driver/sql/sqlreporter.py: sockets, workers and database writes.
- Configuration loading plumbing is not modelled: YAML loading, voluptuous schemas, thread pools, merger cat jobs, key storage, and the connection registry (`getReporter`, `getSource`, `getTrigger`). Schema checks are assumed done, so inputs have the shapes the schemas allow.
- Things the parsers hand on rather than decide are not modelled:
  - merge modes (`merge-mode`, `getProjectMergeModes`);
  - roles and the ansible version;
  - `required-projects`, secrets and the simple attributes;
  - tags, requires and provides;
  - the `SemaphoreParser` record.
- Report templates rendered with `str.format` (enqueue, start, success, no-jobs, dequeue and disabled), `_getFormatter` dispatch, status URLs and the other-bundle-items list. `Reporter.FormatItemReport` takes the formatted body, and `Reporter.FormatFailure` takes the status URL, job text and bundle text as inputs.
- `Reporter.JobsFields` assumes each job has a build in the current build set, as the source does when it reads `build.error_detail`. A `file_comments` value of the wrong shape in a build's result data is not modelled.
- Python dict and set iteration order: an insertion-ordered dict is a sequence of pairs. Where the source converts a set to a list, only the elements are stated.
- Gerrit events without a UUID are modelled with an empty UUID.
- `ChangeMatcher` string rendering keeps only the class name and the pattern, which is what `__str__` shows.
- Weakened contracts:
  - BranchCache.Difference: states membership and single occurrence only, because the source's order comes from a Python set.
  - TenantBranches.Partition: states which branches land in each list and that an included head branch stays first, but not that the lists keep the order of the input.
  - TenantBranches.ProjectBranches: as for `Partition`, order is stated only for the default branch.
  - GerritModel.RefFilterMatches: states what a passing change satisfies (one direction). `GerritModel.RejectFlagsComplementRequire` and `GerritModel.RejectApprovalComplementsRequire` give the converse for single settings.
  - GerritModel.EventFilterMatches: states what a passing event satisfies (one direction). `GerritModel.EmptyEventFilterPasses` gives the converse for a filter that constrains nothing.
  - TenantParser.IterateAsWritten: a mapping's keys are visited least first. The source visits them in insertion order, which the model's map does not record.
  - Re2Util.DeserializeRegex: a `pattern` that is not text or a `negate` that is not a boolean fails here, where the source hands both values to `ZuulRegex` unchecked. The model's regex holds only text and a flag, so such values have no counterpart.
  - Scheduler.PromoteIsPermutation: needs distinct items and each change named once. With a change named twice the source enqueues its item twice.
  - Scheduler.PromoteEvent: a malformed id fails the event before any queue is searched, and always with the same message. Depending on where the id sits and what the queues hold, the source raises `IndexError`, `ValueError` or its "Unable to find" exception instead. Either way the event fails and no queue changes.
  - NodeSetParser.LoadNodeset: error contracts are stated for forbidden labels and `localhost` nodes. Each remaining error kind is stated by `NodeSetParser.LoadNodes` or `NodeSetParser.LoadGroups`.

## Findings

| source | as written | input that shows it | evidently intended | confidence | as-written member | corrected member |
|---|---|---|---|---|---|---|
| zuul/configloader.py:87-94 | the `str` branch of `no_dup_config_paths` calls `check_config_path(x)` with `x` unbound, so every single-string `extra-config-paths` raises a NameError | `extra-config-paths: extra.yaml` | check the string itself, as the list branch checks each element | high, not executed | ConfigLoader.NoDupConfigPathsAsWritten | ConfigLoader.NoDupConfigPaths |
| zuul/change_matcher.py:133-138 | collection equality compares `str()` renderings, and a leaf renders only its pattern, so matchers differing only in negation compare equal | `MatchAllFiles([ZuulRegex("a", negate=True)])` vs `MatchAllFiles([ZuulRegex("a")])` on a change touching `x` | equal collections have equal matchers (class and regex, negation included) | medium, not executed | ChangeMatcher.CollectionEqualityIgnoresNegation | ChangeMatcher.CollectionEqualsAgrees |
| zuul/configloader.py:1941-1952 | `for b in always_dynamic_branches` walks the raw setting, which the schema lets be a single string, so each character becomes a pattern; `b not in exclude_branches` is a substring test when `exclude-branches` is a string | `always-dynamic-branches: ab` | normalise with `as_list` first, as the other branch settings are | medium, not executed | TenantParser.AlwaysDynamicAsWritten | TenantParser.AlwaysDynamic |
| zuul/configloader.py:1999-2002 | a project group iterates `conf['projects']` raw, which the schema lets be a single string or a single project mapping, so each character of a string is read as a project name, and a mapping's keys are read as plain names and its overrides dropped | a group with `projects: ab`, or with `projects: {foo: {include: []}}` | normalise with `as_list`, as the group's `include` and `exclude` are | medium, not executed | TenantParser.GroupEntriesAsWritten | TenantParser.GroupEntries |

=== FILE: branch_cache.dfy ===
/** zuul/zk/branch_cache.py: the per-connection cache of project branch
    lists. Two maps from project name to branch list: `protected` holds the
    protected branches, `remainder` every other branch. A project absent
    from the map a query needs must be asked of the source instead.

    Only the in-memory maps are modelled; storage and locking are not. */
module BranchCache {
  import opened Wrappers

  datatype Cache = Cache(protected: map<string, seq<string>>, remainder: map<string, seq<string>>)

  /** A freshly created cache. */
  const EmptyCache: Cache := Cache(map[], map[])

  /** No branch is recorded as both protected and unprotected. */
  ghost predicate Disjoint(c: Cache) {
    forall p, b :: p in c.protected && p in c.remainder && b in c.remainder[p] ==> b !in c.protected[p]
  }

  /** `list(set(a) - set(b))`. Python leaves the order to the set; this
      model keeps the first occurrence of each surviving element. */
  function Difference(a: seq<string>, b: seq<string>): (r: seq<string>)
    ensures forall x :: x in r <==> x in a && x !in b
    ensures forall i, j :: 0 <= i < j < |r| ==> r[i] != r[j]
    decreases |a|
  {
    if |a| == 0 then []
    else if a[0] in b then Difference(a[1..], b)
    else
      assert forall x :: x in a <==> x in a[1..] || x == a[0];
      var rest := Difference(a[1..], b + [a[0]]);
      assert a[0] in b + [a[0]];
      assert forall j :: 0 <= j < |rest| ==> rest[j] in rest && rest[j] != a[0];
      [a[0]] + rest
  }

  /** `getProjectBranches`: the protected list for a protected-only query,
      the protected list (or nothing) followed by the remainder otherwise,
      and `None` when the cache cannot answer. */
  function GetProjectBranches(c: Cache, project: string, excludeUnprotected: bool): (r: Option<seq<string>>)
    ensures excludeUnprotected ==> (r.None? <==> project !in c.protected)
    ensures excludeUnprotected && r.Some? ==> r.value == c.protected[project]
    ensures !excludeUnprotected ==> (r.None? <==> project !in c.remainder)
    ensures !excludeUnprotected && r.Some? ==>
              r.value == (if project in c.protected then c.protected[project] else []) + c.remainder[project]
  {
    if excludeUnprotected then
      if project in c.protected then Some(c.protected[project]) else None
    else
      if project in c.remainder then
        Some((if project in c.protected then c.protected[project] else []) + c.remainder[project])
      else None
  }

  /** `setProjectBranches`. A protected-only list replaces the protected
      entry and prunes those branches from a non-empty remainder; a full
      list is stored as the remainder, minus the protected branches when
      there are any. */
  function SetProjectBranches(c: Cache, project: string, excludeUnprotected: bool,
                              branches: seq<string>): (c': Cache)
    ensures excludeUnprotected ==> c'.protected == c.protected[project := branches]
    ensures !excludeUnprotected ==> c'.protected == c.protected
    ensures project in c'.remainder <==> project in c.remainder || !excludeUnprotected
    ensures forall q :: q != project ==>
              (q in c'.remainder <==> q in c.remainder) &&
              (q in c.remainder ==> c'.remainder[q] == c.remainder[q])
    ensures excludeUnprotected && project in c.remainder ==>
              forall b :: b in c'.remainder[project] <==> b in c.remainder[project] && b !in branches
    ensures !excludeUnprotected ==>
              forall b :: b in c'.remainder[project] <==>
                b in branches && !(project in c.protected && b in c.protected[project])
    ensures !excludeUnprotected && !(project in c.protected && |c.protected[project]| > 0) ==>
              c'.remainder[project] == branches
  {
    if excludeUnprotected then
      var remainder :=
        if project in c.remainder && |c.remainder[project]| > 0
        then c.remainder[project := Difference(c.remainder[project], branches)]
        else c.remainder;
      Cache(c.protected[project := branches], remainder)
    else
      var remainder :=
        if project in c.protected && |c.protected[project]| > 0
        then Difference(branches, c.protected[project])
        else branches;
      Cache(c.protected, c.remainder[project := remainder])
  }

  /** `clearProjectCache`: forget the project in both maps. */
  function ClearProjectCache(c: Cache, project: string): (c': Cache)
    ensures c'.protected.Keys == c.protected.Keys - {project}
    ensures c'.remainder.Keys == c.remainder.Keys - {project}
    ensures forall q :: q in c'.protected ==> c'.protected[q] == c.protected[q]
    ensures forall q :: q in c'.remainder ==> c'.remainder[q] == c.remainder[q]
  {
    Cache(c.protected - {project}, c.remainder - {project})
  }

  /** `clearProtectedProjectCache`: forget only the protected list. */
  function ClearProtectedProjectCache(c: Cache, project: string): (c': Cache)
    ensures c'.protected.Keys == c.protected.Keys - {project}
    ensures forall q :: q in c'.protected ==> c'.protected[q] == c.protected[q]
    ensures c'.remainder == c.remainder
  {
    Cache(c.protected - {project}, c.remainder)
  }

  /** After storing a protected-only list, a protected-only query returns
      exactly that list. */
  lemma SetThenGetProtected(c: Cache, project: string, branches: seq<string>)
    ensures GetProjectBranches(SetProjectBranches(c, project, true, branches), project, true) == Some(branches)
  {
  }

  /** After storing a full list, a full query answers, and every stored
      branch is in the answer. */
  lemma SetThenGetAll(c: Cache, project: string, branches: seq<string>)
    ensures var r := GetProjectBranches(SetProjectBranches(c, project, false, branches), project, false);
            r.Some? && forall b :: b in branches ==> b in r.value
  {
  }

  /** A full query after a full store returns the stored branches and
      nothing else, when the protected list (if any) is a subset of them. */
  lemma SetThenGetAllExact(c: Cache, project: string, branches: seq<string>)
    requires project in c.protected ==> forall b :: b in c.protected[project] ==> b in branches
    ensures var r := GetProjectBranches(SetProjectBranches(c, project, false, branches), project, false);
            r.Some? && forall b :: b in r.value <==> b in branches
  {
  }

  /** Each operation preserves disjointness; both stores make the
      project's two lists disjoint whatever the previous state. */
  lemma SetMakesDisjoint(c: Cache, project: string, excludeUnprotected: bool, branches: seq<string>)
    ensures var c' := SetProjectBranches(c, project, excludeUnprotected, branches);
            project in c'.protected && project in c'.remainder ==>
              forall b :: b in c'.remainder[project] ==> b !in c'.protected[project]
  {
    var c' := SetProjectBranches(c, project, excludeUnprotected, branches);
    if excludeUnprotected && project in c.remainder && |c.remainder[project]| == 0 {
      assert c'.remainder[project] == [];
    }
  }

  lemma OperationsPreserveDisjoint(c: Cache, project: string, excludeUnprotected: bool, branches: seq<string>)
    requires Disjoint(c)
    ensures Disjoint(SetProjectBranches(c, project, excludeUnprotected, branches))
    ensures Disjoint(ClearProjectCache(c, project))
    ensures Disjoint(ClearProtectedProjectCache(c, project))
  {
    SetMakesDisjoint(c, project, excludeUnprotected, branches);
  }

  /** Clearing one project leaves every query about another project as it
      was; afterwards the cleared project is unanswerable (fully) or, for
      the protected list only, unanswerable for protected-only queries. */
  lemma ClearLeavesOthers(c: Cache, project: string, other: string, excludeUnprotected: bool)
    requires other != project
    ensures GetProjectBranches(ClearProjectCache(c, project), other, excludeUnprotected)
            == GetProjectBranches(c, other, excludeUnprotected)
    ensures GetProjectBranches(ClearProtectedProjectCache(c, project), other, excludeUnprotected)
            == GetProjectBranches(c, other, excludeUnprotected)
    ensures GetProjectBranches(ClearProjectCache(c, project), project, excludeUnprotected).None?
    ensures GetProjectBranches(ClearProtectedProjectCache(c, project), project, true).None?
  {
  }
}

=== FILE: change_matcher.dfy ===
/** zuul/change_matcher.py: matchers that decide whether a change or ref
    falls under a job variant (by project, by branch, by the files it
    touches), and their conjunction and disjunction. */
module ChangeMatcher {
  import opened Wrappers
  import opened Values
  import opened Re2Util

  /** The attributes a matcher reads from a change. A ref without a branch
      attribute has `branch == None`; a change without a file list (or with
      `files = None`) has `files == None`. */
  datatype Change = Change(
    project: string,
    branch: Option<string>,
    ref: string,
    containingBranches: Option<seq<string>>,
    files: Option<seq<string>>)

  datatype Matcher =
    | ProjectMatcher(regex: ZuulRegex)
    | BranchMatcher(regex: ZuulRegex)
    | ImpliedBranchMatcher(regex: ZuulRegex)
    | MatchAllFiles(regexes: seq<ZuulRegex>)
    | MatchAnyFiles(regexes: seq<ZuulRegex>)
    | MatchAll(matchers: seq<Matcher>)
    | MatchAny(matchers: seq<Matcher>)

  /** `re.compile('^/COMMIT_MSG$').match(f)`: Python's `$` also matches
      just before a trailing newline. */
  predicate IsCommitMsg(f: string) {
    f == "/COMMIT_MSG" || f == "/COMMIT_MSG\n"
  }

  /** The change carries no file list worth checking: none at all, an empty
      one, or only the commit message pseudo-file. */
  predicate NoRealFiles(c: Change) {
    c.files.None? || |c.files.value| == 0
    || (|c.files.value| == 1 && IsCommitMsg(c.files.value[0]))
  }

  /* ---------------------------------------------------------------------- */
  /* Branch matching                                                         */
  /* ---------------------------------------------------------------------- */

  /** `BranchMatcher.matches`; `exact` is the class attribute `exactmatch`
      (true for `ImpliedBranchMatcher`). */
  function BranchMatches(e: Engine, regex: ZuulRegex, exact: bool, c: Change): bool {
    if c.branch.Some? then
      if exact then regex.pattern == c.branch.value else regex.Match(e, c.branch.value)
    else if regex.Match(e, c.ref) then true
    else if c.containingBranches.Some? then
      ContainingBranchMatches(e, regex, exact, c.containingBranches.value)
    else false
  }

  /** The loop over `containing_branches`, returning at the first hit. */
  function ContainingBranchMatches(e: Engine, regex: ZuulRegex, exact: bool,
                                   branches: seq<string>): (r: bool)
    ensures r <==> exists i :: 0 <= i < |branches| &&
                     (if exact then regex.pattern == branches[i] else regex.FullMatch(e, branches[i]))
  {
    if |branches| == 0 then false
    else if exact && regex.pattern == branches[0] then true
    else if !exact && regex.FullMatch(e, branches[0]) then true
    else
      var rest := ContainingBranchMatches(e, regex, exact, branches[1..]);
      assert forall i :: 0 < i < |branches| ==> branches[1..][i - 1] == branches[i];
      rest
  }

  /* ---------------------------------------------------------------------- */
  /* File matching                                                           */
  /* ---------------------------------------------------------------------- */

  /** Some regex of the matcher matches file `f` (the inner loop). */
  function SomeRegexMatches(e: Engine, regexes: seq<ZuulRegex>, f: string): (r: bool)
    ensures r <==> exists j :: 0 <= j < |regexes| && regexes[j].Match(e, f)
  {
    if |regexes| == 0 then false
    else if regexes[0].Match(e, f) then true
    else
      var rest := SomeRegexMatches(e, regexes[1..], f);
      assert forall j :: 0 < j < |regexes| ==> regexes[1..][j - 1] == regexes[j];
      rest
  }

  /** The loop of `MatchAllFiles.matches` after its two early exits. */
  function EveryFileMatched(e: Engine, regexes: seq<ZuulRegex>, files: seq<string>): (r: bool)
    ensures r <==> forall i :: 0 <= i < |files| ==>
                     (IsCommitMsg(files[i]) || exists j :: 0 <= j < |regexes| && regexes[j].Match(e, files[i]))
  {
    if |files| == 0 then true
    else if !SomeRegexMatches(e, regexes, files[0]) && !IsCommitMsg(files[0]) then false
    else
      var rest := EveryFileMatched(e, regexes, files[1..]);
      assert forall i :: 0 < i < |files| ==> files[1..][i - 1] == files[i];
      rest
  }

  /** The loop of `MatchAnyFiles.matches` after its two early exits. */
  function SomeFileMatched(e: Engine, regexes: seq<ZuulRegex>, files: seq<string>): (r: bool)
    ensures r <==> exists i :: 0 <= i < |files| &&
                     exists j :: 0 <= j < |regexes| && regexes[j].Match(e, files[i])
  {
    if |files| == 0 then false
    else if SomeRegexMatches(e, regexes, files[0]) then true
    else
      var rest := SomeFileMatched(e, regexes, files[1..]);
      assert forall i :: 0 < i < |files| ==> files[1..][i - 1] == files[i];
      rest
  }

  /* ---------------------------------------------------------------------- */
  /* matches                                                                 */
  /* ---------------------------------------------------------------------- */

  function Matches(e: Engine, m: Matcher, c: Change): bool
    decreases m, 1
  {
    match m
    case ProjectMatcher(regex) => regex.Match(e, c.project)
    case BranchMatcher(regex) => BranchMatches(e, regex, false, c)
    case ImpliedBranchMatcher(regex) => BranchMatches(e, regex, true, c)
    case MatchAllFiles(regexes) =>
      if c.files.None? || |c.files.value| == 0 then false
      else if |c.files.value| == 1 && IsCommitMsg(c.files.value[0]) then false
      else EveryFileMatched(e, regexes, c.files.value)
    case MatchAnyFiles(regexes) =>
      if c.files.None? || |c.files.value| == 0 then true
      else if |c.files.value| == 1 && IsCommitMsg(c.files.value[0]) then true
      else SomeFileMatched(e, regexes, c.files.value)
    case MatchAll(ms) => AllMatch(e, m, ms, c)
    case MatchAny(ms) => AnyMatch(e, m, ms, c)
  }

  /** `MatchAll.matches`: the first sub-matcher that fails decides. */
  function AllMatch(e: Engine, parent: Matcher, ms: seq<Matcher>, c: Change): bool
    requires forall i :: 0 <= i < |ms| ==> ms[i] < parent
    decreases parent, 0, |ms|
  {
    if |ms| == 0 then true
    else if !Matches(e, ms[0], c) then false
    else AllMatch(e, parent, ms[1..], c)
  }

  /** `MatchAny.matches`: the first sub-matcher that succeeds decides. */
  function AnyMatch(e: Engine, parent: Matcher, ms: seq<Matcher>, c: Change): bool
    requires forall i :: 0 <= i < |ms| ==> ms[i] < parent
    decreases parent, 0, |ms|
  {
    if |ms| == 0 then false
    else if Matches(e, ms[0], c) then true
    else AnyMatch(e, parent, ms[1..], c)
  }

  lemma {:induction false} AllMatchMeansEvery(e: Engine, parent: Matcher, ms: seq<Matcher>, c: Change)
    requires forall i :: 0 <= i < |ms| ==> ms[i] < parent
    ensures AllMatch(e, parent, ms, c) <==> forall i :: 0 <= i < |ms| ==> Matches(e, ms[i], c)
    decreases |ms|
  {
    if |ms| > 0 {
      AllMatchMeansEvery(e, parent, ms[1..], c);
      assert forall i :: 0 < i < |ms| ==> ms[1..][i - 1] == ms[i];
    }
  }

  lemma {:induction false} AnyMatchMeansSome(e: Engine, parent: Matcher, ms: seq<Matcher>, c: Change)
    requires forall i :: 0 <= i < |ms| ==> ms[i] < parent
    ensures AnyMatch(e, parent, ms, c) <==> exists i :: 0 <= i < |ms| && Matches(e, ms[i], c)
    decreases |ms|
  {
    if |ms| > 0 {
      AnyMatchMeansSome(e, parent, ms[1..], c);
      assert forall i :: 0 < i < |ms| ==> ms[1..][i - 1] == ms[i];
    }
  }

  /* ---------------------------------------------------------------------- */
  /* Properties of matches                                                   */
  /* ---------------------------------------------------------------------- */

  /** For a change with a branch, an implied branch matcher is an exact
      string comparison of its pattern with that branch. */
  lemma ImpliedBranchIsExact(e: Engine, regex: ZuulRegex, c: Change)
    requires c.branch.Some?
    ensures Matches(e, ImpliedBranchMatcher(regex), c) <==> regex.pattern == c.branch.value
  {
  }

  /** For a change with a branch, the ref and the containing branches are
      never consulted. */
  lemma BranchIgnoresRefWhenBranched(e: Engine, m: Matcher, c: Change, ref: string,
                                     containing: Option<seq<string>>)
    requires m.BranchMatcher? || m.ImpliedBranchMatcher?
    requires c.branch.Some?
    ensures Matches(e, m, c) == Matches(e, m, c.(ref := ref, containingBranches := containing))
  {
  }

  /** For a ref without a branch, a branch matcher matches iff its regex
      matches the ref or some containing branch matches (exactly for an
      implied matcher, as a full match otherwise). */
  lemma BranchlessMatching(e: Engine, m: Matcher, c: Change)
    requires m.BranchMatcher? || m.ImpliedBranchMatcher?
    requires c.branch.None?
    ensures Matches(e, m, c) <==>
      m.regex.Match(e, c.ref)
      || (c.containingBranches.Some? &&
          exists i :: 0 <= i < |c.containingBranches.value| &&
            (if m.ImpliedBranchMatcher? then m.regex.pattern == c.containingBranches.value[i]
             else m.regex.FullMatch(e, c.containingBranches.value[i])))
  {
  }

  /** `MatchAnyFiles` holds for a change with no real files; otherwise it
      holds iff some file matches some regex. */
  lemma MatchAnyFilesMeaning(e: Engine, regexes: seq<ZuulRegex>, c: Change)
    ensures NoRealFiles(c) ==> Matches(e, MatchAnyFiles(regexes), c)
    ensures !NoRealFiles(c) ==>
      (Matches(e, MatchAnyFiles(regexes), c) <==>
         exists i :: 0 <= i < |c.files.value| &&
           exists j :: 0 <= j < |regexes| && regexes[j].Match(e, c.files.value[i]))
  {
  }

  /** `MatchAllFiles` fails for a change with no real files; otherwise it
      holds iff every file is the commit message or matches some regex. */
  lemma MatchAllFilesMeaning(e: Engine, regexes: seq<ZuulRegex>, c: Change)
    ensures NoRealFiles(c) ==> !Matches(e, MatchAllFiles(regexes), c)
    ensures !NoRealFiles(c) ==>
      (Matches(e, MatchAllFiles(regexes), c) <==>
         forall i :: 0 <= i < |c.files.value| ==>
           (IsCommitMsg(c.files.value[i]) ||
            exists j :: 0 <= j < |regexes| && regexes[j].Match(e, c.files.value[i])))
  {
  }

  /** `MatchAll` is the conjunction of its matchers (true when empty) and
      `MatchAny` their disjunction (false when empty). */
  lemma CollectionsMeaning(e: Engine, ms: seq<Matcher>, c: Change)
    ensures Matches(e, MatchAll(ms), c) <==> forall i :: 0 <= i < |ms| ==> Matches(e, ms[i], c)
    ensures Matches(e, MatchAny(ms), c) <==> exists i :: 0 <= i < |ms| && Matches(e, ms[i], c)
    ensures |ms| == 0 ==> Matches(e, MatchAll(ms), c) && !Matches(e, MatchAny(ms), c)
  {
    AllMatchMeansEvery(e, MatchAll(ms), ms, c);
    AnyMatchMeansSome(e, MatchAny(ms), ms, c);
  }

  /* ---------------------------------------------------------------------- */
  /* Equality                                                                */
  /* ---------------------------------------------------------------------- */

  function ClassName(m: Matcher): string {
    match m
    case ProjectMatcher(_) => "ProjectMatcher"
    case BranchMatcher(_) => "BranchMatcher"
    case ImpliedBranchMatcher(_) => "ImpliedBranchMatcher"
    case MatchAllFiles(_) => "MatchAllFiles"
    case MatchAnyFiles(_) => "MatchAnyFiles"
    case MatchAll(_) => "MatchAll"
    case MatchAny(_) => "MatchAny"
  }

  predicate IsLeaf(m: Matcher) {
    m.ProjectMatcher? || m.BranchMatcher? || m.ImpliedBranchMatcher?
  }

  /** `AbstractChangeMatcher.__eq__` between two single-regex matchers: the
      same class and equal regexes. */
  predicate LeafEquals(a: Matcher, b: Matcher)
    requires IsLeaf(a) && IsLeaf(b)
  {
    ClassName(a) == ClassName(b) && a.regex == b.regex
  }

  /** Single-regex matchers compare equal exactly when they are the same
      matcher, so equal matchers agree on every change. */
  lemma LeafEqualsIsIdentity(e: Engine, a: Matcher, b: Matcher, c: Change)
    requires IsLeaf(a) && IsLeaf(b)
    ensures LeafEquals(a, b) <==> a == b
    ensures LeafEquals(a, b) ==> Matches(e, a, c) == Matches(e, b, c)
  {
  }

  /** `__str__` of a matcher: `{Class:pattern}` for one regex, and for a
      collection `{Class:` followed by its members' texts joined by commas.
      The members of a file matcher collection are `FileMatcher`s. The
      negate flag of a regex does not appear. */
  function Render(m: Matcher): string
    decreases m, 1
  {
    match m
    case ProjectMatcher(r) => "{ProjectMatcher:" + r.pattern + "}"
    case BranchMatcher(r) => "{BranchMatcher:" + r.pattern + "}"
    case ImpliedBranchMatcher(r) => "{ImpliedBranchMatcher:" + r.pattern + "}"
    case MatchAllFiles(rs) => "{MatchAllFiles:" + RenderFileMatchers(rs) + "}"
    case MatchAnyFiles(rs) => "{MatchAnyFiles:" + RenderFileMatchers(rs) + "}"
    case MatchAll(ms) => "{MatchAll:" + RenderList(m, ms) + "}"
    case MatchAny(ms) => "{MatchAny:" + RenderList(m, ms) + "}"
  }

  function RenderFileMatchers(rs: seq<ZuulRegex>): string {
    if |rs| == 0 then ""
    else if |rs| == 1 then "{FileMatcher:" + rs[0].pattern + "}"
    else "{FileMatcher:" + rs[0].pattern + "}," + RenderFileMatchers(rs[1..])
  }

  function RenderList(parent: Matcher, ms: seq<Matcher>): string
    requires forall i :: 0 <= i < |ms| ==> ms[i] < parent
    decreases parent, 0, |ms|
  {
    if |ms| == 0 then ""
    else if |ms| == 1 then Render(ms[0])
    else Render(ms[0]) + "," + RenderList(parent, ms[1..])
  }

  /** `AbstractMatcherCollection.__eq__` as written: the two matchers'
      texts are equal. */
  predicate CollectionEqualsAsWritten(a: Matcher, b: Matcher) {
    Render(a) == Render(b)
  }

  /** Two file matchers that differ only in the negate flag of their regex
      compare equal under the text comparison, yet disagree on a change. */
  lemma CollectionEqualityIgnoresNegation()
    ensures var a := MatchAllFiles([ZuulRegex("a", true)]);
            var b := MatchAllFiles([ZuulRegex("a", false)]);
            var e := Engine((p, s) => true, (p, s) => true, (p, s) => true);
            var c := Change("p", Some("main"), "refs/heads/main", None, Some(["x"]));
            CollectionEqualsAsWritten(a, b) && Matches(e, a, c) != Matches(e, b, c)
  {
    var a := MatchAllFiles([ZuulRegex("a", true)]);
    var b := MatchAllFiles([ZuulRegex("a", false)]);
    var e := Engine((p, s) => true, (p, s) => true, (p, s) => true);
    var c := Change("p", Some("main"), "refs/heads/main", None, Some(["x"]));
    assert !IsCommitMsg("x");
    assert !Matches(e, a, c);
    assert Matches(e, b, c);
  }

  /** Collection equality as evidently intended: the same class, and the
      members pairwise equal under each member's own equality (a leaf or a
      file matcher by class and regex, negate flag included; a nested
      collection recursively). */
  predicate CollectionEquals(a: Matcher, b: Matcher)
    decreases a, 1
  {
    match a
    case ProjectMatcher(r) => b.ProjectMatcher? && b.regex == r
    case BranchMatcher(r) => b.BranchMatcher? && b.regex == r
    case ImpliedBranchMatcher(r) => b.ImpliedBranchMatcher? && b.regex == r
    case MatchAllFiles(rs) => b.MatchAllFiles? && RegexesEqual(rs, b.regexes)
    case MatchAnyFiles(rs) => b.MatchAnyFiles? && RegexesEqual(rs, b.regexes)
    case MatchAll(ms) => b.MatchAll? && MembersEqual(a, ms, b.matchers)
    case MatchAny(ms) => b.MatchAny? && MembersEqual(a, ms, b.matchers)
  }

  /** File matchers compared pairwise by regex. */
  predicate RegexesEqual(rs: seq<ZuulRegex>, ss: seq<ZuulRegex>) {
    |rs| == |ss| && forall i :: 0 <= i < |rs| ==> rs[i] == ss[i]
  }

  /** Member lists compared pairwise with `CollectionEquals`. */
  predicate MembersEqual(parent: Matcher, ms: seq<Matcher>, ns: seq<Matcher>)
    requires forall i :: 0 <= i < |ms| ==> ms[i] < parent
    decreases parent, 0, |ms|
  {
    |ms| == |ns| && (|ms| == 0 || (CollectionEquals(ms[0], ns[0]) && MembersEqual(parent, ms[1..], ns[1..])))
  }

  /** The corrected equality is exactly structural identity of matchers. */
  lemma {:induction false} CollectionEqualsIsEquality(a: Matcher, b: Matcher)
    ensures CollectionEquals(a, b) <==> a == b
    decreases a, 1
  {
    match a
    case MatchAll(ms) =>
      if b.MatchAll? { MembersEqualIsEquality(a, ms, b.matchers); }
    case MatchAny(ms) =>
      if b.MatchAny? { MembersEqualIsEquality(a, ms, b.matchers); }
    case _ =>
  }

  lemma {:induction false} MembersEqualIsEquality(parent: Matcher, ms: seq<Matcher>, ns: seq<Matcher>)
    requires forall i :: 0 <= i < |ms| ==> ms[i] < parent
    ensures MembersEqual(parent, ms, ns) <==> ms == ns
    decreases parent, 0, |ms|
  {
    if |ms| == |ns| && |ms| > 0 {
      CollectionEqualsIsEquality(ms[0], ns[0]);
      MembersEqualIsEquality(parent, ms[1..], ns[1..]);
      assert ms == [ms[0]] + ms[1..] && ns == [ns[0]] + ns[1..];
    }
  }

  /** Matchers that compare equal under the corrected equality agree on
      every change, for every regular-expression engine, and also compare
      equal as written: the correction only separates matchers the text
      comparison wrongly merged. */
  lemma CollectionEqualsAgrees(e: Engine, a: Matcher, b: Matcher, c: Change)
    requires CollectionEquals(a, b)
    ensures Matches(e, a, c) == Matches(e, b, c)
    ensures Render(a) == Render(b)
    ensures CollectionEqualsAsWritten(a, b)
  {
    CollectionEqualsIsEquality(a, b);
  }

  /* ---------------------------------------------------------------------- */
  /* BranchMatcher.serialize / deserialize                                   */
  /* ---------------------------------------------------------------------- */

  /** `BranchMatcher.serialize`: before model API 17 only the pattern text
      is written, from 17 on the whole regex. */
  function SerializeBranchMatcher(m: Matcher, modelApi: int): (d: Value)
    requires m.BranchMatcher? || m.ImpliedBranchMatcher?
    ensures d.Dict? && "implied" in d.entries && "regex" in d.entries
    ensures d.entries["implied"] == Bool(m.ImpliedBranchMatcher?)
    ensures modelApi < 17 ==> d.entries["regex"] == Str(m.regex.pattern)
    ensures modelApi >= 17 ==> DeserializeRegex(d.entries["regex"]) == Success(m.regex)
  {
    RegexRoundTrip(m.regex);
    Dict(map["implied" := Bool(m.ImpliedBranchMatcher?),
             "regex" := if modelApi < 17 then Str(m.regex.pattern) else m.regex.Serialize()])
  }

  /** `BranchMatcher.deserialize`, a class method: the matcher built is of
      the class it is called on (`implied`), not the one recorded in the
      data. A bare string is read as a non-negated pattern. */
  function DeserializeBranchMatcher(implied: bool, data: Value): (r: Result<Matcher, string>)
    ensures r.Success? ==> (if implied then r.value.ImpliedBranchMatcher? else r.value.BranchMatcher?)
    ensures !data.Dict? || "regex" !in data.entries ==> r.Failure?
    ensures data.Dict? && "regex" in data.entries && data.entries["regex"].Str? ==>
              r.Success? && r.value.regex == ZuulRegex(data.entries["regex"].s, false)
    ensures data.Dict? && "regex" in data.entries && data.entries["regex"].Dict? ==>
              (r.Success? <==> DeserializeRegex(data.entries["regex"]).Success?) &&
              (r.Success? ==> r.value.regex == DeserializeRegex(data.entries["regex"]).value)
    ensures data.Dict? && "regex" in data.entries && !data.entries["regex"].Dict? && !data.entries["regex"].Str?
            ==> r.Failure?
  {
    if !data.Dict? || "regex" !in data.entries then Failure("KeyError: regex")
    else
      var raw := data.entries["regex"];
      var regex :- if raw.Dict? then DeserializeRegex(raw)
                   else if raw.Str? then Success(ZuulRegex(raw.s, false))
                   else Failure("regex has the wrong type");
      Success(if implied then ImpliedBranchMatcher(regex) else BranchMatcher(regex))
  }

  /** From model API 17 on, deserializing through the matcher's own class
      gives the matcher back. */
  lemma BranchMatcherRoundTrip(m: Matcher, modelApi: int)
    requires m.BranchMatcher? || m.ImpliedBranchMatcher?
    requires modelApi >= 17
    ensures DeserializeBranchMatcher(m.ImpliedBranchMatcher?, SerializeBranchMatcher(m, modelApi)) == Success(m)
  {
    RegexRoundTrip(m.regex);
  }

  /** Before model API 17 the round trip keeps the pattern but loses the
      negate flag: it gives the matcher back iff the regex is not negated. */
  lemma BranchMatcherOldApiLosesNegation(m: Matcher, modelApi: int)
    requires m.BranchMatcher? || m.ImpliedBranchMatcher?
    requires modelApi < 17
    ensures DeserializeBranchMatcher(m.ImpliedBranchMatcher?, SerializeBranchMatcher(m, modelApi)).Success?
    ensures DeserializeBranchMatcher(m.ImpliedBranchMatcher?, SerializeBranchMatcher(m, modelApi)) == Success(m)
            <==> !m.regex.negate
  {
  }
}

=== FILE: config_cache.dfy ===
/** zuul/zk/config_cache.py: the cache of raw configuration files of one
    project branch (`FilesCache`), its validity record, and the tree of
    such caches per project and branch (`UnparsedConfigCache`).

    Only the stored data is modelled: the validity record as it reads back
    from storage, and the cached files as a map from name to content. Path
    quoting is the identity here; storage, sharding and locks are not
    modelled. */
module ConfigCache {
  import opened Wrappers
  import opened Strings

  /** The validity record at the cache's root, as read back. `Absent` is a
      missing node; `Unreadable` is data that is not a JSON object. A key
      the object lacks is `None`. */
  datatype Metadata =
    | Absent
    | Unreadable
    | Stored(filesSearched: Option<seq<string>>, dirsSearched: Option<seq<string>>, ltime: Option<int>)

  datatype FilesCache = FilesCache(meta: Metadata, files: map<string, string>)

  const EmptyFilesCache: FilesCache := FilesCache(Absent, map[])

  /* ---------------------------------------------------------------------- */
  /* Validity                                                                */
  /* ---------------------------------------------------------------------- */

  /** `setValidFor`: record the searched extra files and dirs and the
      logical time. */
  function SetValidFor(fc: FilesCache, extraFiles: seq<string>, extraDirs: seq<string>, ltime: int): (fc': FilesCache)
    ensures fc'.files == fc.files
    ensures fc'.meta.Stored? && fc'.meta.ltime == Some(ltime)
  {
    fc.(meta := Stored(Some(extraFiles), Some(extraDirs), Some(ltime)))
  }

  /** `isValidFor`: there is a readable record with all three keys, its
      logical time is not older than `minLtime`, and the project's extra
      files and dirs were all searched. */
  function IsValidFor(fc: FilesCache, tpcFiles: seq<string>, tpcDirs: seq<string>, minLtime: int): (r: bool)
    ensures fc.meta.Absent? || fc.meta.Unreadable? ==> !r
    ensures fc.meta.Stored? && (fc.meta.filesSearched.None? || fc.meta.dirsSearched.None? || fc.meta.ltime.None?) ==> !r
    ensures fc.meta.Stored? && fc.meta.ltime.Some? && fc.meta.ltime.value < minLtime ==> !r
    ensures r ==> forall f :: f in tpcFiles ==> f in fc.meta.filesSearched.value
    ensures r ==> forall d :: d in tpcDirs ==> d in fc.meta.dirsSearched.value
  {
    match fc.meta
    case Absent => false
    case Unreadable => false
    case Stored(files, dirs, ltime) =>
      if files.None? || dirs.None? || ltime.None? then false
      else if ltime.value < minLtime then false
      else AllIn(tpcFiles, files.value) && AllIn(tpcDirs, dirs.value)
  }

  /** `set(xs) <= set(ys)`. */
  function AllIn(xs: seq<string>, ys: seq<string>): (r: bool)
    ensures r <==> forall x :: x in xs ==> x in ys
  {
    if |xs| == 0 then true
    else
      assert forall x :: x in xs <==> x == xs[0] || x in xs[1..];
      xs[0] in ys && AllIn(xs[1..], ys)
  }

  /** After `setValidFor(F, D, t)` the cache is valid for a project and a
      minimum logical time `m` iff `t >= m` and the project's extra files
      and dirs are subsets of `F` and `D`: a subset is valid, an extra
      file or dir makes it invalid. */
  lemma ValidAfterSet(fc: FilesCache, extraFiles: seq<string>, extraDirs: seq<string>, ltime: int,
                      tpcFiles: seq<string>, tpcDirs: seq<string>, minLtime: int)
    ensures IsValidFor(SetValidFor(fc, extraFiles, extraDirs, ltime), tpcFiles, tpcDirs, minLtime)
            <==> ltime >= minLtime
                 && (forall f :: f in tpcFiles ==> f in extraFiles)
                 && (forall d :: d in tpcDirs ==> d in extraDirs)
  {
  }

  /** The `ltime` property: the stored logical time, or -1 when there is
      no readable record or it lacks the key. */
  function LTime(fc: FilesCache): (t: int)
    ensures fc.meta.Stored? && fc.meta.ltime.Some? ==> t == fc.meta.ltime.value
    ensures !(fc.meta.Stored? && fc.meta.ltime.Some?) ==> t == -1
  {
    if fc.meta.Stored? && fc.meta.ltime.Some? then fc.meta.ltime.value else -1
  }

  /** `ltime` reads back what `setValidFor` stored. */
  lemma LTimeAfterSet(fc: FilesCache, extraFiles: seq<string>, extraDirs: seq<string>, ltime: int)
    ensures LTime(SetValidFor(fc, extraFiles, extraDirs, ltime)) == ltime
  {
  }

  /* ---------------------------------------------------------------------- */
  /* The mapping of file names to contents                                   */
  /* ---------------------------------------------------------------------- */

  /** `fc[name]`; a missing name is a KeyError. */
  function GetFile(fc: FilesCache, name: string): (r: Option<string>)
    ensures r.None? <==> name !in fc.files
    ensures r.Some? ==> fc.files[name] == r.value
  {
    if name in fc.files then Some(fc.files[name]) else None
  }

  /** `fc[name] = content`. */
  function SetFile(fc: FilesCache, name: string, content: string): (fc': FilesCache)
    ensures fc'.meta == fc.meta
    ensures fc'.files.Keys == fc.files.Keys + {name}
    ensures fc'.files[name] == content
    ensures forall k :: k != name && k in fc.files ==> fc'.files[k] == fc.files[k]
  {
    fc.(files := fc.files[name := content])
  }

  /** `del fc[name]`; a missing name is a KeyError. */
  function DeleteFile(fc: FilesCache, name: string): (r: Result<FilesCache, string>)
    ensures r.Failure? <==> name !in fc.files
    ensures r.Success? ==> r.value.files.Keys == fc.files.Keys - {name}
    ensures r.Success? ==> r.value.meta == fc.meta
    ensures r.Success? ==> forall k :: k in r.value.files ==> r.value.files[k] == fc.files[k]
  {
    if name !in fc.files then Failure("KeyError")
    else Success(fc.(files := fc.files - {name}))
  }

  /** Reading a file back gives what was last written under its name and
      leaves other names alone; a deleted name reads as missing. */
  lemma FileRoundTrip(fc: FilesCache, name: string, other: string, content: string)
    requires other != name
    ensures GetFile(SetFile(fc, name, content), name) == Some(content)
    ensures GetFile(SetFile(fc, name, content), other) == GetFile(fc, other)
    ensures DeleteFile(SetFile(fc, name, content), name).Success?
    ensures GetFile(DeleteFile(SetFile(fc, name, content), name).value, name).None?
    ensures GetFile(DeleteFile(SetFile(fc, name, content), name).value, other) == GetFile(fc, other)
  {
  }

  /** `len(fc)`: the number of cached files. */
  function Len(fc: FilesCache): nat {
    |fc.files.Keys|
  }

  /** `iter(fc)`: every cached file name once, in sorted order. */
  method Iter(fc: FilesCache) returns (names: seq<string>)
    ensures SortedBy(names, Identity)
    ensures forall n :: n in names <==> n in fc.files
    ensures |names| == Len(fc)
  {
    names := [];
    var rest := fc.files.Keys;
    while rest != {}
      invariant rest <= fc.files.Keys
      invariant SortedBy(names, Identity)
      invariant forall n :: n in names <==> n in fc.files && n !in rest
      invariant |names| + |rest| == |fc.files.Keys|
      decreases |rest|
    {
      var x :| x in rest;
      var names' := InsertBy(x, names, Identity);
      assert forall n :: n in names' <==> n in multiset(names) + multiset{x};
      names, rest := names', rest - {x};
    }
  }

  /* ---------------------------------------------------------------------- */
  /* UnparsedConfigCache                                                     */
  /* ---------------------------------------------------------------------- */

  /** Files caches by project canonical name, then branch name. */
  datatype UnparsedConfigCache = UnparsedConfigCache(projects: map<string, map<string, FilesCache>>)

  /** `getFilesCache`: the cache under a project branch; one that was never
      written (or was cleared) is empty and has no validity record. */
  function GetFilesCache(u: UnparsedConfigCache, project: string, branch: string): (fc: FilesCache)
    ensures project !in u.projects || branch !in u.projects[project] ==> fc == EmptyFilesCache
  {
    if project in u.projects && branch in u.projects[project] then u.projects[project][branch]
    else EmptyFilesCache
  }

  /** `clearCache(project)` drops every branch of the project;
      `clearCache(project, branch)` drops only that branch. */
  function ClearCache(u: UnparsedConfigCache, project: string, branch: Option<string>): (u': UnparsedConfigCache)
    ensures branch.None? ==> project !in u'.projects
    ensures branch.Some? ==> project !in u'.projects || branch.value !in u'.projects[project]
    ensures forall p :: p != project ==> (p in u'.projects <==> p in u.projects)
    ensures forall p :: p != project && p in u.projects ==> u'.projects[p] == u.projects[p]
    ensures branch.Some? && project in u.projects ==>
              project in u'.projects && u'.projects[project] == u.projects[project] - {branch.value}
  {
    if branch.None? then UnparsedConfigCache(u.projects - {project})
    else if project in u.projects then
      UnparsedConfigCache(u.projects[project := u.projects[project] - {branch.value}])
    else u
  }

  /** After clearing, the cleared caches read back empty and invalid, and
      every other project branch reads back unchanged. */
  lemma ClearCacheScope(u: UnparsedConfigCache, project: string, branch: Option<string>,
                        p: string, b: string, tpcFiles: seq<string>, tpcDirs: seq<string>, minLtime: int)
    ensures var fc := GetFilesCache(ClearCache(u, project, branch), p, b);
            p == project && (branch.None? || branch.value == b) ==>
              Len(fc) == 0 && !IsValidFor(fc, tpcFiles, tpcDirs, minLtime) && LTime(fc) == -1
    ensures p != project || (branch.Some? && branch.value != b) ==>
              GetFilesCache(ClearCache(u, project, branch), p, b) == GetFilesCache(u, p, b)
  {
  }
}

=== FILE: config_loader.dfy ===
/** zuul/configloader.py, module-level helpers: `as_list` and the
    validation of a tenant project's `extra-config-paths`. */
module ConfigLoader {
  import opened Wrappers
  import opened Values

  /** `as_list`: a falsy value is the empty list, a list is itself, and
      anything else is wrapped in a one-element list. */
  function AsList(item: Value): (r: seq<Value>)
    ensures !Truthy(item) ==> r == []
    ensures Truthy(item) && item.List? ==> r == item.items
    ensures Truthy(item) && !item.List? ==> r == [item]
  {
    if !Truthy(item) then []
    else if item.List? then item.items
    else [item]
  }

  /** Wrapping the result of `as_list` back into a list and applying it
      again changes nothing, and no element of the result is falsy when
      the input was not a list. */
  lemma AsListIdempotent(item: Value)
    ensures AsList(List(AsList(item))) == AsList(item)
    ensures !item.List? ==> forall v :: v in AsList(item) ==> Truthy(v) && v == item
  {
  }

  /** The configuration locations Zuul always reads, which may not be
      named again as extra paths. */
  const DefaultConfigPaths: seq<string> := ["zuul.yaml", "zuul.d/", ".zuul.yaml", ".zuul.d/"]

  /** `check_config_path`. */
  function CheckConfigPath(path: Value): (r: Outcome<string>)
    ensures r.Pass? <==> path.Str? && path.s !in DefaultConfigPaths
  {
    if !path.Str? then Fail("Expected str or list of str for extra-config-paths")
    else if path.s in DefaultConfigPaths then Fail("Default zuul configs are not allowed in extra-config-paths")
    else Pass
  }

  /** Every element of a list passes `check_config_path`; the first
      failure is reported. */
  function CheckEach(paths: seq<Value>): (r: Outcome<string>)
    ensures r.Pass? <==> forall i :: 0 <= i < |paths| ==> CheckConfigPath(paths[i]).Pass?
  {
    if |paths| == 0 then Pass
    else if CheckConfigPath(paths[0]).Fail? then CheckConfigPath(paths[0])
    else CheckEach(paths[1..])
  }

  /** `no_dup_config_paths` as written: the `str` branch checks the name
      `x`, which is unbound there, so every single string is rejected with
      a NameError. */
  function NoDupConfigPathsAsWritten(v: Value): (r: Outcome<string>)
    ensures v.Str? ==> r.Fail?
    ensures v.List? ==> r == CheckEach(v.items)
  {
    if v.List? then CheckEach(v.items)
    else if v.Str? then Fail("NameError: name 'x' is not defined")
    else Fail("Expected str or list of str for extra-config-paths")
  }

  /** `no_dup_config_paths` with the `str` branch checking the string
      itself: a single path is treated like a one-element list. */
  function NoDupConfigPaths(v: Value): (r: Outcome<string>)
    ensures r.Pass? <==> (v.List? || v.Str?) && forall p :: p in AsList(v) ==> CheckConfigPath(p).Pass?
  {
    if v.List? then CheckEach(v.items)
    else if v.Str? then CheckConfigPath(v)
    else Fail("Expected str or list of str for extra-config-paths")
  }

  /** The two agree on lists; on a string that is not a default path the
      code as written fails where the corrected version passes. */
  lemma NoDupConfigPathsStringBranch()
    ensures NoDupConfigPathsAsWritten(Str("extra.yaml")).Fail?
    ensures NoDupConfigPaths(Str("extra.yaml")).Pass?
    ensures forall v: Value :: v.List? ==> NoDupConfigPathsAsWritten(v) == NoDupConfigPaths(v)
  {
    assert "extra.yaml" != "zuul.yaml";
  }
}

=== FILE: executor_client.dfy ===
/** zuul/executor/client.py: how `ExecutorClient.onBuildCompleted` turns
    the executor's report into the result handed to the scheduler, and how
    `execute` maps a pipeline's precedence onto the job queue's.

    The client's bookkeeping is a set of meta-job UUIDs and a map from
    build UUID to the build fields the decision reads. Gearman submission,
    cancellation and the job payload are not modelled; the reported result
    and the payload's result are inputs. */
module ExecutorClient {
  import opened Wrappers
  import Scheduler
  import PipelineParser

  /* ---------------------------------------------------------------------- */
  /* Precedence                                                              */
  /* ---------------------------------------------------------------------- */

  /** The job queue's precedence levels. */
  datatype GearPrecedence = GearNormal | GearHigh | GearLow

  /** `execute`: normal, high and low map onto the job queue's levels of
      the same name. */
  function GearPrecedenceOf(p: PipelineParser.Precedence): (g: GearPrecedence)
    ensures p.Normal? <==> g.GearNormal?
    ensures p.High? <==> g.GearHigh?
    ensures p.Low? <==> g.GearLow?
  {
    match p
    case Normal => GearNormal
    case High => GearHigh
    case Low => GearLow
  }

  function PipelinePrecedenceOf(g: GearPrecedence): PipelineParser.Precedence {
    match g
    case GearNormal => PipelineParser.Normal
    case GearHigh => PipelineParser.High
    case GearLow => PipelineParser.Low
  }

  /** The mapping is one-to-one and onto. */
  lemma PrecedenceBijection(p: PipelineParser.Precedence, g: GearPrecedence)
    ensures PipelinePrecedenceOf(GearPrecedenceOf(p)) == p
    ensures GearPrecedenceOf(PipelinePrecedenceOf(g)) == g
  {
  }

  /* ---------------------------------------------------------------------- */
  /* onBuildCompleted                                                        */
  /* ---------------------------------------------------------------------- */

  /** The fields of a build the completion reads: whether it was canceled
      or already marked for retry, the result it holds, and the tries of
      its job against the job's attempts. */
  datatype Build = Build(canceled: bool, retry: bool, result: Option<string>, tries: int, attempts: int)

  datatype ClientState = ClientState(metaJobs: set<string>, builds: map<string, Build>)

  /** What a completion does: consume a meta job, report a build to the
      scheduler, or find nothing (logging an error unless the job was an
      executor stop request). */
  datatype Completed =
    | MetaConsumed
    | Reported(uuid: string, result: Option<string>, retry: bool)
    | NotFound(logged: bool)

  /** The result classification. The reported result wins over the
      payload's. A missing result is a retry-limit once the attempts are
      used up and a retry before; an executor that disconnected or went
      away is always retried; a merger failure is retried while attempts
      remain; a retry reports `RETRY`; a canceled build reports the result
      it holds and is not retried. */
  function Classify(b: Build, reported: Option<string>, payload: Option<string>): (c: Scheduler.Completion)
    ensures b.canceled ==> c == Scheduler.Completion(b.result, false)
    ensures !b.canceled ==> (c.retry <==>
              var res := if reported.Some? then reported else payload;
              b.retry || (res.None? && b.tries < b.attempts) || res == Some("DISCONNECT") || res == Some("ABORTED")
              || (res == Some("MERGER_FAILURE") && b.tries < b.attempts))
    ensures !b.canceled && c.retry ==> c.result == Some("RETRY")
    ensures !b.canceled && !c.retry ==>
              var res := if reported.Some? then reported else payload;
              c.result == (if res.None? then Some("RETRY_LIMIT") else res)
  {
    var result := if reported.Some? then reported else payload;
    var (result, retry) :=
      if result.None? then
        if b.tries >= b.attempts then (Some("RETRY_LIMIT"), b.retry) else (result, true)
      else (result, b.retry);
    var retry := retry || result == Some("DISCONNECT") || result == Some("ABORTED");
    var retry := retry || (result == Some("MERGER_FAILURE") && b.tries < b.attempts);
    var result := if retry then Some("RETRY") else result;
    if b.canceled then Scheduler.Completion(b.result, false)
    else Scheduler.Completion(result, retry)
  }

  /** `onBuildCompleted`: the outcome and the client's state afterwards. */
  function OnBuildCompleted(st: ClientState, unique: string, jobName: string,
                            reported: Option<string>, payload: Option<string>): (r: (Completed, ClientState))
    ensures unique in st.metaJobs ==>
              r.0 == MetaConsumed && r.1 == ClientState(st.metaJobs - {unique}, st.builds)
    ensures unique !in st.metaJobs && unique in st.builds ==>
              r.0.Reported? && r.0.uuid == unique &&
              r.1 == ClientState(st.metaJobs, st.builds - {unique})
    ensures unique !in st.metaJobs && unique !in st.builds ==>
              r.1 == st && r.0 == NotFound(!(|jobName| >= 14 && jobName[..14] == "executor:stop:"))
    ensures r.0.Reported? ==>
              Scheduler.Completion(r.0.result, r.0.retry) == Classify(st.builds[unique], reported, payload)
  {
    if unique in st.metaJobs then (MetaConsumed, st.(metaJobs := st.metaJobs - {unique}))
    else if unique in st.builds then
      var c := Classify(st.builds[unique], reported, payload);
      (Reported(unique, c.result, c.retry), st.(builds := st.builds - {unique}))
    else (NotFound(!(|jobName| >= 14 && jobName[..14] == "executor:stop:")), st)
  }

  /** A meta job's completion touches no build. */
  lemma MetaJobsLeaveBuildsAlone(st: ClientState, unique: string, jobName: string,
                                 reported: Option<string>, payload: Option<string>)
    requires unique in st.metaJobs
    ensures OnBuildCompleted(st, unique, jobName, reported, payload).1.builds == st.builds
    ensures unique !in OnBuildCompleted(st, unique, jobName, reported, payload).1.metaJobs
  {
  }

  /** The client and the scheduler classify alike whenever the executor
      reports an ordinary result other than a disconnect, and the build
      was not canceled. */
  lemma ClientAgreesWithScheduler(b: Build, result: string)
    requires !b.canceled && result != "DISCONNECT"
    ensures var c := Classify(b, Some(result), None);
            c == Scheduler.CompleteBuild(Scheduler.BuildState(b.retry, false, b.result, b.tries, b.attempts), Some(result))
  {
  }

  /** They differ on a missing result after the last attempt: the client
      reports a retry-limit, the scheduler a retry. */
  lemma MissingResultAfterLastAttempt(b: Build)
    requires !b.canceled && !b.retry && b.tries >= b.attempts
    ensures Classify(b, None, None) == Scheduler.Completion(Some("RETRY_LIMIT"), false)
    ensures Scheduler.CompleteBuild(Scheduler.BuildState(false, false, b.result, b.tries, b.attempts), None)
            == Scheduler.Completion(Some("RETRY"), true)
  {
  }
}

=== FILE: gerrit_model.dfy ===
/** zuul/driver/gerrit/gerritmodel.py: how a Gerrit change's approvals and
    missing labels are derived from query results, and the event and ref
    filters that decide whether a Gerrit event or change qualifies for a
    pipeline trigger, requirement or rejection.

    Regular expressions go through an `Engine`; the current time (`time.time()`
    in the source) is the parameter `now`; timestamps are whole seconds. */
module GerritModel {
  import opened Wrappers
  import opened Strings
  import opened Re2Util

  /** Git's all-zero sha, used for ref creation and deletion. */
  const EmptyGitRef: string := "0000000000000000000000000000000000000000"

  /* ---------------------------------------------------------------------- */
  /* Changes and approvals                                                   */
  /* ---------------------------------------------------------------------- */

  /** One approval on a change. `description` is absent for approvals that
      carry none; `by` holds the voter's `name`/`username`/`email`. */
  datatype Approval = Approval(
    approvalType: string,
    description: Option<string>,
    value: int,
    grantedOn: int,
    voters: map<string, string>)

  /** The attributes of a change (or ref) the ref filter reads; `isChange`
      is false for a ref that has no change number. */
  datatype GerritChange = GerritChange(
    isChange: bool,
    open: bool,
    isCurrentPatchset: bool,
    wip: bool,
    status: string,
    hashtags: seq<string>,
    approvals: seq<Approval>)

  /* ---------------------------------------------------------------------- */
  /* updateFromHTTP: approvals and missing labels                            */
  /* ---------------------------------------------------------------------- */

  /** One vote in a label's `all` list; a vote without a `value` key counts
      as 0. The voter fields are absent when the query omitted them. */
  datatype Vote = Vote(
    value: int,
    date: int,
    name: Option<string>,
    username: Option<string>,
    email: Option<string>)

  /** One entry of the change's `labels` mapping. */
  datatype LabelInfo = LabelInfo(
    name: string,
    all: seq<Vote>,
    optional: bool,
    blocking: bool,
    hasApproved: bool)

  /** The `by` mapping of an approval: the vote's name, username and
      email, each copied when the vote carries it. */
  function VoterOf(v: Vote): (voters: map<string, string>)
    ensures voters.Keys <= {"name", "username", "email"}
    ensures "name" in voters <==> v.name.Some?
    ensures "username" in voters <==> v.username.Some?
    ensures "email" in voters <==> v.email.Some?
    ensures v.name.Some? ==> voters["name"] == v.name.value
    ensures v.username.Some? ==> voters["username"] == v.username.value
    ensures v.email.Some? ==> voters["email"] == v.email.value
  {
    (if v.name.Some? then map["name" := v.name.value] else map[])
    + (if v.username.Some? then map["username" := v.username.value] else map[])
    + (if v.email.Some? then map["email" := v.email.value] else map[])
  }

  function VoteApproval(labelName: string, v: Vote): Approval {
    Approval(labelName, Some(labelName), v.value, v.date, VoterOf(v))
  }

  /** `a` is the approval of a non-zero vote among `votes` on label `labelName`. */
  predicate FromVote(a: Approval, labelName: string, votes: seq<Vote>) {
    exists v :: v in votes && v.value != 0 && a == VoteApproval(labelName, v)
  }

  /** `a` is the approval of a non-zero vote on one of `labels`. */
  predicate FromLabel(a: Approval, labels: seq<LabelInfo>) {
    exists l :: l in labels && FromVote(a, l.name, l.all)
  }

  /** The approvals recorded for one label's votes, zero votes dropped. */
  function LabelApprovals(labelName: string, votes: seq<Vote>): (r: seq<Approval>)
    ensures forall a :: a in r ==> a.value != 0 && a.description == Some(labelName)
    ensures forall a :: a in r ==> FromVote(a, labelName, votes)
    ensures forall v :: v in votes && v.value != 0 ==> VoteApproval(labelName, v) in r
    ensures |r| <= |votes|
  {
    if |votes| == 0 then []
    else
      var rest := LabelApprovals(labelName, votes[1..]);
      assert forall v :: v in votes && v != votes[0] ==> v in votes[1..];
      if votes[0].value == 0 then rest else [VoteApproval(labelName, votes[0])] + rest
  }

  /** `self.approvals` after `updateFromHTTP`: every non-zero vote of every
      label, labels and votes in query order. */
  function HttpApprovals(labels: seq<LabelInfo>): (r: seq<Approval>)
    ensures forall a :: a in r ==>
              a.value != 0 && a.description.Some? &&
              exists l :: l in labels && l.name == a.description.value
    ensures forall a :: a in r ==> FromLabel(a, labels)
    ensures forall l, v :: l in labels && v in l.all && v.value != 0 ==> VoteApproval(l.name, v) in r
  {
    if |labels| == 0 then []
    else
      var rest := HttpApprovals(labels[1..]);
      assert forall l :: l in labels && l != labels[0] ==> l in labels[1..];
      LabelApprovals(labels[0].name, labels[0].all) + rest
  }

  /** Whether `updateFromHTTP` records a label as missing. */
  predicate LabelMissing(l: LabelInfo) {
    if l.optional then false
    else if l.blocking then true
    else !l.hasApproved
  }

  /** `self.missing_labels` after `updateFromHTTP`. */
  function HttpMissingLabels(labels: seq<LabelInfo>): (r: set<string>)
    ensures forall n :: n in r <==> exists l :: l in labels && l.name == n && LabelMissing(l)
  {
    if |labels| == 0 then {}
    else
      var rest := HttpMissingLabels(labels[1..]);
      assert forall l :: l in labels && l != labels[0] ==> l in labels[1..];
      if LabelMissing(labels[0]) then {labels[0].name} + rest else rest
  }

  /** Optional labels are never missing; blocking labels (that are not
      optional) always are; any other label is missing iff it has no
      `approved` entry. */
  lemma HttpMissingLabelRules(l: LabelInfo)
    ensures l.optional ==> l.name !in HttpMissingLabels([l])
    ensures !l.optional && l.blocking ==> l.name in HttpMissingLabels([l])
    ensures !l.optional && !l.blocking ==> (l.name in HttpMissingLabels([l]) <==> !l.hasApproved)
  {
  }

  /* ---------------------------------------------------------------------- */
  /* updateFromSSH: missing labels                                           */
  /* ---------------------------------------------------------------------- */

  datatype LabelStatus = LabelStatus(labelName: string, status: string)
  datatype SubmitRecord = SubmitRecord(status: string, labels: seq<LabelStatus>)

  function LabelsNeeded(labels: seq<LabelStatus>): (r: set<string>)
    ensures forall n :: n in r <==>
              exists s :: s in labels && s.labelName == n && (s.status == "NEED" || s.status == "REJECT")
  {
    if |labels| == 0 then {}
    else
      var rest := LabelsNeeded(labels[1..]);
      assert forall s :: s in labels && s != labels[0] ==> s in labels[1..];
      if labels[0].status == "OK" || labels[0].status == "MAY" then rest
      else if labels[0].status == "NEED" || labels[0].status == "REJECT" then {labels[0].labelName} + rest
      else rest
  }

  /** `self.missing_labels` after `updateFromSSH`: the labels a NOT_READY
      submit record lists as NEED or REJECT. */
  function SshMissingLabels(records: seq<SubmitRecord>): (r: set<string>)
    ensures forall n :: n in r <==>
              exists rec, s :: rec in records && rec.status == "NOT_READY" && s in rec.labels &&
                               s.labelName == n && (s.status == "NEED" || s.status == "REJECT")
  {
    if |records| == 0 then {}
    else
      var rest := SshMissingLabels(records[1..]);
      assert forall rec :: rec in records && rec != records[0] ==> rec in records[1..];
      if records[0].status == "NOT_READY" then LabelsNeeded(records[0].labels) + rest else rest
  }

  /* ---------------------------------------------------------------------- */
  /* Trigger events                                                          */
  /* ---------------------------------------------------------------------- */

  datatype Account = Account(email: Option<string>, username: Option<string>)
  datatype EventApproval = EventApproval(description: string, value: int)

  /** A Gerrit trigger event. An absent `uuid` is the empty string. */
  datatype TriggerEvent = TriggerEvent(
    eventType: string,
    uuid: string,
    branch: string,
    ref: Option<string>,
    newrev: string,
    comment: Option<string>,
    patchsetComments: Option<seq<Option<string>>>,
    account: Option<Account>,
    approvals: seq<EventApproval>,
    added: Option<seq<string>>,
    removed: Option<seq<string>>)

  /** `isPatchsetCreated`. */
  predicate IsPatchsetCreated(ev: TriggerEvent) {
    ev.eventType in {"patchset-created", "pending-check"}
  }

  /** A pending check counts as a new patchset, an abandonment does not,
      and only such events can fail the pending-check test of a filter. */
  lemma PendingCheckIsPatchsetCreated(f: EventFilter, ev: TriggerEvent)
    ensures ev.eventType == "pending-check" ==> IsPatchsetCreated(ev)
    ensures ev.eventType == "change-abandoned" ==> !IsPatchsetCreated(ev)
    ensures !PendingCheckOk(f, ev) ==> IsPatchsetCreated(ev)
  {
  }

  /* ---------------------------------------------------------------------- */
  /* GerritRefFilter                                                         */
  /* ---------------------------------------------------------------------- */

  /** A required or rejected approval after `_tidy_approvals`: the user and
      email patterns, the age limits in seconds, and every other key as a
      label name with its accepted values (a scalar becomes a one-element
      list). */
  datatype ApprovalRule = ApprovalRule(
    username: Option<ZuulRegex>,
    email: Option<ZuulRegex>,
    newerThan: Option<int>,
    olderThan: Option<int>,
    labels: map<string, seq<int>>)

  function ByField(voters: map<string, string>, k: string): string {
    if k in voters then voters[k] else ""
  }

  /** `_match_approval_required_approval`. */
  predicate ApprovalMatchesRule(e: Engine, rule: ApprovalRule, a: Approval, now: int) {
    a.description.Some?
    && (rule.username.None? || rule.username.value.Search(e, ByField(a.voters, "username")))
    && (rule.email.None? || rule.email.value.Search(e, ByField(a.voters, "email")))
    && (rule.newerThan.None? || a.grantedOn >= now - rule.newerThan.value)
    && (rule.olderThan.None? || a.grantedOn < now - rule.olderThan.value)
    && (forall k :: k in rule.labels ==> a.description.value == k && a.value in rule.labels[k])
  }

  /** An approval without a description never matches; `newer-than v` asks
      for `grantedOn >= now - v` and `older-than v` for `grantedOn < now - v`. */
  lemma ApprovalRuleAgeLimits(e: Engine, rule: ApprovalRule, a: Approval, now: int)
    ensures a.description.None? ==> !ApprovalMatchesRule(e, rule, a, now)
    ensures ApprovalMatchesRule(e, rule, a, now) && rule.newerThan.Some? ==>
              a.grantedOn >= now - rule.newerThan.value
    ensures ApprovalMatchesRule(e, rule, a, now) && rule.olderThan.Some? ==>
              a.grantedOn < now - rule.olderThan.value
    ensures ApprovalMatchesRule(e, rule, a, now) ==>
              forall k :: k in rule.labels ==> a.description == Some(k) && a.value in rule.labels[k]
  {
  }

  datatype RefFilter = RefFilter(
    open: Option<bool>,
    currentPatchset: Option<bool>,
    wip: Option<bool>,
    statuses: seq<string>,
    rejectStatuses: seq<string>,
    requiredHashtags: seq<ZuulRegex>,
    rejectHashtags: seq<ZuulRegex>,
    requiredApprovals: seq<ApprovalRule>,
    rejectApprovals: seq<ApprovalRule>)

  /** `GerritRefFilter.__init__`: a `reject_*` flag, when given, wins and
      is stored negated. */
  function NewRefFilter(open: Option<bool>, rejectOpen: Option<bool>,
                        currentPatchset: Option<bool>, rejectCurrentPatchset: Option<bool>,
                        wip: Option<bool>, rejectWip: Option<bool>,
                        statuses: seq<string>, rejectStatuses: seq<string>,
                        requiredApprovals: seq<ApprovalRule>, rejectApprovals: seq<ApprovalRule>,
                        requiredHashtags: seq<ZuulRegex>, rejectHashtags: seq<ZuulRegex>): (f: RefFilter)
    ensures rejectOpen.Some? ==> f.open == Some(!rejectOpen.value)
    ensures rejectOpen.None? ==> f.open == open
    ensures rejectWip.Some? ==> f.wip == Some(!rejectWip.value)
    ensures rejectWip.None? ==> f.wip == wip
    ensures rejectCurrentPatchset.Some? ==> f.currentPatchset == Some(!rejectCurrentPatchset.value)
    ensures rejectCurrentPatchset.None? ==> f.currentPatchset == currentPatchset
  {
    RefFilter(
      if rejectOpen.Some? then Some(!rejectOpen.value) else open,
      if rejectCurrentPatchset.Some? then Some(!rejectCurrentPatchset.value) else currentPatchset,
      if rejectWip.Some? then Some(!rejectWip.value) else wip,
      statuses, rejectStatuses, requiredHashtags, rejectHashtags,
      requiredApprovals, rejectApprovals)
  }

  /** The `require:` or `reject:` mapping of a pipeline or trigger. */
  datatype RefConfig = RefConfig(
    open: Option<bool>,
    currentPatchset: Option<bool>,
    wip: Option<bool>,
    status: seq<string>,
    approval: seq<ApprovalRule>,
    hashtags: seq<ZuulRegex>)

  /** `GerritRefFilter.requiresFromConfig`. */
  function RequiresFromConfig(cfg: RefConfig): RefFilter {
    NewRefFilter(cfg.open, None, cfg.currentPatchset, None, cfg.wip, None,
                 cfg.status, [], cfg.approval, [], cfg.hashtags, [])
  }

  /** `GerritRefFilter.rejectFromConfig`. */
  function RejectFromConfig(cfg: RefConfig): RefFilter {
    NewRefFilter(None, cfg.open, None, cfg.currentPatchset, None, cfg.wip,
                 [], cfg.status, [], cfg.approval, [], cfg.hashtags)
  }

  /** The `open`, `current-patchset` and `wip` checks: a set flag needs a
      real change whose attribute equals it. */
  predicate FlagOk(flag: Option<bool>, c: GerritChange, actual: bool) {
    flag.None? || (c.isChange && flag.value == actual)
  }

  /** Every required approval rule is met by some approval of the change. */
  predicate MatchesRequiredApprovals(e: Engine, f: RefFilter, c: GerritChange, now: int) {
    forall i :: 0 <= i < |f.requiredApprovals| ==>
      exists j :: 0 <= j < |c.approvals| && ApprovalMatchesRule(e, f.requiredApprovals[i], c.approvals[j], now)
  }

  /** No reject rule is met by any approval of the change. */
  predicate MatchesNoRejectApprovals(e: Engine, f: RefFilter, c: GerritChange, now: int) {
    forall i, j :: 0 <= i < |f.rejectApprovals| && 0 <= j < |c.approvals| ==>
      !ApprovalMatchesRule(e, f.rejectApprovals[i], c.approvals[j], now)
  }

  /** `matchesApprovals`. */
  function MatchesApprovals(e: Engine, f: RefFilter, c: GerritChange, now: int): (r: bool)
    ensures |f.requiredApprovals| > 0 && |c.approvals| == 0 ==> !r
    ensures c.isChange && !(|f.requiredApprovals| > 0 && |c.approvals| == 0) ==>
              (r <==> MatchesRequiredApprovals(e, f, c, now) && MatchesNoRejectApprovals(e, f, c, now))
    ensures !MatchesNoRejectApprovals(e, f, c, now) ==> !r
    ensures !c.isChange && (|f.requiredApprovals| > 0 || |f.rejectApprovals| > 0) ==> !r
    ensures !c.isChange && |f.requiredApprovals| == 0 && |f.rejectApprovals| == 0 ==> r
  {
    if (|f.requiredApprovals| > 0 || |f.rejectApprovals| > 0) && !c.isChange then false
    else if |f.requiredApprovals| > 0 && |c.approvals| == 0 then false
    else MatchesRequiredApprovals(e, f, c, now) && MatchesNoRejectApprovals(e, f, c, now)
  }

  /** `matchesNoRejectApprovals` fails iff some reject rule matches some
      approval of the change. */
  lemma NoRejectMeaning(e: Engine, f: RefFilter, c: GerritChange, now: int)
    ensures !MatchesNoRejectApprovals(e, f, c, now) <==>
      exists rule, a :: rule in f.rejectApprovals && a in c.approvals && ApprovalMatchesRule(e, rule, a, now)
  {
    if !MatchesNoRejectApprovals(e, f, c, now) {
      var i, j :| 0 <= i < |f.rejectApprovals| && 0 <= j < |c.approvals| &&
                  ApprovalMatchesRule(e, f.rejectApprovals[i], c.approvals[j], now);
      assert f.rejectApprovals[i] in f.rejectApprovals && c.approvals[j] in c.approvals;
    }
  }

  /** Each required hashtag pattern finds some hashtag of the change. */
  predicate RequiredHashtagsOk(e: Engine, patterns: seq<ZuulRegex>, hashtags: seq<string>) {
    forall i :: 0 <= i < |patterns| ==> exists k :: 0 <= k < |hashtags| && patterns[i].Search(e, hashtags[k])
  }

  /** No rejected hashtag pattern finds any hashtag of the change. */
  predicate RejectHashtagsOk(e: Engine, patterns: seq<ZuulRegex>, hashtags: seq<string>) {
    forall i, k :: 0 <= i < |patterns| && 0 <= k < |hashtags| ==> !patterns[i].Search(e, hashtags[k])
  }

  /** `GerritRefFilter.matches`. */
  function RefFilterMatches(e: Engine, f: RefFilter, c: GerritChange, now: int): (r: bool)
    ensures r ==> |f.statuses| == 0 || c.status in f.statuses
    ensures r ==> c.status !in f.rejectStatuses
    ensures r ==> forall h :: h in f.requiredHashtags ==> exists t :: t in c.hashtags && h.Search(e, t)
    ensures r ==> forall h, t :: h in f.rejectHashtags && t in c.hashtags ==> !h.Search(e, t)
    ensures r ==> MatchesApprovals(e, f, c, now)
  {
    FlagOk(f.open, c, c.open)
    && FlagOk(f.currentPatchset, c, c.isCurrentPatchset)
    && FlagOk(f.wip, c, c.wip)
    && (|f.statuses| == 0 || c.status in f.statuses)
    && (|f.rejectStatuses| == 0 || c.status !in f.rejectStatuses)
    && RequiredHashtagsOk(e, f.requiredHashtags, c.hashtags)
    && RejectHashtagsOk(e, f.rejectHashtags, c.hashtags)
    && MatchesApprovals(e, f, c, now)
  }

  /** A reject filter built from a config with only `open: b` passes
      exactly the changes that a require filter built from the same config
      turns away, and likewise for `wip` and `current-patchset`. */
  lemma RejectFlagsComplementRequire(e: Engine, b: bool, c: GerritChange, now: int)
    requires c.isChange
    ensures RefFilterMatches(e, RejectFromConfig(RefConfig(Some(b), None, None, [], [], [])), c, now)
            == !RefFilterMatches(e, RequiresFromConfig(RefConfig(Some(b), None, None, [], [], [])), c, now)
    ensures RefFilterMatches(e, RejectFromConfig(RefConfig(None, None, Some(b), [], [], [])), c, now)
            == !RefFilterMatches(e, RequiresFromConfig(RefConfig(None, None, Some(b), [], [], [])), c, now)
    ensures RefFilterMatches(e, RejectFromConfig(RefConfig(None, Some(b), None, [], [], [])), c, now)
            == !RefFilterMatches(e, RequiresFromConfig(RefConfig(None, Some(b), None, [], [], [])), c, now)
  {
  }

  /** For a change that has approvals, requiring an approval rule and
      rejecting the same rule are complementary. */
  lemma RejectApprovalComplementsRequire(e: Engine, rule: ApprovalRule, c: GerritChange, now: int)
    requires c.isChange && |c.approvals| > 0
    ensures RefFilterMatches(e, RejectFromConfig(RefConfig(None, None, None, [], [rule], [])), c, now)
            == !RefFilterMatches(e, RequiresFromConfig(RefConfig(None, None, None, [], [rule], [])), c, now)
  {
    var req := RequiresFromConfig(RefConfig(None, None, None, [], [rule], []));
    var rej := RejectFromConfig(RefConfig(None, None, None, [], [rule], []));
    assert req.requiredApprovals[0] == rule && rej.rejectApprovals[0] == rule;
    if MatchesRequiredApprovals(e, req, c, now) {
      var j :| 0 <= j < |c.approvals| && ApprovalMatchesRule(e, rule, c.approvals[j], now);
      assert !MatchesNoRejectApprovals(e, rej, c, now);
    }
  }

  /* ---------------------------------------------------------------------- */
  /* GerritEventFilter                                                       */
  /* ---------------------------------------------------------------------- */

  /** A Gerrit trigger's event filter; an unset `uuid` or `scheme` is the
      empty string. */
  datatype EventFilter = EventFilter(
    types: seq<ZuulRegex>,
    branches: seq<ZuulRegex>,
    refs: seq<ZuulRegex>,
    comments: seq<ZuulRegex>,
    emails: seq<ZuulRegex>,
    usernames: seq<ZuulRegex>,
    added: seq<ZuulRegex>,
    removed: seq<ZuulRegex>,
    eventApprovals: map<string, int>,
    uuid: string,
    scheme: string,
    ignoreDeletes: bool,
    requireFilter: Option<RefFilter>,
    rejectFilter: Option<RefFilter>)

  /** `GerritEventFilter.__init__`: the legacy `require-approval` and
      `reject-approval` lists become the `approval` entry of `require` or
      `reject` when those are not given. */
  function NewEventFilter(types: seq<ZuulRegex>, branches: seq<ZuulRegex>, refs: seq<ZuulRegex>,
                          eventApprovals: map<string, int>, comments: seq<ZuulRegex>,
                          emails: seq<ZuulRegex>, usernames: seq<ZuulRegex>,
                          requiredApprovals: seq<ApprovalRule>, rejectApprovals: seq<ApprovalRule>,
                          added: seq<ZuulRegex>, removed: seq<ZuulRegex>,
                          uuid: string, scheme: string, ignoreDeletes: bool,
                          require: Option<RefConfig>, reject: Option<RefConfig>): (f: EventFilter)
    ensures require.Some? ==> f.requireFilter == Some(RequiresFromConfig(require.value))
    ensures require.None? && |requiredApprovals| > 0 ==>
              f.requireFilter == Some(RequiresFromConfig(RefConfig(None, None, None, [], requiredApprovals, [])))
    ensures require.None? && |requiredApprovals| == 0 ==> f.requireFilter.None?
    ensures reject.Some? ==> f.rejectFilter == Some(RejectFromConfig(reject.value))
    ensures reject.None? && |rejectApprovals| > 0 ==>
              f.rejectFilter == Some(RejectFromConfig(RefConfig(None, None, None, [], rejectApprovals, [])))
    ensures reject.None? && |rejectApprovals| == 0 ==> f.rejectFilter.None?
  {
    var require' := if |requiredApprovals| > 0 && require.None?
                    then Some(RefConfig(None, None, None, [], requiredApprovals, [])) else require;
    var reject' := if |rejectApprovals| > 0 && reject.None?
                   then Some(RefConfig(None, None, None, [], rejectApprovals, [])) else reject;
    EventFilter(types, branches, refs, comments, emails, usernames, added, removed,
                eventApprovals, uuid, scheme, ignoreDeletes,
                if require'.Some? then Some(RequiresFromConfig(require'.value)) else None,
                if reject'.Some? then Some(RejectFromConfig(reject'.value)) else None)
  }

  /** Some regex of a non-empty list matches `subject` (the ORed lists). */
  predicate AnyRegexMatch(e: Engine, rs: seq<ZuulRegex>, subject: string) {
    exists i :: 0 <= i < |rs| && rs[i].Match(e, subject)
  }

  predicate AnyRegexSearch(e: Engine, rs: seq<ZuulRegex>, subject: string) {
    exists i :: 0 <= i < |rs| && rs[i].Search(e, subject)
  }

  predicate TypesOk(e: Engine, f: EventFilter, ev: TriggerEvent) {
    |f.types| == 0 || AnyRegexMatch(e, f.types, ev.eventType)
  }

  predicate PendingCheckOk(f: EventFilter, ev: TriggerEvent) {
    ev.eventType != "pending-check"
    || ((|f.uuid| == 0 || ev.uuid == f.uuid)
        && (|f.scheme| == 0 || BeforeFirst(ev.uuid, ':') == f.scheme))
  }

  predicate BranchesOk(e: Engine, f: EventFilter, ev: TriggerEvent) {
    |f.branches| == 0 || AnyRegexMatch(e, f.branches, ev.branch)
  }

  predicate RefsOk(e: Engine, f: EventFilter, ev: TriggerEvent) {
    |f.refs| == 0 || (ev.ref.Some? && AnyRegexMatch(e, f.refs, ev.ref.value))
  }

  predicate NotIgnoredDeletion(f: EventFilter, ev: TriggerEvent) {
    !(f.ignoreDeletes && ev.newrev == EmptyGitRef)
  }

  /** A comment pattern finds the event comment or one of the patchset
      comments. */
  predicate CommentMatches(e: Engine, r: ZuulRegex, ev: TriggerEvent) {
    (ev.comment.Some? && r.Search(e, ev.comment.value))
    || (ev.patchsetComments.Some? &&
        exists k :: 0 <= k < |ev.patchsetComments.value| &&
          ev.patchsetComments.value[k].Some? && r.Search(e, ev.patchsetComments.value[k].value))
  }

  predicate CommentsOk(e: Engine, f: EventFilter, ev: TriggerEvent) {
    |f.comments| == 0 || exists i :: 0 <= i < |f.comments| && CommentMatches(e, f.comments[i], ev)
  }

  /** Email and username filters apply only when the event has an account;
      a missing email or username then fails a non-empty filter. */
  predicate AccountOk(e: Engine, f: EventFilter, ev: TriggerEvent) {
    ev.account.None?
    || ((|f.emails| == 0 ||
         (ev.account.value.email.Some? && AnyRegexSearch(e, f.emails, ev.account.value.email.value)))
        && (|f.usernames| == 0 ||
            (ev.account.value.username.Some? &&
             AnyRegexSearch(e, f.usernames, ev.account.value.username.value))))
  }

  /** Every configured (category, value) is matched by an event approval. */
  predicate EventApprovalsOk(f: EventFilter, ev: TriggerEvent) {
    forall category :: category in f.eventApprovals ==>
      exists k :: 0 <= k < |ev.approvals| &&
        ev.approvals[k].description == category && ev.approvals[k].value == f.eventApprovals[category]
  }

  predicate TokensOk(e: Engine, rs: seq<ZuulRegex>, tokens: Option<seq<string>>) {
    |rs| == 0 ||
    (tokens.Some? && exists i, t :: 0 <= i < |rs| && t in tokens.value && rs[i].Search(e, t))
  }

  predicate RequireOk(e: Engine, f: EventFilter, c: GerritChange, now: int) {
    f.requireFilter.None? || RefFilterMatches(e, f.requireFilter.value, c, now)
  }

  predicate RejectOk(e: Engine, f: EventFilter, c: GerritChange, now: int) {
    f.rejectFilter.None? || RefFilterMatches(e, f.rejectFilter.value, c, now)
  }

  /** `GerritEventFilter.matches`; `baseMatches` is the verdict of the
      generic `EventFilter.matches` it calls first, which is not part of
      this model. */
  function EventFilterMatches(e: Engine, f: EventFilter, ev: TriggerEvent, c: GerritChange,
                              now: int, baseMatches: bool): (r: bool)
    ensures !baseMatches ==> !r
    ensures r && |f.types| > 0 ==> exists i :: 0 <= i < |f.types| && f.types[i].Match(e, ev.eventType)
    ensures f.ignoreDeletes && ev.newrev == EmptyGitRef ==> !r
    ensures r && |f.refs| > 0 ==> ev.ref.Some?
    ensures r ==> forall category :: category in f.eventApprovals ==>
                    exists a :: a in ev.approvals && a.description == category &&
                                a.value == f.eventApprovals[category]
    ensures r && f.requireFilter.Some? ==> RefFilterMatches(e, f.requireFilter.value, c, now)
  {
    baseMatches
    && TypesOk(e, f, ev)
    && PendingCheckOk(f, ev)
    && BranchesOk(e, f, ev)
    && RefsOk(e, f, ev)
    && NotIgnoredDeletion(f, ev)
    && CommentsOk(e, f, ev)
    && AccountOk(e, f, ev)
    && EventApprovalsOk(f, ev)
    && TokensOk(e, f.added, ev.added)
    && TokensOk(e, f.removed, ev.removed)
    && RequireOk(e, f, c, now)
    && RejectOk(e, f, c, now)
  }

  /** An event filter that constrains nothing passes every event the
      generic filter passes, unless it is a ref deletion. */
  lemma EmptyEventFilterPasses(e: Engine, ev: TriggerEvent, c: GerritChange, now: int, ignoreDeletes: bool)
    ensures var f := NewEventFilter([], [], [], map[], [], [], [], [], [], [], [], "", "",
                                    ignoreDeletes, None, None);
            EventFilterMatches(e, f, ev, c, now, true) <==> !(ignoreDeletes && ev.newrev == EmptyGitRef)
  {
  }
}

=== FILE: git_model.dfy ===
/** zuul/driver/git/gitmodel.py: the event filter of the plain git driver,
    which selects ref updates by exact event type and by ref pattern. */
module GitModel {
  import opened Wrappers
  import opened Re2Util

  /** Git's all-zero sha, used for ref creation and deletion. */
  const EmptyGitRef: string := "0000000000000000000000000000000000000000"

  datatype GitTriggerEvent = GitTriggerEvent(eventType: string, ref: Option<string>, newrev: string)

  datatype GitEventFilter = GitEventFilter(types: seq<string>, refs: seq<ZuulRegex>, ignoreDeletes: bool)

  /** `GitEventFilter.__init__`: absent lists become empty lists. */
  function NewGitEventFilter(types: Option<seq<string>>, refs: Option<seq<ZuulRegex>>,
                             ignoreDeletes: bool): (f: GitEventFilter)
    ensures types.None? ==> f.types == []
    ensures types.Some? ==> f.types == types.value
    ensures refs.None? ==> f.refs == []
    ensures refs.Some? ==> f.refs == refs.value
    ensures f.ignoreDeletes == ignoreDeletes
  {
    GitEventFilter(types.GetOr([]), refs.GetOr([]), ignoreDeletes)
  }

  /** `GitEventFilter.matches`; `baseMatches` is the verdict of the generic
      `EventFilter.matches`, which is not part of this model. Types are
      compared literally, refs with an anchored regex match, and a ref
      deletion is dropped when deletes are ignored. */
  function GitMatches(e: Engine, f: GitEventFilter, ev: GitTriggerEvent, baseMatches: bool): (r: bool)
    ensures r <==>
      baseMatches
      && (|f.types| == 0 || ev.eventType in f.types)
      && (|f.refs| == 0 || (ev.ref.Some? && exists re :: re in f.refs && re.Match(e, ev.ref.value)))
      && !(f.ignoreDeletes && ev.newrev == EmptyGitRef)
  {
    if !baseMatches then false
    else if |f.types| > 0 && !TypeListed(f.types, ev.eventType) then false
    else if |f.refs| > 0 && !(ev.ref.Some? && RefListed(e, f.refs, ev.ref.value)) then false
    else if f.ignoreDeletes && ev.newrev == EmptyGitRef then false
    else true
  }

  /** The ORed type loop. */
  function TypeListed(types: seq<string>, eventType: string): (r: bool)
    ensures r <==> eventType in types
  {
    if |types| == 0 then false
    else types[0] == eventType || TypeListed(types[1..], eventType)
  }

  /** The ORed ref loop. */
  function RefListed(e: Engine, refs: seq<ZuulRegex>, ref: string): (r: bool)
    ensures r <==> exists re :: re in refs && re.Match(e, ref)
  {
    if |refs| == 0 then false
    else
      assert forall re :: re in refs && re != refs[0] ==> re in refs[1..];
      refs[0].Match(e, ref) || RefListed(e, refs[1..], ref)
  }

  /** With deletes ignored (the default), no filter matches a deletion,
      whatever its types and refs; with them kept, a filter with no types
      and no refs passes every event the generic filter passes. */
  lemma DeletionsIgnoredByDefault(e: Engine, ev: GitTriggerEvent, types: Option<seq<string>>,
                                  refs: Option<seq<ZuulRegex>>)
    ensures ev.newrev == EmptyGitRef ==> !GitMatches(e, NewGitEventFilter(types, refs, true), ev, true)
    ensures GitMatches(e, NewGitEventFilter(None, None, false), ev, true)
  {
  }
}

=== FILE: job_parser.dfy ===
/** zuul/configloader.py, `JobParser.fromYaml`: the validation rules and
    normalisations of a job stanza that do not depend on the rest of the
    layout — timeouts against the tenant maximum, `post-review`,
    `intermediate`, playbook lists with their semaphores, dependencies and
    job semaphores. */
module JobParser {
  import opened Wrappers
  import opened Strings

  /** A playbook entry: a bare path, or a mapping with a name and the
      semaphores (already passed through `as_list`) it holds. */
  datatype PlaybookConf = PlaybookPath(path: string) | PlaybookDef(name: string, semaphores: seq<string>)

  /** A playbook of the job, its semaphores sorted by name. */
  datatype Playbook = Playbook(name: string, semaphores: seq<string>)

  /** A dependency entry: a job name, or a mapping with `name` and an
      optional `soft`. */
  datatype DependencyConf = DependencyName(name: string) | DependencyDef(name: string, soft: Option<bool>)
  datatype JobDependency = JobDependency(name: string, soft: bool)

  /** A semaphore entry: a name, or a mapping with `name` and an optional
      `resources-first`. */
  datatype SemaphoreConf = SemaphoreName(name: string) | SemaphoreDef(name: string, resourcesFirst: Option<bool>)
  datatype JobSemaphore = JobSemaphore(name: string, resourcesFirst: bool)

  /** The keys of a job stanza this model reads. `run` and `dependencies`
      are `None` when the key is absent; the playbook lists and semaphores
      have been through `as_list`. */
  datatype JobConf = JobConf(
    timeout: Option<int>,
    postTimeout: Option<int>,
    postReview: Option<bool>,
    preRun: seq<PlaybookConf>,
    postRun: seq<PlaybookConf>,
    cleanupRun: seq<PlaybookConf>,
    run: Option<seq<PlaybookConf>>,
    intermediate: bool,
    isAbstract: bool,
    dependencies: Option<seq<DependencyConf>>,
    semaphores: seq<SemaphoreConf>)

  datatype Job = Job(
    postReview: bool,
    preRun: seq<Playbook>,
    postRun: seq<Playbook>,
    cleanupRun: seq<Playbook>,
    run: seq<Playbook>,
    dependencies: Option<seq<JobDependency>>,
    semaphores: seq<JobSemaphore>)

  datatype JobError =
    | MaxTimeoutError
    | PostReviewUnset
    | IntermediateNotAbstract
    | SemaphoreConflict(common: set<string>)

  /* ---------------------------------------------------------------------- */
  /* Pieces                                                                  */
  /* ---------------------------------------------------------------------- */

  /** A set timeout (non-zero, as Python tests it for truth) above a
      tenant maximum that is not -1. */
  predicate ExceedsMax(timeout: Option<int>, maxJobTimeout: int) {
    timeout.Some? && timeout.value != 0 && maxJobTimeout != -1 && timeout.value > maxJobTimeout
  }

  /** `get_playbook_attrs` for one entry. */
  function PlaybookOf(d: PlaybookConf): (p: Playbook)
    ensures d.PlaybookPath? ==> p.name == d.path
    ensures d.PlaybookDef? ==> p.name == d.name
    ensures d.PlaybookPath? ==> p.semaphores == []
    ensures d.PlaybookDef? ==> SortedBy(p.semaphores, Identity) && multiset(p.semaphores) == multiset(d.semaphores)
  {
    match d
    case PlaybookPath(path) => Playbook(path, [])
    case PlaybookDef(name, sems) => Playbook(name, Sort(sems))
  }

  function Playbooks(defs: seq<PlaybookConf>): (r: seq<Playbook>)
    ensures |r| == |defs|
    ensures forall i :: 0 <= i < |defs| ==> r[i] == PlaybookOf(defs[i])
  {
    if |defs| == 0 then [] else [PlaybookOf(defs[0])] + Playbooks(defs[1..])
  }

  /** How `post-run` and `cleanup-run` are built: walk the entries in
      reverse and put each in front of what is there. */
  function PrependReversed(defs: seq<PlaybookConf>, acc: seq<Playbook>): seq<Playbook> {
    if |defs| == 0 then acc
    else PrependReversed(defs[..|defs| - 1], [PlaybookOf(defs[|defs| - 1])] + acc)
  }

  /** Reverse-and-prepend lists the playbooks in the order they are
      written, ahead of the ones already there. */
  lemma {:induction false} PrependReversedKeepsOrder(defs: seq<PlaybookConf>, acc: seq<Playbook>)
    ensures PrependReversed(defs, acc) == Playbooks(defs) + acc
    decreases |defs|
  {
    if |defs| > 0 {
      var init := defs[..|defs| - 1];
      var last := defs[|defs| - 1];
      assert init + [last] == defs;
      var acc' := [PlaybookOf(last)] + acc;
      assert PrependReversed(defs, acc) == PrependReversed(init, acc');
      PrependReversedKeepsOrder(init, acc');
      PlaybooksAppend(init, last);
      assert Playbooks(init) + acc' == (Playbooks(init) + [PlaybookOf(last)]) + acc;
    }
  }

  lemma {:induction false} PlaybooksAppend(defs: seq<PlaybookConf>, d: PlaybookConf)
    ensures Playbooks(defs + [d]) == Playbooks(defs) + [PlaybookOf(d)]
  {
  }

  /** The semaphore names of the playbook entries. */
  function SemaphoresOf(defs: seq<PlaybookConf>): (s: set<string>)
    ensures forall n :: n in s <==> exists i :: 0 <= i < |defs| && defs[i].PlaybookDef? && n in defs[i].semaphores
  {
    if |defs| == 0 then {}
    else
      var rest := SemaphoresOf(defs[1..]);
      assert forall i :: 0 < i < |defs| ==> defs[i] == defs[1..][i - 1];
      (if defs[0].PlaybookDef? then (set n | n in defs[0].semaphores) else {}) + rest
  }

  /** `seen_playbook_semaphores`: `run` counts only when the key is set. */
  function PlaybookSemaphores(conf: JobConf): set<string> {
    SemaphoresOf(conf.preRun) + SemaphoresOf(conf.postRun) + SemaphoresOf(conf.cleanupRun)
    + (if conf.run.Some? then SemaphoresOf(conf.run.value) else {})
  }

  /** A dependency entry: a bare name is a hard dependency. */
  function DependencyOf(d: DependencyConf): (r: JobDependency)
    ensures r.name == d.name
    ensures d.DependencyName? ==> !r.soft
    ensures d.DependencyDef? ==> r.soft == (d.soft == Some(true))
  {
    match d
    case DependencyName(name) => JobDependency(name, false)
    case DependencyDef(name, soft) => JobDependency(name, soft.GetOr(false))
  }

  function Dependencies(ds: seq<DependencyConf>): (r: seq<JobDependency>)
    ensures |r| == |ds|
    ensures forall i :: 0 <= i < |ds| ==> r[i] == DependencyOf(ds[i])
  {
    if |ds| == 0 then [] else [DependencyOf(ds[0])] + Dependencies(ds[1..])
  }

  function SemaphoreOf(s: SemaphoreConf): (r: JobSemaphore)
    ensures r.name == s.name
    ensures s.SemaphoreName? ==> !r.resourcesFirst
    ensures s.SemaphoreDef? ==> r.resourcesFirst == (s.resourcesFirst == Some(true))
  {
    match s
    case SemaphoreName(name) => JobSemaphore(name, false)
    case SemaphoreDef(name, rf) => JobSemaphore(name, rf.GetOr(false))
  }

  function Semaphores(ss: seq<SemaphoreConf>): (r: seq<JobSemaphore>)
    ensures |r| == |ss|
    ensures forall i :: 0 <= i < |ss| ==> r[i] == SemaphoreOf(ss[i])
  {
    if |ss| == 0 then [] else [SemaphoreOf(ss[0])] + Semaphores(ss[1..])
  }

  function SemaphoreKey(s: JobSemaphore): string { s.name }

  /* ---------------------------------------------------------------------- */
  /* fromYaml                                                                */
  /* ---------------------------------------------------------------------- */

  /** No job semaphore shares its name with a playbook semaphore. */
  predicate NoSemaphoreConflict(conf: JobConf) {
    forall s :: s in conf.semaphores ==> s.name !in PlaybookSemaphores(conf)
  }

  /** The checks of `fromYaml` in source order. `postReviewBefore` is the
      flag as set by earlier steps (a secret in an untrusted project). */
  function FromYaml(conf: JobConf, maxJobTimeout: int, postReviewBefore: bool): (r: Result<Job, JobError>)
    ensures ExceedsMax(conf.timeout, maxJobTimeout) || ExceedsMax(conf.postTimeout, maxJobTimeout)
            ==> r == Failure(MaxTimeoutError)
    ensures conf.postReview == Some(false) ==> r.Failure?
    ensures conf.intermediate && !conf.isAbstract ==> r.Failure?
    ensures r.Success? ==> r.value.postReview == (postReviewBefore || conf.postReview == Some(true))
    ensures r.Success? ==> r.value.preRun == Playbooks(conf.preRun)
    ensures r.Success? ==> r.value.run == (if conf.run.Some? then Playbooks(conf.run.value) else [])
    ensures r.Success? ==> r.value.postRun == Playbooks(conf.postRun) && r.value.cleanupRun == Playbooks(conf.cleanupRun)
    ensures r.Success? && conf.dependencies.Some? ==> r.value.dependencies == Some(Dependencies(conf.dependencies.value))
    ensures r.Success? && conf.dependencies.None? ==> r.value.dependencies.None?
    ensures r.Success? ==> SortedBy(r.value.semaphores, SemaphoreKey)
    ensures r.Success? ==> multiset(r.value.semaphores) == multiset(Semaphores(conf.semaphores))
    ensures r.Success? ==> forall s :: s in r.value.semaphores ==> s.name !in PlaybookSemaphores(conf)
    ensures r.Failure? && r.error.SemaphoreConflict? ==>
              |r.error.common| > 0 &&
              forall n :: n in r.error.common ==>
                (n in PlaybookSemaphores(conf) && exists s :: s in conf.semaphores && s.name == n)
  {
    if ExceedsMax(conf.timeout, maxJobTimeout) then Failure(MaxTimeoutError)
    else if ExceedsMax(conf.postTimeout, maxJobTimeout) then Failure(MaxTimeoutError)
    else if conf.postReview == Some(false) then Failure(PostReviewUnset)
    else if conf.intermediate && !conf.isAbstract then Failure(IntermediateNotAbstract)
    else WithSemaphores(conf, BuildJob(conf, postReviewBefore))
  }

  /** The job record `fromYaml` builds once the flag checks pass, before
      its semaphores are set: `post-run` and `cleanup-run` are assembled by
      reverse-and-prepend as in the source. */
  function BuildJob(conf: JobConf, postReviewBefore: bool): (j: Job)
    ensures j.postReview == (postReviewBefore || conf.postReview == Some(true))
    ensures j.preRun == Playbooks(conf.preRun)
    ensures j.postRun == Playbooks(conf.postRun) && j.cleanupRun == Playbooks(conf.cleanupRun)
    ensures j.run == (if conf.run.Some? then Playbooks(conf.run.value) else [])
    ensures conf.dependencies.Some? ==> j.dependencies == Some(Dependencies(conf.dependencies.value))
    ensures conf.dependencies.None? ==> j.dependencies.None?
  {
    PrependReversedKeepsOrder(conf.postRun, []);
    PrependReversedKeepsOrder(conf.cleanupRun, []);
    assert Playbooks(conf.postRun) + [] == Playbooks(conf.postRun);
    assert Playbooks(conf.cleanupRun) + [] == Playbooks(conf.cleanupRun);
    Job(postReviewBefore || conf.postReview == Some(true),
        Playbooks(conf.preRun),
        PrependReversed(conf.postRun, []),
        PrependReversed(conf.cleanupRun, []),
        if conf.run.Some? then Playbooks(conf.run.value) else [],
        if conf.dependencies.Some? then Some(Dependencies(conf.dependencies.value)) else None,
        [])
  }

  /** The semaphore step of `fromYaml`: a job semaphore that a playbook
      also holds is an error naming every such name; otherwise the job's
      semaphores, sorted by name, are set and nothing else changes. */
  function WithSemaphores(conf: JobConf, j: Job): (r: Result<Job, JobError>)
    ensures r.Success? <==> NoSemaphoreConflict(conf)
    ensures r.Success? ==> r.value == j.(semaphores := r.value.semaphores)
    ensures r.Success? ==> SortedBy(r.value.semaphores, SemaphoreKey)
    ensures r.Success? ==> multiset(r.value.semaphores) == multiset(Semaphores(conf.semaphores))
    ensures r.Success? ==> forall s :: s in r.value.semaphores ==> s.name !in PlaybookSemaphores(conf)
    ensures r.Failure? ==>
              r.error.SemaphoreConflict? && |r.error.common| > 0 &&
              forall n :: n in r.error.common ==>
                (n in PlaybookSemaphores(conf) && exists s :: s in conf.semaphores && s.name == n)
  {
    var sems := Semaphores(conf.semaphores);
    var common := (set i | 0 <= i < |sems| :: sems[i].name) * PlaybookSemaphores(conf);
    if |common| > 0 then
      CommonNamesAreConfigured(conf, sems, common);
      ConflictWhenCommon(conf, sems, common);
      Failure(SemaphoreConflict(common))
    else
      NoConflictWhenNoneCommon(conf, sems, common);
      var sorted := SortBy(sems, SemaphoreKey);
      assert forall s :: s in sorted ==> s in multiset(sems);
      Success(j.(semaphores := sorted))
  }

  lemma ConflictWhenCommon(conf: JobConf, sems: seq<JobSemaphore>, common: set<string>)
    requires sems == Semaphores(conf.semaphores)
    requires common == (set i | 0 <= i < |sems| :: sems[i].name) * PlaybookSemaphores(conf)
    requires |common| > 0
    ensures !NoSemaphoreConflict(conf)
  {
    var n :| n in common;
    var i :| 0 <= i < |sems| && sems[i].name == n;
    assert conf.semaphores[i] in conf.semaphores;
  }

  lemma NoConflictWhenNoneCommon(conf: JobConf, sems: seq<JobSemaphore>, common: set<string>)
    requires sems == Semaphores(conf.semaphores)
    requires common == (set i | 0 <= i < |sems| :: sems[i].name) * PlaybookSemaphores(conf)
    requires |common| == 0
    ensures NoSemaphoreConflict(conf)
  {
    var names := set i | 0 <= i < |sems| :: sems[i].name;
    assert common == {};
    forall s | s in conf.semaphores
      ensures s.name !in PlaybookSemaphores(conf)
    {
      var i :| 0 <= i < |conf.semaphores| && conf.semaphores[i] == s;
      assert sems[i] == SemaphoreOf(s);
      assert s.name in names;
      assert s.name !in common;
    }
  }

  /** A job stanza is accepted exactly when it reaches none of the four
      errors: timeouts within the tenant maximum, `post-review` not
      explicitly false, `intermediate` only on an abstract job, and no job
      semaphore that a playbook also holds. */
  lemma FromYamlAccepts(conf: JobConf, maxJobTimeout: int, postReviewBefore: bool)
    ensures FromYaml(conf, maxJobTimeout, postReviewBefore).Success? <==>
              && !ExceedsMax(conf.timeout, maxJobTimeout)
              && !ExceedsMax(conf.postTimeout, maxJobTimeout)
              && conf.postReview != Some(false)
              && !(conf.intermediate && !conf.isAbstract)
              && NoSemaphoreConflict(conf)
  {
  }

  lemma CommonNamesAreConfigured(conf: JobConf, sems: seq<JobSemaphore>, common: set<string>)
    requires sems == Semaphores(conf.semaphores)
    requires common == (set i | 0 <= i < |sems| :: sems[i].name) * PlaybookSemaphores(conf)
    ensures forall n :: n in common ==> exists s :: s in conf.semaphores && s.name == n
  {
    forall n | n in common
      ensures exists s :: s in conf.semaphores && s.name == n
    {
      var i :| 0 <= i < |sems| && sems[i].name == n;
      assert conf.semaphores[i] in conf.semaphores;
    }
  }
}

=== FILE: lib_config.dfy ===
/** zuul/lib/config.py: reading one option from an INI-style configuration
    with a typed default, and the lenient "any value to bool" test.

    The configuration is a map from `(section, option)` to the option's
    text as the parser stored it. The parser's own boolean and integer
    readers are modelled here; home-directory expansion is a parameter. */
module LibConfig {
  import opened Wrappers
  import opened Values
  import opened Strings

  type Config = map<(string, string), string>

  datatype ConfigValueError =
    | NotABoolean(text: string)
    | NotAnInteger(text: string)
    | NotAPath(value: Value)

  /* ---------------------------------------------------------------------- */
  /* The parser's readers                                                    */
  /* ---------------------------------------------------------------------- */

  /** The words the parser's `getboolean` reads as true. */
  const TrueWords: set<string> := {"1", "yes", "true", "on"}
  /** The words it reads as false. */
  const FalseWords: set<string> := {"0", "no", "false", "off"}

  /** `getboolean`: a case-insensitive yes/no word, anything else an error. */
  function GetBoolean(text: string): (r: Result<bool, ConfigValueError>)
    ensures r.Success? <==> Lower(text) in TrueWords + FalseWords
    ensures r.Success? ==> (r.value <==> Lower(text) in TrueWords)
  {
    var t := Lower(text);
    if t in TrueWords then Success(true)
    else if t in FalseWords then Success(false)
    else Failure(NotABoolean(text))
  }

  predicate AllDigits(s: string) {
    forall i :: 0 <= i < |s| ==> IsDigit(s[i])
  }

  /** `getint`: an optionally signed run of decimal digits. */
  function GetInt(text: string): (r: Result<int, ConfigValueError>)
    ensures r.Success? <==>
              (|text| > 0 && AllDigits(text)) ||
              (|text| > 1 && (text[0] == '-' || text[0] == '+') && AllDigits(text[1..]))
  {
    if |text| > 0 && AllDigits(text) then Success(ParseDigits(text))
    else if |text| > 1 && text[0] == '-' && AllDigits(text[1..]) then Success(-(ParseDigits(text[1..]) as int))
    else if |text| > 1 && text[0] == '+' && AllDigits(text[1..]) then Success(ParseDigits(text[1..]))
    else Failure(NotAnInteger(text))
  }

  /** Writing an integer out and reading it back gives the integer. */
  lemma GetIntReadsIntToString(i: int)
    ensures GetInt(IntToString(i)) == Success(i)
  {
    if i >= 0 {
      ParseNatToString(i);
    } else {
      var s := IntToString(i);
      assert s[1..] == NatToString(-i);
      ParseNatToString(-i);
    }
  }

  /* ---------------------------------------------------------------------- */
  /* get_default                                                             */
  /* ---------------------------------------------------------------------- */

  /** The option read with the type the default has: as a boolean when the
      default is one, as an integer when the default is one, as text
      otherwise. */
  function ReadTyped(text: string, default: Value): (r: Result<Value, ConfigValueError>)
    ensures default.Bool? ==> r == (var b :- GetBoolean(text); Success(Bool(b)))
    ensures default.Int? ==> r == (var i :- GetInt(text); Success(Int(i)))
    ensures !default.Bool? && !default.Int? ==> r == Success(Str(text))
  {
    match default
    case Bool(_) =>
      var b :- GetBoolean(text);
      Success(Bool(b))
    case Int(_) =>
      var i :- GetInt(text);
      Success(Int(i))
    case _ => Success(Str(text))
  }

  /** `get_default`: the option when it is set, read as the default's type,
      the default otherwise; then, when `expandUser` is set and the value is
      truthy, the user's home directory expanded in it. A value of another
      kind than text cannot be expanded. */
  function GetDefault(config: Config, section: string, option: string, default: Value,
                      expandUser: bool, expand: string -> string): (r: Result<Value, ConfigValueError>)
    ensures (section, option) !in config && !(expandUser && Truthy(default)) ==> r == Success(default)
    ensures (section, option) in config && !expandUser ==>
              r == ReadTyped(config[(section, option)], default)
    ensures (section, option) in config && ReadTyped(config[(section, option)], default).Failure? ==>
              r == ReadTyped(config[(section, option)], default)
    ensures (section, option) in config && ReadTyped(config[(section, option)], default).Success? &&
            !Truthy(ReadTyped(config[(section, option)], default).value) ==>
              r == ReadTyped(config[(section, option)], default)
    ensures (section, option) in config && expandUser &&
            ReadTyped(config[(section, option)], default).Success? &&
            ReadTyped(config[(section, option)], default).value.Str? &&
            |ReadTyped(config[(section, option)], default).value.s| > 0 ==>
              r == Success(Str(expand(ReadTyped(config[(section, option)], default).value.s)))
    ensures r.Success? && default.Bool? && !expandUser ==> r.value.Bool?
    ensures r.Success? && default.Int? && !expandUser ==> r.value.Int?
    ensures r.Success? && expandUser && Truthy(r.value) ==> r.value.Str?
    ensures (section, option) !in config && expandUser && default.Str? && |default.s| > 0 ==>
              r == Success(Str(expand(default.s)))
  {
    var value :- if (section, option) in config then ReadTyped(config[(section, option)], default)
                 else Success(default);
    if expandUser && Truthy(value) then
      if value.Str? then Success(Str(expand(value.s))) else Failure(NotAPath(value))
    else Success(value)
  }

  /** `get_default` fails exactly when the stored text does not read as
      the default's type, or when expansion is asked of a truthy value that
      is not text. */
  lemma GetDefaultFails(config: Config, section: string, option: string, default: Value,
                        expandUser: bool, expand: string -> string)
    ensures GetDefault(config, section, option, default, expandUser, expand).Failure? <==>
              if (section, option) in config then
                || ReadTyped(config[(section, option)], default).Failure?
                || (&& expandUser
                    && Truthy(ReadTyped(config[(section, option)], default).value)
                    && !ReadTyped(config[(section, option)], default).value.Str?)
              else expandUser && Truthy(default) && !default.Str?
  {
  }

  /** A text default (or none) never fails: the stored text is taken as it
      is, and only text is ever expanded. */
  lemma TextDefaultNeverFails(config: Config, section: string, option: string, default: Value,
                              expandUser: bool, expand: string -> string)
    requires default.Str? || default.Null?
    ensures GetDefault(config, section, option, default, expandUser, expand).Success?
  {
  }

  /** Expansion never touches an empty or missing value. */
  lemma NoExpansionOfFalsyValues(config: Config, section: string, option: string, expand: string -> string)
    requires (section, option) !in config
    ensures GetDefault(config, section, option, Str(""), true, expand) == Success(Str(""))
    ensures GetDefault(config, section, option, Null, true, expand) == Success(Null)
  {
  }

  /* ---------------------------------------------------------------------- */
  /* any_to_bool                                                             */
  /* ---------------------------------------------------------------------- */

  /** Python's `str()` of a scalar value. Of a list or dict only the
      opening bracket is kept, which is all `AnyToBool` can see of it. */
  function PyStr(v: Value): (s: string)
    ensures v.List? ==> |s| > 0 && s[0] == '['
    ensures v.Dict? ==> |s| > 0 && s[0] == '{'
  {
    match v
    case Null => "None"
    case Bool(b) => if b then "True" else "False"
    case Int(i) => IntToString(i)
    case Str(s) => s
    case List(_) => "[...]"
    case Dict(_) => "{...}"
  }

  /** `any_to_bool`: the value's text, lower-cased, is one of `1`, `on`,
      `yes` or `true`. */
  predicate AnyToBool(v: Value) {
    Lower(PyStr(v)) in TrueWords
  }

  /** Decimal text is its own lower case. */
  lemma LowerDigits(s: string)
    requires AllDigits(s)
    ensures Lower(s) == s
  {
    forall k | 0 <= k < |s|
      ensures LowerChar(s[k]) == s[k]
    {
      assert IsDigit(s[k]);
    }
  }

  /** The only integer whose text is one of the true words is 1. */
  lemma IntTrueWordIsOne(i: int)
    ensures Lower(IntToString(i)) in TrueWords <==> i == 1
  {
    if i >= 0 {
      var s := NatToString(i);
      LowerDigits(s);
      if s in TrueWords {
        assert s[0] in "1yto";
        assert IsDigit(s[0]);
        assert s == "1";
        assert NatToString(1) == "1";
        NatToStringInjective(i, 1);
      }
      if i == 1 {
        assert s == "1";
      }
    } else {
      var s := IntToString(i);
      assert Lower(s)[0] == '-';
    }
  }

  /** What `any_to_bool` makes of each kind of value: a boolean is itself,
      an integer is true only when it is 1, text is true when it is one of
      the words in any letter case, and None, lists and dicts are false. */
  lemma AnyToBoolByKind(v: Value)
    ensures v.Bool? ==> (AnyToBool(v) <==> v.b)
    ensures v.Int? ==> (AnyToBool(v) <==> v.i == 1)
    ensures v.Str? ==> (AnyToBool(v) <==> Lower(v.s) in TrueWords)
    ensures v.Null? || v.List? || v.Dict? ==> !AnyToBool(v)
  {
    match v
    case Bool(b) =>
      assert Lower("True") == "true";
      assert Lower("False") == "false";
    case Int(i) =>
      IntTrueWordIsOne(i);
    case Null =>
      assert Lower("None") == "none";
    case Str(_) =>
    case List(_) =>
      assert Lower(PyStr(v))[0] == '[';
    case Dict(_) =>
      assert Lower(PyStr(v))[0] == '{';
  }

  /** Wherever the parser's `getboolean` accepts a text, `any_to_bool`
      reads it the same way. */
  lemma AnyToBoolAgreesWithGetBoolean(text: string)
    requires GetBoolean(text).Success?
    ensures AnyToBool(Str(text)) == GetBoolean(text).value
  {
  }
}

=== FILE: nodeset_parser.dfy ===
/** zuul/configloader.py, `NodeSetParser.loadNodeset`: turning a nodeset
    stanza into nodes and groups, with the label policy of the tenant and
    the naming rules for nodes and groups. */
module NodeSetParser {
  import opened Wrappers
  import opened Strings
  import opened Re2Util

  /** A `name` or `nodes` entry: one name or a list of names. */
  datatype NameSpec = One(name: string) | Many(names: seq<string>)

  /** `as_list` on a name entry: an empty string gives no names. */
  function Names(n: NameSpec): (r: seq<string>)
    ensures n.Many? ==> r == n.names
    ensures n.One? ==> (r == [] <==> n.name == "")
    ensures n.One? && n.name != "" ==> r == [n.name]
  {
    match n
    case One(s) => if s == "" then [] else [s]
    case Many(l) => l
  }

  datatype NodeConf = NodeConf(name: NameSpec, nodeLabel: string)
  datatype GroupConf = GroupConf(name: string, nodes: NameSpec)

  datatype Node = Node(names: seq<string>, nodeLabel: string)
  datatype Group = Group(name: string, nodes: seq<string>)
  datatype NodeSet = NodeSet(nodes: seq<Node>, groups: seq<Group>)

  datatype NodeSetError =
    | LabelForbidden(forbidden: string)
    | LocalhostNode
    | DuplicateNode(nodeName: string)
    | LocalhostGroup
    | NodeFromGroupNotFound(missing: string, group: string)
    | DuplicateGroup(group: string)

  /* ---------------------------------------------------------------------- */
  /* The rules, stated over the whole stanza                                 */
  /* ---------------------------------------------------------------------- */

  /** Every requested label passes the tenant's allowed/disallowed lists. */
  predicate LabelsAllowed(e: Engine, nodes: seq<NodeConf>, allowed: seq<string>, disallowed: seq<string>) {
    forall i :: 0 <= i < |nodes| ==> Kept(e, allowed, disallowed, nodes[i].nodeLabel)
  }

  /** The names given to the nodes before position `upTo`. */
  function NamesBefore(nodes: seq<NodeConf>, upTo: nat): set<string>
    requires upTo <= |nodes|
  {
    if upTo == 0 then {}
    else NamesBefore(nodes, upTo - 1) + NameSet(Names(nodes[upTo - 1].name))
  }

  function NameSet(names: seq<string>): (s: set<string>)
    ensures forall n :: n in s <==> n in names
  {
    if |names| == 0 then {} else {names[0]} + NameSet(names[1..])
  }

  /** No node is called `localhost`, and no node reuses a name of an earlier
      node (a name repeated within one node's own list is not checked). */
  predicate NodesOk(nodes: seq<NodeConf>) {
    forall j :: 0 <= j < |nodes| ==> NodeOkAt(nodes, j)
  }

  predicate NodeOkAt(nodes: seq<NodeConf>, j: nat)
    requires j < |nodes|
  {
    "localhost" !in Names(nodes[j].name)
    && forall n :: n in Names(nodes[j].name) ==> n !in NamesBefore(nodes, j)
  }

  /** No group name contains `localhost` (a substring test on the name),
      every group member is a node name, and group names are unique. */
  predicate GroupsOk(groups: seq<GroupConf>, nodeNames: set<string>) {
    forall j :: 0 <= j < |groups| ==> GroupOkAt(groups, j, nodeNames)
  }

  predicate GroupOkAt(groups: seq<GroupConf>, j: nat, nodeNames: set<string>)
    requires j < |groups|
  {
    !Contains(groups[j].name, "localhost")
    && (forall n :: n in Names(groups[j].nodes) ==> n in nodeNames)
    && forall i :: 0 <= i < j ==> groups[i].name != groups[j].name
  }

  predicate NodeSetValid(e: Engine, nodes: seq<NodeConf>, groups: seq<GroupConf>,
                         allowed: seq<string>, disallowed: seq<string>) {
    LabelsAllowed(e, nodes, allowed, disallowed)
    && NodesOk(nodes)
    && GroupsOk(groups, NamesBefore(nodes, |nodes|))
  }

  /* ---------------------------------------------------------------------- */
  /* loadNodeset                                                             */
  /* ---------------------------------------------------------------------- */

  /** The label check of `loadNodeset`: the first requested label that
      `filter_allowed_disallowed` drops is forbidden. */
  method CheckLabels(e: Engine, nodes: seq<NodeConf>, allowed: seq<string>, disallowed: seq<string>)
    returns (r: Option<string>)
    ensures r.None? <==> LabelsAllowed(e, nodes, allowed, disallowed)
    ensures r.Some? ==> exists i :: 0 <= i < |nodes| && nodes[i].nodeLabel == r.value &&
                                   !Kept(e, allowed, disallowed, r.value)
  {
    var requested := seq(|nodes|, i requires 0 <= i < |nodes| => nodes[i].nodeLabel);
    var filtered := FilterAllowedDisallowed(e, requested, allowed, disallowed);
    var k := 0;
    while k < |nodes|
      invariant 0 <= k <= |nodes|
      invariant forall i :: 0 <= i < k ==> Kept(e, allowed, disallowed, nodes[i].nodeLabel)
    {
      FilteredMembership(e, requested, allowed, disallowed, nodes[k].nodeLabel);
      assert requested[k] == nodes[k].nodeLabel;
      if nodes[k].nodeLabel !in filtered {
        return Some(nodes[k].nodeLabel);
      }
      k := k + 1;
    }
    return None;
  }

  /** The first of `names` that is already in `known`. */
  method FirstIn(names: seq<string>, known: set<string>) returns (r: Option<string>)
    ensures r.None? <==> forall n :: n in names ==> n !in known
    ensures r.Some? ==> r.value in names && r.value in known
  {
    var m := 0;
    while m < |names|
      invariant 0 <= m <= |names|
      invariant forall q :: 0 <= q < m ==> names[q] !in known
    {
      if names[m] in known {
        return Some(names[m]);
      }
      m := m + 1;
    }
    return None;
  }

  /** The first of `names` that is not in `known`. */
  method FirstNotIn(names: seq<string>, known: set<string>) returns (r: Option<string>)
    ensures r.None? <==> forall n :: n in names ==> n in known
    ensures r.Some? ==> r.value in names && r.value !in known
  {
    var m := 0;
    while m < |names|
      invariant 0 <= m <= |names|
      invariant forall q :: 0 <= q < m ==> names[q] in known
    {
      if names[m] !in known {
        return Some(names[m]);
      }
      m := m + 1;
    }
    return None;
  }

  /** The node loop of `loadNodeset`. */
  method LoadNodes(nodes: seq<NodeConf>) returns (r: Result<seq<Node>, NodeSetError>)
    ensures r.Success? <==> NodesOk(nodes)
    ensures r.Success? ==> |r.value| == |nodes|
    ensures r.Success? ==>
              forall i :: 0 <= i < |nodes| ==> r.value[i] == Node(Names(nodes[i].name), nodes[i].nodeLabel)
    ensures r.Failure? ==> r.error.LocalhostNode? || r.error.DuplicateNode?
    ensures r.Failure? && r.error.LocalhostNode? ==>
              exists i :: 0 <= i < |nodes| && "localhost" in Names(nodes[i].name)
    ensures r.Failure? && r.error.DuplicateNode? ==>
              exists j :: 0 <= j < |nodes| && r.error.nodeName in Names(nodes[j].name) &&
                          r.error.nodeName in NamesBefore(nodes, j)
  {
    var nodeNames: set<string> := {};
    var outNodes: seq<Node> := [];
    var j := 0;
    while j < |nodes|
      invariant 0 <= j <= |nodes|
      invariant nodeNames == NamesBefore(nodes, j)
      invariant |outNodes| == j
      invariant forall i :: 0 <= i < j ==> outNodes[i] == Node(Names(nodes[i].name), nodes[i].nodeLabel)
      invariant forall i :: 0 <= i < j ==> NodeOkAt(nodes, i)
    {
      var names := Names(nodes[j].name);
      if "localhost" in names {
        assert !NodeOkAt(nodes, j);
        return Failure(LocalhostNode);
      }
      var dup := FirstIn(names, nodeNames);
      if dup.Some? {
        assert !NodeOkAt(nodes, j);
        return Failure(DuplicateNode(dup.value));
      }
      assert NodeOkAt(nodes, j);
      outNodes := outNodes + [Node(names, nodes[j].nodeLabel)];
      nodeNames := nodeNames + NameSet(names);
      j := j + 1;
    }
    return Success(outNodes);
  }

  /** The group loop of `loadNodeset`, against the collected node names. */
  method LoadGroups(groups: seq<GroupConf>, nodeNames: set<string>) returns (r: Result<seq<Group>, NodeSetError>)
    ensures r.Success? <==> GroupsOk(groups, nodeNames)
    ensures r.Success? ==> |r.value| == |groups|
    ensures r.Success? ==>
              forall i :: 0 <= i < |groups| ==> r.value[i] == Group(groups[i].name, Names(groups[i].nodes))
    ensures r.Failure? ==> r.error.LocalhostGroup? || r.error.NodeFromGroupNotFound? || r.error.DuplicateGroup?
    ensures r.Failure? && r.error.NodeFromGroupNotFound? ==> r.error.missing !in nodeNames
    ensures r.Failure? && r.error.DuplicateGroup? ==>
              exists i, j :: 0 <= i < j < |groups| && groups[i].name == r.error.group == groups[j].name
  {
    var groupNames: set<string> := {};
    var outGroups: seq<Group> := [];
    var j := 0;
    while j < |groups|
      invariant 0 <= j <= |groups|
      invariant groupNames == set i | 0 <= i < j :: groups[i].name
      invariant |outGroups| == j
      invariant forall i :: 0 <= i < j ==> outGroups[i] == Group(groups[i].name, Names(groups[i].nodes))
      invariant forall i :: 0 <= i < j ==> GroupOkAt(groups, i, nodeNames)
    {
      if Contains(groups[j].name, "localhost") {
        assert !GroupOkAt(groups, j, nodeNames);
        return Failure(LocalhostGroup);
      }
      var members := Names(groups[j].nodes);
      var unknown := FirstNotIn(members, nodeNames);
      if unknown.Some? {
        assert !GroupOkAt(groups, j, nodeNames);
        return Failure(NodeFromGroupNotFound(unknown.value, groups[j].name));
      }
      if groups[j].name in groupNames {
        var i :| 0 <= i < j && groups[i].name == groups[j].name;
        assert !GroupOkAt(groups, j, nodeNames);
        return Failure(DuplicateGroup(groups[j].name));
      }
      outGroups := outGroups + [Group(groups[j].name, members)];
      groupNames := groupNames + {groups[j].name};
      j := j + 1;
    }
    return Success(outGroups);
  }

  /** `loadNodeset`: labels, then nodes, then groups. It succeeds exactly
      when the stanza is valid, and then holds one node per node entry and
      one group per group entry, in order. */
  method LoadNodeset(e: Engine, nodes: seq<NodeConf>, groups: seq<GroupConf>,
                     allowed: seq<string>, disallowed: seq<string>)
    returns (r: Result<NodeSet, NodeSetError>)
    ensures r.Success? <==> NodeSetValid(e, nodes, groups, allowed, disallowed)
    ensures r.Success? ==> |r.value.nodes| == |nodes| && |r.value.groups| == |groups|
    ensures r.Success? ==>
              forall i :: 0 <= i < |nodes| ==> r.value.nodes[i] == Node(Names(nodes[i].name), nodes[i].nodeLabel)
    ensures r.Success? ==>
              forall i :: 0 <= i < |groups| ==> r.value.groups[i] == Group(groups[i].name, Names(groups[i].nodes))
    ensures r.Failure? && r.error.LabelForbidden? ==> !Kept(e, allowed, disallowed, r.error.forbidden)
    ensures r.Failure? && r.error.LocalhostNode? ==>
              exists i :: 0 <= i < |nodes| && "localhost" in Names(nodes[i].name)
  {
    var forbidden := CheckLabels(e, nodes, allowed, disallowed);
    if forbidden.Some? {
      return Failure(LabelForbidden(forbidden.value));
    }
    var outNodes :- LoadNodes(nodes);
    var outGroups :- LoadGroups(groups, NamesBefore(nodes, |nodes|));
    return Success(NodeSet(outNodes, outGroups));
  }
}

=== FILE: pipeline_parser.dfy ===
/** zuul/configloader.py, `PipelineParser.fromYaml` and `QueueParser.fromYaml`:
    the defaults a pipeline stanza gets, how its reporters are attached to
    actions (with the failure actions standing in for empty merge-conflict
    and config-error actions), the window bounds, the manager choice and
    the connection allow-lists; and the one rule a queue stanza enforces.

    Reporters, sources and triggers are built by the connection registry,
    which is not part of this model: a reporter here is the name of its
    connection and the action it serves, and a trigger is its connection
    name. `PRECEDENCE_MAP` (zuul/model.py, not part of this model) is taken
    to send a missing precedence to normal. */
module PipelineParser {
  import opened Wrappers
  import opened Values
  import ConfigLoader

  datatype Precedence = Normal | High | Low
  datatype ManagerKind = Dependent | Independent | Serial | Supercedent

  /** `window-ceiling`; a missing one is infinite. */
  datatype Ceiling = Unbounded | AtMost(n: int)

  /** The reporter keys of a pipeline stanza (`enqueue`, `start`,
      `success`, `failure`, `merge-conflict`, `config-error`, `no-jobs`,
      `disabled`, `dequeue`). */
  datatype Action = OnEnqueue | OnStart | OnSuccess | OnFailure | OnMergeConflict | OnConfigError | OnNoJobs | OnDisabled | OnDequeue

  /** The reporter keys in the order they are read. */
  const ReporterActions: seq<Action> :=
    [OnEnqueue, OnStart, OnSuccess, OnFailure, OnMergeConflict, OnConfigError, OnNoJobs, OnDisabled, OnDequeue]

  /** A reporter: the connection it reports to and the action it serves. */
  datatype Reporter = Reporter(connection: string, action: Action)

  const DefaultFailureMessage: string := "Build failed."
  const DefaultMergeConflictMessage: string :=
    "Merge Failed.\n\nThis change or one of its cross-repo dependencies was unable to be "
    + "automatically merged with the current state of its repository. Please rebase the change "
    + "and upload a new patchset."
  const DefaultSuccessMessage: string := "Build succeeded."
  const DefaultStartMessage: string := "Starting {pipeline.name} jobs."
  const DefaultDequeueMessage: string := "Build canceled."

  /** The keys of a pipeline stanza this model reads. `messages` holds the
      `*-message` keys that are set; `reporters` maps a reporter key to the
      connection names under it, in the order written; an absent or empty
      mapping has no entry or the empty list. */
  datatype PipelineConf = PipelineConf(
    name: string,
    manager: string,
    precedence: Option<Precedence>,
    allowOtherConnections: Option<bool>,
    description: Option<string>,
    supercedes: Value,
    messages: map<string, string>,
    dequeueOnNewPatchset: Option<bool>,
    ignoreDependencies: Option<bool>,
    postReview: Option<bool>,
    reporters: map<Action, seq<string>>,
    disableAt: Option<int>,
    window: Option<int>,
    windowFloor: Option<int>,
    windowCeiling: Option<int>,
    windowIncreaseType: Option<string>,
    windowIncreaseFactor: Option<int>,
    windowDecreaseType: Option<string>,
    windowDecreaseFactor: Option<int>,
    requireSources: seq<string>,
    rejectSources: seq<string>,
    triggers: seq<string>)

  datatype Messages = Messages(
    failure: string, mergeConflict: string, success: string, footer: string,
    start: string, enqueue: string, noJobs: string, dequeue: string)

  datatype Pipeline = Pipeline(
    name: string,
    manager: ManagerKind,
    precedence: Precedence,
    allowOtherConnections: bool,
    description: Option<string>,
    supercedes: seq<Value>,
    messages: Messages,
    dequeueOnNewPatchset: bool,
    ignoreDependencies: bool,
    postReview: bool,
    actions: map<Action, seq<Reporter>>,
    disableAt: Option<int>,
    window: int,
    windowFloor: int,
    windowCeiling: Ceiling,
    windowIncreaseType: string,
    windowIncreaseFactor: int,
    windowDecreaseType: string,
    windowDecreaseFactor: int,
    triggers: seq<string>,
    connections: set<string>)

  datatype PipelineError =
    | UnknownConnection(connection: string)
    | CeilingBelowFloor
    | UnknownManager(manager: string)

  /* ---------------------------------------------------------------------- */
  /* Pieces                                                                  */
  /* ---------------------------------------------------------------------- */

  function MessageOr(conf: PipelineConf, key: string, default: string): (m: string)
    ensures key in conf.messages ==> m == conf.messages[key]
    ensures key !in conf.messages ==> m == default
  {
    if key in conf.messages then conf.messages[key] else default
  }

  /** The connection names configured under a reporter key. */
  function Configured(conf: PipelineConf, key: Action): seq<string> {
    if key in conf.reporters then conf.reporters[key] else []
  }

  function ReportersFor(names: seq<string>, action: Action): (rs: seq<Reporter>)
    ensures |rs| == |names|
    ensures forall i :: 0 <= i < |names| ==> rs[i] == Reporter(names[i], action)
    ensures forall rep :: rep in rs ==> rep.connection in names && rep.action == action
  {
    if |names| == 0 then [] else [Reporter(names[0], action)] + ReportersFor(names[1..], action)
  }

  /** A connection is permitted when there is no allow-list or it is on it. */
  predicate Permitted(name: string, allowed: Option<set<string>>) {
    allowed.None? || name in allowed.value
  }

  /** Every reporter of every action goes to a permitted connection. */
  predicate AllPermitted(actions: map<Action, seq<Reporter>>, allowed: Option<set<string>>) {
    forall k :: k in actions ==> forall rep :: rep in actions[k] ==> Permitted(rep.connection, allowed)
  }

  /** The first name the allow-list does not permit. */
  function FirstForbidden(names: seq<string>, allowed: Option<set<string>>): (r: Option<string>)
    ensures r.None? <==> forall i :: 0 <= i < |names| ==> Permitted(names[i], allowed)
    ensures r.Some? ==> r.value in names && !Permitted(r.value, allowed)
  {
    if |names| == 0 then None
    else if !Permitted(names[0], allowed) then Some(names[0])
    else FirstForbidden(names[1..], allowed)
  }

  /** The reporter loop over `keys`: every key gets its reporters, and the
      first connection the tenant does not allow is an error. */
  function BuildActions(keys: seq<Action>, conf: PipelineConf, allowed: Option<set<string>>)
    : (r: Result<map<Action, seq<Reporter>>, PipelineError>)
    ensures r.Success? <==> forall i :: 0 <= i < |keys| ==> FirstForbidden(Configured(conf, keys[i]), allowed).None?
    ensures r.Success? ==> forall k :: k in r.value <==> k in keys
    ensures r.Success? ==> forall k :: k in keys ==> r.value[k] == ReportersFor(Configured(conf, k), k)
    ensures r.Success? ==> AllPermitted(r.value, allowed)
    ensures r.Failure? ==> r.error.UnknownConnection? && !Permitted(r.error.connection, allowed) &&
                           exists k :: k in keys && r.error.connection in Configured(conf, k)
  {
    if |keys| == 0 then Success(map[])
    else match FirstForbidden(Configured(conf, keys[0]), allowed)
      case Some(n) => Failure(UnknownConnection(n))
      case None =>
        var rest := BuildActions(keys[1..], conf, allowed);
        assert forall i :: 1 <= i < |keys| ==> keys[i] == keys[1..][i - 1];
        if rest.Failure? then
          assert rest.error.connection in Configured(conf, keys[1..][0]) || exists k :: k in keys[1..] && rest.error.connection in Configured(conf, k);
          Failure(rest.error)
        else Success(rest.value[keys[0] := ReportersFor(Configured(conf, keys[0]), keys[0])])
  }

  /** Every name under every reporter key. */
  function ReporterNames(keys: seq<Action>, conf: PipelineConf): (s: set<string>)
    ensures forall n :: n in s <==> exists k :: k in keys && n in Configured(conf, k)
  {
    if |keys| == 0 then {}
    else
      assert forall k :: k in keys <==> k == keys[0] || k in keys[1..];
      (set n | n in Configured(conf, keys[0])) + ReporterNames(keys[1..], conf)
  }

  function ManagerOf(name: string): (r: Option<ManagerKind>)
    ensures r.Some? <==> name in {"dependent", "independent", "serial", "supercedent"}
  {
    if name == "dependent" then Some(Dependent)
    else if name == "independent" then Some(Independent)
    else if name == "serial" then Some(Serial)
    else if name == "supercedent" then Some(Supercedent)
    else None
  }

  function CeilingOf(conf: PipelineConf): Ceiling {
    if conf.windowCeiling.Some? then AtMost(conf.windowCeiling.value) else Unbounded
  }

  /** `window_ceiling < window_floor`; an infinite ceiling is below nothing. */
  predicate CeilingBelow(c: Ceiling, floor: int) {
    c.AtMost? && c.n < floor
  }

  /** An action list that is empty takes the failure actions instead. */
  function OrFailure(actions: map<Action, seq<Reporter>>, key: Action): seq<Reporter>
    requires key in actions && OnFailure in actions
  {
    if |actions[key]| == 0 then actions[OnFailure] else actions[key]
  }

  /* ---------------------------------------------------------------------- */
  /* fromYaml                                                                */
  /* ---------------------------------------------------------------------- */

  /** `PipelineParser.fromYaml`, checks in source order: reporter
      connections, window bounds, manager, trigger connections. An accepted
      stanza is assembled from the built reporter lists and the manager. */
  function FromYaml(conf: PipelineConf, allowedReporters: Option<set<string>>,
                    allowedTriggers: Option<set<string>>): (r: Result<Pipeline, PipelineError>)
    ensures r.Success? ==> BuildActions(ReporterActions, conf, allowedReporters).Success?
    ensures r.Success? ==> ManagerOf(conf.manager).Some?
    ensures r.Success? ==> r.value == Assemble(conf, ManagerOf(conf.manager).value,
                                               BuildActions(ReporterActions, conf, allowedReporters).value)
    ensures r.Success? ==> AllPermitted(r.value.actions, allowedReporters)
    ensures r.Success? ==> forall t :: t in r.value.triggers ==> Permitted(t, allowedTriggers)
    ensures CeilingBelow(CeilingOf(conf), conf.windowFloor.GetOr(3)) ==> r.Failure?
    ensures ManagerOf(conf.manager).None? ==> r.Failure?
    ensures r.Failure? && r.error.UnknownConnection? ==>
              !Permitted(r.error.connection, allowedReporters) || !Permitted(r.error.connection, allowedTriggers)
  {
    var built :- BuildActions(ReporterActions, conf, allowedReporters);
    var floor := conf.windowFloor.GetOr(3);
    var ceiling := CeilingOf(conf);
    if CeilingBelow(ceiling, floor) then Failure(CeilingBelowFloor)
    else match ManagerOf(conf.manager)
      case None => Failure(UnknownManager(conf.manager))
      case Some(manager) =>
        match FirstForbidden(conf.triggers, allowedTriggers)
        case Some(n) => Failure(UnknownConnection(n))
        case None => Success(Assemble(conf, manager, built))
  }

  /** The fallbacks applied to the reporter lists. */
  function WithFallbacks(actions: map<Action, seq<Reporter>>): (a: map<Action, seq<Reporter>>)
    requires OnFailure in actions && OnMergeConflict in actions && OnConfigError in actions
    ensures a.Keys == actions.Keys
    ensures a[OnMergeConflict] == OrFailure(actions, OnMergeConflict)
    ensures a[OnConfigError] == OrFailure(actions, OnConfigError)
    ensures forall k :: k in actions && k != OnMergeConflict && k != OnConfigError ==> a[k] == actions[k]
    ensures forall allowed :: AllPermitted(actions, allowed) ==> AllPermitted(a, allowed)
  {
    var a := actions[OnMergeConflict := OrFailure(actions, OnMergeConflict)];
    a[OnConfigError := OrFailure(actions, OnConfigError)]
  }

  /** Every connection the stanza names: reporters, require and reject
      sources, triggers. */
  function Connections(conf: PipelineConf): (s: set<string>)
    ensures forall c :: c in s <==>
              (exists k :: k in ReporterActions && c in Configured(conf, k))
              || c in conf.requireSources || c in conf.rejectSources || c in conf.triggers
  {
    ReporterNames(ReporterActions, conf) + (set c | c in conf.requireSources)
    + (set c | c in conf.rejectSources) + (set c | c in conf.triggers)
  }

  /** The pipeline record once every check has passed, from the reporter
      lists built for each reporter key: every unset key takes its default,
      the reporter lists get their fallbacks, and the pipeline knows every
      connection the stanza names. */
  function Assemble(conf: PipelineConf, manager: ManagerKind, built: map<Action, seq<Reporter>>): (p: Pipeline)
    requires forall k :: k in built <==> k in ReporterActions
    requires forall k :: k in ReporterActions ==> built[k] == ReportersFor(Configured(conf, k), k)
    ensures p.manager == manager && p.precedence == conf.precedence.GetOr(Normal)
    ensures p.messages.failure == MessageOr(conf, "failure-message", DefaultFailureMessage)
    ensures p.messages.mergeConflict == MessageOr(conf, "merge-conflict-message", DefaultMergeConflictMessage)
    ensures p.messages.success == MessageOr(conf, "success-message", DefaultSuccessMessage)
    ensures p.messages.start == MessageOr(conf, "start-message", DefaultStartMessage)
    ensures p.messages.dequeue == MessageOr(conf, "dequeue-message", DefaultDequeueMessage)
    ensures p.window == conf.window.GetOr(20) && p.windowFloor == conf.windowFloor.GetOr(3)
    ensures conf.windowCeiling.None? <==> p.windowCeiling.Unbounded?
    ensures conf.windowCeiling.Some? ==> p.windowCeiling == AtMost(conf.windowCeiling.value)
    ensures p.name == conf.name && p.description == conf.description && p.disableAt == conf.disableAt
    ensures p.allowOtherConnections == conf.allowOtherConnections.GetOr(true)
    ensures p.dequeueOnNewPatchset == conf.dequeueOnNewPatchset.GetOr(true)
    ensures p.ignoreDependencies == conf.ignoreDependencies.GetOr(false)
    ensures p.postReview == conf.postReview.GetOr(false)
    ensures p.supercedes == ConfigLoader.AsList(conf.supercedes)
    ensures p.messages.footer == MessageOr(conf, "footer-message", "")
    ensures p.messages.enqueue == MessageOr(conf, "enqueue-message", "")
    ensures p.messages.noJobs == MessageOr(conf, "no-jobs-message", "")
    ensures p.windowIncreaseType == conf.windowIncreaseType.GetOr("linear")
    ensures p.windowIncreaseFactor == conf.windowIncreaseFactor.GetOr(1)
    ensures p.windowDecreaseType == conf.windowDecreaseType.GetOr("exponential")
    ensures p.windowDecreaseFactor == conf.windowDecreaseFactor.GetOr(2)
    ensures forall k :: k in p.actions <==> k in ReporterActions
    ensures forall k :: k in ReporterActions && k != OnMergeConflict && k != OnConfigError ==>
              p.actions[k] == ReportersFor(Configured(conf, k), k)
    ensures p.actions[OnMergeConflict] == OrFailure(built, OnMergeConflict)
    ensures p.actions[OnConfigError] == OrFailure(built, OnConfigError)
    ensures forall allowed :: AllPermitted(built, allowed) ==> AllPermitted(p.actions, allowed)
    ensures p.triggers == conf.triggers
    ensures forall c :: c in p.connections <==>
              (exists k :: k in ReporterActions && c in Configured(conf, k))
              || c in conf.requireSources || c in conf.rejectSources || c in conf.triggers
  {
    assert OnFailure in ReporterActions && OnMergeConflict in ReporterActions && OnConfigError in ReporterActions;
    Pipeline(
      conf.name, manager, conf.precedence.GetOr(Normal), conf.allowOtherConnections.GetOr(true),
      conf.description, ConfigLoader.AsList(conf.supercedes),
      Messages(
        MessageOr(conf, "failure-message", DefaultFailureMessage),
        MessageOr(conf, "merge-conflict-message", DefaultMergeConflictMessage),
        MessageOr(conf, "success-message", DefaultSuccessMessage),
        MessageOr(conf, "footer-message", ""),
        MessageOr(conf, "start-message", DefaultStartMessage),
        MessageOr(conf, "enqueue-message", ""),
        MessageOr(conf, "no-jobs-message", ""),
        MessageOr(conf, "dequeue-message", DefaultDequeueMessage)),
      conf.dequeueOnNewPatchset.GetOr(true), conf.ignoreDependencies.GetOr(false),
      conf.postReview.GetOr(false), WithFallbacks(built), conf.disableAt,
      conf.window.GetOr(20), conf.windowFloor.GetOr(3), CeilingOf(conf),
      conf.windowIncreaseType.GetOr("linear"), conf.windowIncreaseFactor.GetOr(1),
      conf.windowDecreaseType.GetOr("exponential"), conf.windowDecreaseFactor.GetOr(2),
      conf.triggers, Connections(conf))
  }

  /** Empty merge-conflict and config-error actions are the failure
      actions; configured ones are kept. */
  lemma ActionFallbacks(conf: PipelineConf, allowedReporters: Option<set<string>>, allowedTriggers: Option<set<string>>)
    ensures FromYaml(conf, allowedReporters, allowedTriggers).Success? ==>
            var p := FromYaml(conf, allowedReporters, allowedTriggers).value;
            var failure := ReportersFor(Configured(conf, OnFailure), OnFailure);
            p.actions[OnFailure] == failure &&
            (|Configured(conf, OnMergeConflict)| == 0 ==> p.actions[OnMergeConflict] == failure) &&
            (|Configured(conf, OnMergeConflict)| > 0 ==>
               p.actions[OnMergeConflict] == ReportersFor(Configured(conf, OnMergeConflict), OnMergeConflict)) &&
            (|Configured(conf, OnConfigError)| == 0 ==> p.actions[OnConfigError] == failure) &&
            (|Configured(conf, OnConfigError)| > 0 ==>
               p.actions[OnConfigError] == ReportersFor(Configured(conf, OnConfigError), OnConfigError))
  {
    if FromYaml(conf, allowedReporters, allowedTriggers).Success? {
      var built := BuildActions(ReporterActions, conf, allowedReporters).value;
      assert OnFailure in ReporterActions && OnMergeConflict in ReporterActions && OnConfigError in ReporterActions;
      assert built[OnFailure] == ReportersFor(Configured(conf, OnFailure), OnFailure);
    }
  }

  /** A stanza that sets none of the window keys gets a window of 20, a
      floor of 3, no ceiling, linear increase by 1 and exponential decrease
      by 2. */
  lemma WindowDefaults(conf: PipelineConf, allowedReporters: Option<set<string>>, allowedTriggers: Option<set<string>>)
    requires conf.window.None? && conf.windowFloor.None? && conf.windowCeiling.None?
    requires conf.windowIncreaseType.None? && conf.windowIncreaseFactor.None?
    requires conf.windowDecreaseType.None? && conf.windowDecreaseFactor.None?
    ensures FromYaml(conf, allowedReporters, allowedTriggers).Success? ==>
            var p := FromYaml(conf, allowedReporters, allowedTriggers).value;
            p.window == 20 && p.windowFloor == 3 && p.windowCeiling == Unbounded &&
            p.windowIncreaseType == "linear" && p.windowIncreaseFactor == 1 &&
            p.windowDecreaseType == "exponential" && p.windowDecreaseFactor == 2
  {
  }

  /** A stanza is accepted exactly when every reporter and trigger
      connection is allowed, the ceiling is not below the floor and the
      manager is known. */
  lemma FromYamlAccepts(conf: PipelineConf, allowedReporters: Option<set<string>>, allowedTriggers: Option<set<string>>)
    ensures FromYaml(conf, allowedReporters, allowedTriggers).Success? <==>
              (forall k :: k in ReporterActions ==> forall n :: n in Configured(conf, k) ==> Permitted(n, allowedReporters))
              && !CeilingBelow(CeilingOf(conf), conf.windowFloor.GetOr(3))
              && ManagerOf(conf.manager).Some?
              && (forall t :: t in conf.triggers ==> Permitted(t, allowedTriggers))
  {
    var b := BuildActions(ReporterActions, conf, allowedReporters);
    if b.Failure? {
      assert exists k :: k in ReporterActions && b.error.connection in Configured(conf, k);
    } else {
      forall k | k in ReporterActions
        ensures forall n :: n in Configured(conf, k) ==> Permitted(n, allowedReporters)
      {
        var i :| 0 <= i < |ReporterActions| && ReporterActions[i] == k;
        assert FirstForbidden(Configured(conf, ReporterActions[i]), allowedReporters).None?;
      }
    }
  }

  /* ---------------------------------------------------------------------- */
  /* QueueParser                                                             */
  /* ---------------------------------------------------------------------- */

  datatype QueueConf = QueueConf(
    name: string, perBranch: Option<bool>, allowCircularDependencies: Option<bool>, dependenciesByTopic: Option<bool>)

  datatype Queue = Queue(name: string, perBranch: bool, allowCircularDependencies: bool, dependenciesByTopic: bool)

  /** `QueueParser.fromYaml`: every flag defaults to false, and grouping
      dependencies by topic needs circular dependencies allowed. */
  function QueueFromYaml(conf: QueueConf): (r: Result<Queue, string>)
    ensures r.Failure? <==> conf.dependenciesByTopic == Some(true) && conf.allowCircularDependencies != Some(true)
    ensures r.Success? ==> r.value.name == conf.name
    ensures r.Success? ==> (r.value.perBranch <==> conf.perBranch == Some(true))
    ensures r.Success? ==> (r.value.allowCircularDependencies <==> conf.allowCircularDependencies == Some(true))
    ensures r.Success? ==> (r.value.dependenciesByTopic <==> conf.dependenciesByTopic == Some(true))
    ensures r.Success? ==> (r.value.dependenciesByTopic ==> r.value.allowCircularDependencies)
  {
    var q := Queue(conf.name, conf.perBranch.GetOr(false), conf.allowCircularDependencies.GetOr(false),
                   conf.dependenciesByTopic.GetOr(false));
    if q.dependenciesByTopic && !q.allowCircularDependencies then
      Failure("The 'allow-circular-dependencies' setting must beenabled in order to use dependencies-by-topic")
    else Success(q)
  }
}

=== FILE: project_parser.dfy ===
/** zuul/configloader.py, `ProjectParser.fromYaml`: who may configure a
    project, how its implied branch matchers are set, how templates are
    added and which variable names are refused.

    The tenant's project lookup (`tenant.getProject`, in zuul/model.py, not
    part of this model) is a parameter that maps a name to the canonical
    name of the project it denotes. The template parser's own work is not
    modelled: its list of templates is an input. */
module ProjectParser {
  import opened Wrappers
  import opened Strings
  import opened Values

  /** Where a project stanza was read from. */
  datatype SourceContext = SourceContext(projectCanonicalName: string, branch: string, trusted: bool)

  datatype ProjectConf = ProjectConf(
    name: Option<string>,
    templates: seq<string>,
    defaultBranch: Option<string>,
    queue: Option<string>,
    vars: map<string, Value>)

  /** The parsed stanza. `impliedBranches` is `None` for a regex stanza
      (left as the template parser set it), otherwise the branch names of
      its implied branch matchers. */
  datatype ProjectConfig = ProjectConfig(
    name: string,
    isTemplate: bool,
    templates: seq<string>,
    impliedBranches: Option<seq<string>>,
    defaultBranch: Option<string>,
    queueName: Option<string>,
    variables: map<string, Value>)

  datatype ProjectError = ProjectNotPermitted | ProjectNotFound(project: string) | ForbiddenVariables

  /** Variable names a project may not set. */
  const ForbiddenVars: set<string> := {"zuul", "nodepool", "unsafe_vars"}

  /** The name a stanza configures: its `name`, or when that is missing
      or empty the project it was read from. */
  function StanzaName(conf: ProjectConf, ctx: SourceContext): (name: string)
    ensures conf.name.Some? && conf.name.value != "" ==> name == conf.name.value
    ensures conf.name.None? || conf.name.value == "" ==> name == ctx.projectCanonicalName
  {
    if conf.name.Some? && conf.name.value != "" then conf.name.value else ctx.projectCanonicalName
  }

  /** The template loop: append each name not yet listed. */
  function AddTemplates(existing: seq<string>, names: seq<string>): (r: seq<string>)
    ensures StartsWith'(r, existing)
    ensures forall t :: t in r <==> t in existing || t in names
    decreases |names|
  {
    if |names| == 0 then existing
    else if names[0] in existing then AddTemplates(existing, names[1..])
    else AddTemplates(existing + [names[0]], names[1..])
  }

  /** `a` begins with `b`. */
  predicate StartsWith'<T(==)>(a: seq<T>, b: seq<T>) {
    |b| <= |a| && a[..|b|] == b
  }

  predicate NoDuplicates(xs: seq<string>) {
    forall i, j :: 0 <= i < j < |xs| ==> xs[i] != xs[j]
  }

  /** Adding templates never lists one twice. */
  lemma {:induction false} AddTemplatesNoDuplicates(existing: seq<string>, names: seq<string>)
    requires NoDuplicates(existing)
    ensures NoDuplicates(AddTemplates(existing, names))
    decreases |names|
  {
    if |names| > 0 {
      if names[0] in existing {
        AddTemplatesNoDuplicates(existing, names[1..]);
      } else {
        AddTemplatesNoDuplicates(existing + [names[0]], names[1..]);
      }
    }
  }

  /** The access checks of `fromYaml` and the configuration they start
      from: a regex stanza is a template named by the pattern; a named
      stanza configures the project the name denotes, with no implied
      branch (trusted) or the context's branch (untrusted). */
  function Access(conf: ProjectConf, ctx: SourceContext, lookup: string -> Option<string>,
                  templatesBefore: seq<string>): (r: Result<ProjectConfig, ProjectError>)
    ensures var name := StanzaName(conf, ctx);
            StartsWith(name, "^") && !ctx.trusted ==> r == Failure(ProjectNotPermitted)
    ensures var name := StanzaName(conf, ctx);
            !StartsWith(name, "^") && lookup(name).None? ==> r == Failure(ProjectNotFound(name))
    ensures var name := StanzaName(conf, ctx);
            r.Success? && !StartsWith(name, "^") ==>
              lookup(name).Some? && r.value.name == lookup(name).value && !r.value.isTemplate &&
              (ctx.trusted || lookup(name).value == ctx.projectCanonicalName)
    ensures r.Success? && ctx.trusted && !StartsWith(StanzaName(conf, ctx), "^") ==>
              r.value.impliedBranches == Some([])
    ensures r.Success? && !ctx.trusted ==> r.value.impliedBranches == Some([ctx.branch])
    ensures r.Success? <==> AccessAllowed(conf, ctx, lookup)
    ensures r.Success? ==> r.value.templates == templatesBefore && r.value.variables == map[]
  {
    var name := StanzaName(conf, ctx);
    if StartsWith(name, "^") then
      if !ctx.trusted then Failure(ProjectNotPermitted)
      else Success(ProjectConfig(name, true, templatesBefore, None, None, None, map[]))
    else
      match lookup(name)
      case None => Failure(ProjectNotFound(name))
      case Some(canonical) =>
        if !ctx.trusted && canonical != ctx.projectCanonicalName then Failure(ProjectNotPermitted)
        else Success(ProjectConfig(canonical, false, templatesBefore,
                                   Some(if ctx.trusted then [] else [ctx.branch]),
                                   None, None, map[]))
  }

  /** The settings `fromYaml` applies after the access checks: templates,
      default branch, queue, and a non-empty `vars` that avoids the
      forbidden names. */
  function WithSettings(base: ProjectConfig, conf: ProjectConf): (r: Result<ProjectConfig, ProjectError>)
    requires base.variables == map[]
    ensures r.Success? <==> conf.vars.Keys !! ForbiddenVars
    ensures r.Success? ==> r.value.name == base.name && r.value.isTemplate == base.isTemplate
    ensures r.Success? ==> r.value.impliedBranches == base.impliedBranches
    ensures r.Success? ==> r.value.templates == AddTemplates(base.templates, conf.templates)
    ensures r.Success? ==> r.value.defaultBranch == conf.defaultBranch && r.value.queueName == conf.queue
    ensures r.Success? ==> r.value.variables == conf.vars
  {
    var withTemplates := base.(templates := AddTemplates(base.templates, conf.templates),
                               defaultBranch := conf.defaultBranch, queueName := conf.queue);
    if |conf.vars| > 0 then
      if !(conf.vars.Keys !! ForbiddenVars) then Failure(ForbiddenVariables)
      else Success(withTemplates.(variables := conf.vars))
    else
      assert conf.vars == map[];
      Success(withTemplates)
  }

  /** `fromYaml`. A name starting with `^` is a regex stanza, allowed only
      in a trusted context; any other name must denote a project of the
      tenant, and an untrusted context may only configure its own project.
      A non-empty `vars` may not use a forbidden name. */
  function FromYaml(conf: ProjectConf, ctx: SourceContext, lookup: string -> Option<string>,
                    templatesBefore: seq<string>): (r: Result<ProjectConfig, ProjectError>)
    ensures var name := StanzaName(conf, ctx);
            StartsWith(name, "^") && !ctx.trusted ==> r == Failure(ProjectNotPermitted)
    ensures var name := StanzaName(conf, ctx);
            !StartsWith(name, "^") && lookup(name).None? ==> r == Failure(ProjectNotFound(name))
    ensures var name := StanzaName(conf, ctx);
            r.Success? && !StartsWith(name, "^") ==>
              lookup(name).Some? && r.value.name == lookup(name).value && !r.value.isTemplate &&
              (ctx.trusted || lookup(name).value == ctx.projectCanonicalName)
    ensures r.Success? && ctx.trusted && !StartsWith(StanzaName(conf, ctx), "^") ==>
              r.value.impliedBranches == Some([])
    ensures r.Success? && !ctx.trusted ==> r.value.impliedBranches == Some([ctx.branch])
    ensures r.Success? ==> r.value.templates == AddTemplates(templatesBefore, conf.templates)
    ensures r.Success? ==> r.value.defaultBranch == conf.defaultBranch && r.value.queueName == conf.queue
    ensures r.Success? ==> r.value.variables == conf.vars && r.value.variables.Keys !! ForbiddenVars
    ensures AccessAllowed(conf, ctx, lookup) && !(conf.vars.Keys !! ForbiddenVars) ==> r == Failure(ForbiddenVariables)
  {
    var base :- Access(conf, ctx, lookup, templatesBefore);
    WithSettings(base, conf)
  }

  /** Who may configure what: a regex stanza needs a trusted context; a
      named one needs a project the tenant knows, and an untrusted context
      may only configure its own project. */
  predicate AccessAllowed(conf: ProjectConf, ctx: SourceContext, lookup: string -> Option<string>) {
    var name := StanzaName(conf, ctx);
    if StartsWith(name, "^") then ctx.trusted
    else lookup(name).Some? && (ctx.trusted || lookup(name).value == ctx.projectCanonicalName)
  }

  /** A stanza is accepted exactly when access is allowed and its
      variables avoid the forbidden names. */
  lemma FromYamlAccepts(conf: ProjectConf, ctx: SourceContext, lookup: string -> Option<string>,
                        templatesBefore: seq<string>)
    ensures FromYaml(conf, ctx, lookup, templatesBefore).Success? <==>
              AccessAllowed(conf, ctx, lookup) && conf.vars.Keys !! ForbiddenVars
  {
  }
}

=== FILE: re2util.dfy ===
/** zuul/lib/re2util.py: filtering a list of names through allow and deny
    pattern lists, and `ZuulRegex`, a pattern that may be negated.

    The regular-expression library itself is not modelled: an `Engine`
    carries its three entry points as total functions of (pattern, subject),
    and every matching operation takes the engine as a parameter. */
module Re2Util {
  import opened Wrappers
  import opened Values

  /** `re.match` (anchored at the start), `re.fullmatch` and `re.search`,
      each reduced to "did it produce a match object". */
  datatype Engine = Engine(
    matchPrefix: (string, string) -> bool,
    matchFull: (string, string) -> bool,
    matchAnywhere: (string, string) -> bool)

  /* ---------------------------------------------------------------------- */
  /* filter_allowed_disallowed                                               */
  /* ---------------------------------------------------------------------- */

  /** Some pattern in `patterns` matches (anchored) at the start of `subject`. */
  predicate AnyMatches(e: Engine, patterns: seq<string>, subject: string) {
    exists i :: 0 <= i < |patterns| && e.matchPrefix(patterns[i], subject)
  }

  /** The documented rule: an empty allow list allows everything, and a
      matching deny pattern overrides any allow pattern. */
  predicate Kept(e: Engine, allowed: seq<string>, disallowed: seq<string>, subject: string) {
    (|allowed| == 0 || AnyMatches(e, allowed, subject)) && !AnyMatches(e, disallowed, subject)
  }

  /** Reference definition: the subjects that are kept, in input order. */
  function Filtered(e: Engine, subjects: seq<string>, allowed: seq<string>,
                    disallowed: seq<string>): seq<string>
  {
    if |subjects| == 0 then []
    else
      var rest := Filtered(e, subjects[..|subjects| - 1], allowed, disallowed);
      if Kept(e, allowed, disallowed, subjects[|subjects| - 1])
      then rest + [subjects[|subjects| - 1]]
      else rest
  }

  /** The loop of `filter_allowed_disallowed`, pattern by pattern. */
  method FilterAllowedDisallowed(e: Engine, subjects: seq<string>,
                                 allowed: seq<string>, disallowed: seq<string>)
    returns (ret: seq<string>)
    ensures ret == Filtered(e, subjects, allowed, disallowed)
  {
    ret := [];
    var n := 0;
    while n < |subjects|
      invariant 0 <= n <= |subjects|
      invariant ret == Filtered(e, subjects[..n], allowed, disallowed)
    {
      var subject := subjects[n];
      var ok := true;
      if |allowed| > 0 {
        ok := false;
        var j := 0;
        while j < |allowed|
          invariant 0 <= j <= |allowed|
          invariant !ok ==> forall k :: 0 <= k < j ==> !e.matchPrefix(allowed[k], subject)
          invariant ok ==> AnyMatches(e, allowed, subject)
        {
          if e.matchPrefix(allowed[j], subject) {
            ok := true;
            break;
          }
          j := j + 1;
        }
      }
      if ok && |disallowed| > 0 {
        var j := 0;
        while j < |disallowed|
          invariant 0 <= j <= |disallowed|
          invariant ok ==> forall k :: 0 <= k < j ==> !e.matchPrefix(disallowed[k], subject)
          invariant ok ==> |allowed| == 0 || AnyMatches(e, allowed, subject)
          invariant !ok ==> AnyMatches(e, disallowed, subject)
        {
          if e.matchPrefix(disallowed[j], subject) {
            ok := false;
            break;
          }
          j := j + 1;
        }
      }
      assert ok == Kept(e, allowed, disallowed, subject);
      if ok {
        ret := ret + [subject];
      }
      assert subjects[..n + 1][..n] == subjects[..n];
      n := n + 1;
    }
    assert subjects[..n] == subjects;
  }

  /** `a` is `b` with some elements left out, order preserved. */
  predicate IsSubsequence<T(==)>(a: seq<T>, b: seq<T>)
    decreases |b|
  {
    if |a| == 0 then true
    else if |b| == 0 then false
    else if a[0] == b[0] then IsSubsequence(a[1..], b[1..])
    else IsSubsequence(a, b[1..])
  }

  lemma {:induction false} SubsequenceExtend<T>(a: seq<T>, b: seq<T>, x: T)
    requires IsSubsequence(a, b)
    ensures IsSubsequence(a, b + [x])
    decreases |b|
  {
    if |a| > 0 {
      assert (b + [x])[1..] == b[1..] + [x];
      if a[0] == b[0] {
        SubsequenceExtend(a[1..], b[1..], x);
      } else {
        SubsequenceExtend(a, b[1..], x);
      }
    }
  }

  lemma {:induction false} SubsequenceAppendBoth<T>(a: seq<T>, b: seq<T>, x: T)
    requires IsSubsequence(a, b)
    ensures IsSubsequence(a + [x], b + [x])
    decreases |b|
  {
    if |a| == 0 {
      assert a + [x] == [x];
      SingletonSubsequence(b, x);
    } else {
      assert (a + [x])[1..] == a[1..] + [x];
      assert (b + [x])[1..] == b[1..] + [x];
      if a[0] == b[0] {
        SubsequenceAppendBoth(a[1..], b[1..], x);
      } else {
        SubsequenceAppendBoth(a, b[1..], x);
      }
    }
  }

  lemma {:induction false} SingletonSubsequence<T>(b: seq<T>, x: T)
    ensures IsSubsequence([x], b + [x])
    decreases |b|
  {
    assert [x] + [] == [x];
    if |b| > 0 && b[0] != x {
      assert (b + [x])[1..] == b[1..] + [x];
      SingletonSubsequence(b[1..], x);
    }
  }

  /** The output of the filter is an order-preserving subsequence of the
      input. */
  lemma {:induction false} FilteredIsSubsequence(e: Engine, subjects: seq<string>,
                                                 allowed: seq<string>, disallowed: seq<string>)
    ensures IsSubsequence(Filtered(e, subjects, allowed, disallowed), subjects)
    decreases |subjects|
  {
    if |subjects| > 0 {
      var init := subjects[..|subjects| - 1];
      var last := subjects[|subjects| - 1];
      FilteredIsSubsequence(e, init, allowed, disallowed);
      var rest := Filtered(e, init, allowed, disallowed);
      if Kept(e, allowed, disallowed, last) {
        SubsequenceAppendBoth(rest, init, last);
      } else {
        SubsequenceExtend(rest, init, last);
      }
      assert init + [last] == subjects;
    }
  }

  /** A subject appears in the output iff it is an input subject that the
      allow/deny rule keeps. */
  lemma {:induction false} FilteredMembership(e: Engine, subjects: seq<string>,
                                              allowed: seq<string>, disallowed: seq<string>, s: string)
    ensures s in Filtered(e, subjects, allowed, disallowed)
            <==> s in subjects && Kept(e, allowed, disallowed, s)
    decreases |subjects|
  {
    if |subjects| > 0 {
      var init := subjects[..|subjects| - 1];
      FilteredMembership(e, init, allowed, disallowed, s);
      assert subjects == init + [subjects[|subjects| - 1]];
    }
  }

  /** With both pattern lists empty the filter returns its input unchanged. */
  lemma {:induction false} FilteredNoPatterns(e: Engine, subjects: seq<string>)
    ensures Filtered(e, subjects, [], []) == subjects
    decreases |subjects|
  {
    if |subjects| > 0 {
      FilteredNoPatterns(e, subjects[..|subjects| - 1]);
      assert subjects[..|subjects| - 1] + [subjects[|subjects| - 1]] == subjects;
    }
  }

  /* ---------------------------------------------------------------------- */
  /* ZuulRegex                                                               */
  /* ---------------------------------------------------------------------- */

  /** A pattern with an optional negation. Python's `__eq__` compares the
      pattern and the negate flag, which is exactly datatype equality. */
  datatype ZuulRegex = ZuulRegex(pattern: string, negate: bool) {

    function Match(e: Engine, subject: string): bool {
      if negate then !e.matchPrefix(pattern, subject) else e.matchPrefix(pattern, subject)
    }

    function FullMatch(e: Engine, subject: string): bool {
      if negate then !e.matchFull(pattern, subject) else e.matchFull(pattern, subject)
    }

    function Search(e: Engine, subject: string): bool {
      if negate then !e.matchAnywhere(pattern, subject) else e.matchAnywhere(pattern, subject)
    }

    /** `{"pattern": ..., "negate": ...}`. */
    function Serialize(): (d: Value)
      ensures d.Dict? && d.entries.Keys == {"pattern", "negate"}
      ensures d.entries["pattern"] == Str(pattern)
      ensures d.entries["negate"] == Bool(negate)
    {
      Dict(map["pattern" := Str(pattern), "negate" := Bool(negate)])
    }
  }

  /** A regex with `negate` set answers the opposite of the same pattern
      without it, for all three kinds of matching. */
  lemma NegationComplements(e: Engine, pattern: string, subject: string)
    ensures ZuulRegex(pattern, true).Match(e, subject) == !ZuulRegex(pattern, false).Match(e, subject)
    ensures ZuulRegex(pattern, true).FullMatch(e, subject) == !ZuulRegex(pattern, false).FullMatch(e, subject)
    ensures ZuulRegex(pattern, true).Search(e, subject) == !ZuulRegex(pattern, false).Search(e, subject)
  {
  }

  /** `ZuulRegex.deserialize`: a missing key is a KeyError, a pattern that is
      not a string cannot be compiled. */
  function DeserializeRegex(data: Value): (r: Result<ZuulRegex, string>)
    ensures r.Success? ==> data.Dict? && "pattern" in data.entries && "negate" in data.entries
    ensures r.Success? ==> data.entries["pattern"] == Str(r.value.pattern)
    ensures r.Success? ==> data.entries["negate"] == Bool(r.value.negate)
    ensures data.Dict? && "pattern" !in data.entries ==> r.Failure?
  {
    if !data.Dict? then Failure("data is not a mapping")
    else if "pattern" !in data.entries || "negate" !in data.entries then Failure("KeyError")
    else match (data.entries["pattern"], data.entries["negate"])
      case (Str(p), Bool(n)) => Success(ZuulRegex(p, n))
      case _ => Failure("pattern or negate has the wrong type")
  }

  /** Deserializing a serialized regex gives back an equal regex. */
  lemma RegexRoundTrip(r: ZuulRegex)
    ensures DeserializeRegex(r.Serialize()) == Success(r)
  {
  }
}

=== FILE: reporter.dfy ===
/** zuul/reporter/__init__.py: the parts of `BaseReporter` that decide what
    a report says — the per-file comments gathered from builds and from
    configuration errors, the filter that drops comments on files outside
    the change, the failure message's priority order, the job list with its
    elapsed times and skipped-job tail, and the assembly of warnings, debug
    information and footer around a formatted body.

    A file-comments dictionary is an insertion-ordered list of
    `(file, comments)` entries, as a Python dict iterates. */
module Reporter {
  import opened Wrappers
  import opened Values
  import opened Strings

  /* ---------------------------------------------------------------------- */
  /* File comments                                                           */
  /* ---------------------------------------------------------------------- */

  /** A comment left on a file: either one a job returned (kept as the raw
      value the job produced) or one the reporter derives from a
      configuration error, anchored to a range. */
  datatype Comment =
    | Returned(data: Value)
    | AtRange(line: int, message: string, startLine: int, startCharacter: int,
              endLine: int, endCharacter: int)

  type FileComments = seq<(string, seq<Comment>)>

  function KeySet(d: FileComments): set<string> {
    if |d| == 0 then {} else {d[0].0} + KeySet(d[1..])
  }

  /** A dict never holds a key twice. */
  predicate DistinctKeys(d: FileComments) {
    |d| == 0 || (d[0].0 !in KeySet(d[1..]) && DistinctKeys(d[1..]))
  }

  /** Every comment the entries hold for file `k`, in entry order. For a
      dictionary (distinct keys) this is `d.get(k, [])`. */
  function Collected(d: FileComments, k: string): seq<Comment> {
    if |d| == 0 then []
    else (if d[0].0 == k then d[0].1 else []) + Collected(d[1..], k)
  }

  lemma {:induction false} CollectedAbsent(d: FileComments, k: string)
    requires k !in KeySet(d)
    ensures Collected(d, k) == []
  {
    if |d| > 0 {
      CollectedAbsent(d[1..], k);
    }
  }

  /** `d.setdefault(k, []).extend(cs)`. */
  function Extend(d: FileComments, k: string, cs: seq<Comment>): (r: FileComments)
    ensures KeySet(r) == KeySet(d) + {k}
    ensures DistinctKeys(d) ==> DistinctKeys(r)
  {
    if |d| == 0 then [(k, cs)]
    else if d[0].0 == k then
      var r := [(k, d[0].1 + cs)] + d[1..];
      assert r[1..] == d[1..];
      r
    else
      var tail := Extend(d[1..], k, cs);
      var r := [d[0]] + tail;
      assert r[1..] == tail;
      r
  }

  /** On a dictionary, extending `k` appends to `k`'s comments and leaves
      every other file's alone. */
  lemma {:induction false} ExtendCollected(d: FileComments, k: string, cs: seq<Comment>, f: string)
    requires DistinctKeys(d)
    ensures Collected(Extend(d, k, cs), f) == Collected(d, f) + (if f == k then cs else [])
  {
    var r := Extend(d, k, cs);
    if |d| == 0 {
    } else if d[0].0 == k {
      assert r[1..] == d[1..];
      if f == k {
        CollectedAbsent(d[1..], k);
      }
    } else {
      ExtendCollected(d[1..], k, cs, f);
      assert r[1..] == Extend(d[1..], k, cs);
    }
  }

  /** `ret.setdefault(fn, []).extend(comments)` for every entry of one
      build's `file_comments`, in order. */
  function ExtendAll(d: FileComments, fc: FileComments): (r: FileComments)
    ensures KeySet(r) == KeySet(d) + KeySet(fc)
    ensures DistinctKeys(d) ==> DistinctKeys(r)
    decreases |fc|
  {
    if |fc| == 0 then d
    else ExtendAll(Extend(d, fc[0].0, fc[0].1), fc[1..])
  }

  lemma {:induction false} ExtendAllCollected(d: FileComments, fc: FileComments, f: string)
    requires DistinctKeys(d)
    ensures Collected(ExtendAll(d, fc), f) == Collected(d, f) + Collected(fc, f)
    decreases |fc|
  {
    if |fc| > 0 {
      var next := Extend(d, fc[0].0, fc[0].1);
      ExtendCollected(d, fc[0].0, fc[0].1, f);
      assert DistinctKeys(next);
      ExtendAllCollected(next, fc[1..], f);
      assert ExtendAll(d, fc) == ExtendAll(next, fc[1..]);
      assert Collected(fc, f) == (if fc[0].0 == f then fc[0].1 else []) + Collected(fc[1..], f);
    }
  }

  /** The reference: every build's comments on `f`, build after build. */
  function AllFor(builds: seq<FileComments>, f: string): seq<Comment> {
    if |builds| == 0 then [] else Collected(builds[0], f) + AllFor(builds[1..], f)
  }

  function AllKeys(builds: seq<FileComments>): set<string> {
    if |builds| == 0 then {} else KeySet(builds[0]) + AllKeys(builds[1..])
  }

  /** The loop of `_getFileComments` over the builds of the current build
      set (a build without `file_comments` contributes an empty list). */
  function GatherBuildComments(acc: FileComments, builds: seq<FileComments>): (r: FileComments)
    ensures KeySet(r) == KeySet(acc) + AllKeys(builds)
    ensures DistinctKeys(acc) ==> DistinctKeys(r)
    decreases |builds|
  {
    if |builds| == 0 then acc
    else GatherBuildComments(ExtendAll(acc, builds[0]), builds[1..])
  }

  /** The builds' comments on each file are gathered in build order. */
  lemma {:induction false} GatherCollected(acc: FileComments, builds: seq<FileComments>, f: string)
    requires DistinctKeys(acc)
    ensures Collected(GatherBuildComments(acc, builds), f) == Collected(acc, f) + AllFor(builds, f)
    decreases |builds|
  {
    if |builds| > 0 {
      var next := ExtendAll(acc, builds[0]);
      ExtendAllCollected(acc, builds[0], f);
      assert DistinctKeys(next);
      GatherCollected(next, builds[1..], f);
      assert GatherBuildComments(acc, builds) == GatherBuildComments(next, builds[1..]);
      assert AllFor(builds, f) == Collected(builds[0], f) + AllFor(builds[1..], f);
    }
  }

  /* ---------------------------------------------------------------------- */
  /* Configuration-error comments                                            */
  /* ---------------------------------------------------------------------- */

  datatype Context = Context(projectCanonicalName: string, branch: string, path: string)

  /** A YAML position: zero-based `line`, `column`, and the end position. */
  datatype Mark = Mark(line: int, column: int, endLine: int, endColumn: int)

  datatype ConfigError = ConfigError(context: Option<Context>, mark: Option<Mark>,
                                     shortError: Option<string>, error: string)

  /** The change an item is for; `branch` is absent for a change kind
      without one (a tag or a plain ref). */
  datatype Change = Change(projectCanonicalName: string, branch: Option<string>, files: set<string>)

  /** An error earns a file comment when it has a context, a mark and a
      non-empty short error, and it lies in a file the change touches, in
      the change's own project and branch. */
  predicate Relevant(err: ConfigError, change: Change) {
    && err.context.Some? && err.mark.Some?
    && err.shortError.Some? && |err.shortError.value| > 0
    && err.context.value.projectCanonicalName == change.projectCanonicalName
    && change.branch.Some? && err.context.value.branch == change.branch.value
    && err.context.value.path in change.files
  }

  /** The comment for an error: on its end line, carrying the short error,
      with a range whose start line is one-based. */
  function ErrorComment(m: Mark, message: string): (c: Comment)
    ensures c.AtRange? && c.line == m.endLine && c.message == message
    ensures c.startLine == m.line + 1 && c.startCharacter == m.column
    ensures c.endLine == m.endLine && c.endCharacter == m.endColumn
  {
    AtRange(m.endLine, message, m.line + 1, m.column, m.endLine, m.endColumn)
  }

  /** The reference: the comments the errors leave on file `f`. */
  function ErrorCommentsFor(errors: seq<ConfigError>, change: Change, f: string): seq<Comment> {
    if |errors| == 0 then []
    else
      var e := errors[0];
      (if Relevant(e, change) && e.context.value.path == f
       then [ErrorComment(e.mark.value, e.shortError.value)] else [])
      + ErrorCommentsFor(errors[1..], change, f)
  }

  function ErrorPaths(errors: seq<ConfigError>, change: Change): (ps: set<string>)
    ensures ps <= change.files
  {
    if |errors| == 0 then {}
    else
      (if Relevant(errors[0], change) then {errors[0].context.value.path} else {})
      + ErrorPaths(errors[1..], change)
  }

  /** `addConfigurationErrorComments`. */
  function AddConfigErrorComments(d: FileComments, errors: seq<ConfigError>, change: Change): (r: FileComments)
    ensures KeySet(r) == KeySet(d) + ErrorPaths(errors, change)
    ensures DistinctKeys(d) ==> DistinctKeys(r)
    decreases |errors|
  {
    if |errors| == 0 then d
    else
      var e := errors[0];
      var next := if Relevant(e, change)
                  then Extend(d, e.context.value.path, [ErrorComment(e.mark.value, e.shortError.value)])
                  else d;
      AddConfigErrorComments(next, errors[1..], change)
  }

  /** Each relevant error appends its comment to its file, in error order. */
  lemma {:induction false} ConfigErrorsCollected(d: FileComments, errors: seq<ConfigError>, change: Change, f: string)
    requires DistinctKeys(d)
    ensures Collected(AddConfigErrorComments(d, errors, change), f)
            == Collected(d, f) + ErrorCommentsFor(errors, change, f)
    decreases |errors|
  {
    if |errors| > 0 {
      var e := errors[0];
      var rest := ErrorCommentsFor(errors[1..], change, f);
      if Relevant(e, change) {
        var c := ErrorComment(e.mark.value, e.shortError.value);
        var next := Extend(d, e.context.value.path, [c]);
        ExtendCollected(d, e.context.value.path, [c], f);
        assert DistinctKeys(next);
        ConfigErrorsCollected(next, errors[1..], change, f);
        assert AddConfigErrorComments(d, errors, change) == AddConfigErrorComments(next, errors[1..], change);
        assert ErrorCommentsFor(errors, change, f) == (if e.context.value.path == f then [c] else []) + rest;
      } else {
        ConfigErrorsCollected(d, errors[1..], change, f);
        assert AddConfigErrorComments(d, errors, change) == AddConfigErrorComments(d, errors[1..], change);
        assert ErrorCommentsFor(errors, change, f) == rest;
      }
    }
  }

  /** `_getFileComments`: the builds' comments, then the configuration
      errors'. */
  function FileCommentsOf(builds: seq<FileComments>, errors: seq<ConfigError>, change: Change): (r: FileComments)
    ensures DistinctKeys(r)
    ensures KeySet(r) == AllKeys(builds) + ErrorPaths(errors, change)
  {
    AddConfigErrorComments(GatherBuildComments([], builds), errors, change)
  }

  /** On every file, the builds' comments come first, in build order, and
      the configuration errors' after them. */
  lemma FileCommentsCollected(builds: seq<FileComments>, errors: seq<ConfigError>, change: Change, f: string)
    ensures Collected(FileCommentsOf(builds, errors, change), f)
            == AllFor(builds, f) + ErrorCommentsFor(errors, change, f)
  {
    var empty: FileComments := [];
    assert DistinctKeys(empty) && Collected(empty, f) == [];
    var g := GatherBuildComments(empty, builds);
    GatherCollected(empty, builds, f);
    assert Collected(g, f) == AllFor(builds, f);
    ConfigErrorsCollected(g, errors, change, f);
    assert FileCommentsOf(builds, errors, change) == AddConfigErrorComments(g, errors, change);
  }

  /* ---------------------------------------------------------------------- */
  /* filterComments                                                          */
  /* ---------------------------------------------------------------------- */

  function InvalidFileWarning(f: string): string {
    "Comments left for invalid file " + f
  }

  /** `filterComments`: drops the entries for files outside the change,
      warning once per dropped file, in iteration order. */
  function FilterComments(d: FileComments, files: set<string>): (r: (FileComments, seq<string>))
    ensures forall e :: e in r.0 <==> e in d && e.0 in files
    ensures |r.0| + |r.1| == |d|
    ensures KeySet(r.0) == KeySet(d) * files
  {
    if |d| == 0 then ([], [])
    else
      var rest := FilterComments(d[1..], files);
      if d[0].0 in files then
        var kept := [d[0]] + rest.0;
        assert kept[1..] == rest.0;
        (kept, rest.1)
      else
        (rest.0, [InvalidFileWarning(d[0].0)] + rest.1)
  }

  /** One warning for each dropped entry and none for anything else. */
  lemma {:induction false} FilterWarnings(d: FileComments, files: set<string>)
    ensures var ws := FilterComments(d, files).1;
            && (forall i :: 0 <= i < |d| && d[i].0 !in files ==> InvalidFileWarning(d[i].0) in ws)
            && (forall w :: w in ws ==> exists i :: 0 <= i < |d| && d[i].0 !in files && w == InvalidFileWarning(d[i].0))
  {
    if |d| > 0 {
      FilterWarnings(d[1..], files);
      var ws := FilterComments(d, files).1;
      var rest := FilterComments(d[1..], files).1;
      forall w | w in ws
        ensures exists i :: 0 <= i < |d| && d[i].0 !in files && w == InvalidFileWarning(d[i].0)
      {
        if w in rest {
          var j :| 0 <= j < |d[1..]| && d[1..][j].0 !in files && w == InvalidFileWarning(d[1..][j].0);
          assert d[j + 1] == d[1..][j];
        } else {
          assert d[0].0 !in files && w == InvalidFileWarning(d[0].0);
        }
      }
      forall i | 0 <= i < |d| && d[i].0 !in files
        ensures InvalidFileWarning(d[i].0) in ws
      {
        if i > 0 {
          assert d[i] == d[1..][i - 1];
        }
      }
    }
  }

  /** Filtering keeps a changed file's comments whole and drops the rest. */
  lemma {:induction false} FilterCollected(d: FileComments, files: set<string>, f: string)
    ensures Collected(FilterComments(d, files).0, f) == if f in files then Collected(d, f) else []
  {
    if |d| > 0 {
      FilterCollected(d[1..], files, f);
      var kept := FilterComments(d, files).0;
      if d[0].0 in files {
        assert kept[1..] == FilterComments(d[1..], files).0;
      }
    }
  }

  /** `getFileComments`: every comment that survives is on a file of the
      change, and on such a file nothing is lost — the builds' comments
      followed by the configuration errors'. */
  lemma FileCommentsOnChangedFiles(builds: seq<FileComments>, errors: seq<ConfigError>, change: Change, f: string)
    ensures var kept := FilterComments(FileCommentsOf(builds, errors, change), change.files).0;
            && KeySet(kept) <= change.files
            && ErrorPaths(errors, change) <= KeySet(kept)
            && (f in change.files ==> Collected(kept, f) == AllFor(builds, f) + ErrorCommentsFor(errors, change, f))
  {
    var all := FileCommentsOf(builds, errors, change);
    FilterCollected(all, change.files, f);
    FileCommentsCollected(builds, errors, change, f);
  }

  /* ---------------------------------------------------------------------- */
  /* The failure message                                                     */
  /* ---------------------------------------------------------------------- */

  /** What `_formatItemReportFailure` reads of the item. `bundleCannotMerge`
      and `dequeuedNeedingChange` are either a flag or a reason text. */
  datatype FailureView = FailureView(
    cannotMergeBundle: bool,
    bundleCannotMerge: Value,
    dequeuedNeedingChange: Value,
    dequeuedMissingRequirements: bool,
    bundleFailing: bool,
    mergerFailed: bool,
    configErrors: seq<string>)

  /** The reasons for a failure report, highest priority first. */
  datatype FailureReason =
    | BundleCannotMerge | NeedingChange | MissingRequirement | BundleFailing
    | MergerFailed | ConfigErrorFound | OtherFailure

  function Rank(r: FailureReason): nat {
    match r
    case BundleCannotMerge => 0
    case NeedingChange => 1
    case MissingRequirement => 2
    case BundleFailing => 3
    case MergerFailed => 4
    case ConfigErrorFound => 5
    case OtherFailure => 6
  }

  predicate Applies(v: FailureView, r: FailureReason) {
    match r
    case BundleCannotMerge => v.cannotMergeBundle
    case NeedingChange => Truthy(v.dequeuedNeedingChange)
    case MissingRequirement => v.dequeuedMissingRequirements
    case BundleFailing => v.bundleFailing
    case MergerFailed => v.mergerFailed
    case ConfigErrorFound => |v.configErrors| > 0
    case OtherFailure => true
  }

  /** The reason the failure report gives: the highest-priority one that
      applies. */
  function ReasonOf(v: FailureView): (r: FailureReason)
    ensures Applies(v, r)
    ensures forall q :: Rank(q) < Rank(r) ==> !Applies(v, q)
  {
    if v.cannotMergeBundle then BundleCannotMerge
    else if Truthy(v.dequeuedNeedingChange) then NeedingChange
    else if v.dequeuedMissingRequirements then MissingRequirement
    else if v.bundleFailing then BundleFailing
    else if v.mergerFailed then MergerFailed
    else if |v.configErrors| > 0 then ConfigErrorFound
    else OtherFailure
  }

  const CannotMergeText := "This change is part of a bundle that can not merge.\n"
  const NeedingChangeText := "This change depends on a change that failed to merge.\n"
  const MissingRequirementText := "This change is unable to merge due to a missing merge requirement.\n"
  const BundleFailedText := "This change is part of a bundle that failed.\n"

  /** A reason text appended after a fixed header when the flag is a str. */
  function WithReason(header: string, why: Value): (msg: string)
    ensures StartsWith(msg, header)
    ensures why.Str? ==> msg == header + "\n" + why.s + "\n"
    ensures !why.Str? ==> msg == header
  {
    if why.Str? then header + "\n" + why.s + "\n" else header
  }

  /** The status URL (when there is one) and the job list after a
      message. */
  function WithJobs(msg: string, statusUrl: Option<string>, jobsText: string): (r: string)
    ensures StartsWith(r, msg) && EndsWith(r, "\n\n" + jobsText)
  {
    var m := if statusUrl.Some? then msg + "\n" + statusUrl.value else msg;
    var r := m + "\n\n" + jobsText;
    assert r[|r| - |"\n\n" + jobsText|..] == "\n\n" + jobsText;
    assert r[..|msg|] == msg;
    r
  }

  /** `_formatItemReportFailure`. `jobsText` is the job list and
      `otherItems` the related-changes section, both formatted by the
      caller. */
  function FormatFailure(v: FailureView, failureMessage: string, mergeConflictMessage: string,
                         withJobs: bool, statusUrl: Option<string>,
                         jobsText: string, otherItems: string): (msg: string)
    ensures ReasonOf(v) == BundleCannotMerge ==> StartsWith(msg, CannotMergeText)
    ensures ReasonOf(v) == NeedingChange ==> StartsWith(msg, NeedingChangeText)
    ensures ReasonOf(v) == MissingRequirement ==> msg == MissingRequirementText
    ensures ReasonOf(v) == BundleFailing ==>
              StartsWith(msg, BundleFailedText) && EndsWith(msg, "\n\n" + otherItems)
    ensures ReasonOf(v) == MergerFailed ==> msg == mergeConflictMessage
    ensures ReasonOf(v) == ConfigErrorFound ==> msg == v.configErrors[0]
    ensures ReasonOf(v) == OtherFailure ==>
              StartsWith(msg, failureMessage) &&
              (withJobs ==> EndsWith(msg, "\n\n" + jobsText)) &&
              (!withJobs ==> msg == failureMessage)
  {
    match ReasonOf(v)
    case BundleCannotMerge => WithReason(CannotMergeText, v.bundleCannotMerge)
    case NeedingChange => WithReason(NeedingChangeText, v.dequeuedNeedingChange)
    case MissingRequirement => MissingRequirementText
    case BundleFailing =>
      var m := if withJobs then BundleFailedText + "\n\n" + jobsText else BundleFailedText;
      var r := m + "\n\n" + otherItems;
      assert r[..|BundleFailedText|] == BundleFailedText;
      assert r[|r| - |"\n\n" + otherItems|..] == "\n\n" + otherItems;
      r
    case MergerFailed => mergeConflictMessage
    case ConfigErrorFound => v.configErrors[0]
    case OtherFailure =>
      if withJobs then WithJobs(failureMessage, statusUrl, jobsText) else failureMessage
  }

  /** A bundle that cannot merge outranks every other reason: whatever else
      holds of the item, the report leads with it. */
  lemma BundleCannotMergeFirst(v: FailureView, failureMessage: string, mergeConflictMessage: string,
                               withJobs: bool, statusUrl: Option<string>, jobsText: string, otherItems: string)
    requires v.cannotMergeBundle
    ensures StartsWith(FormatFailure(v, failureMessage, mergeConflictMessage, withJobs, statusUrl, jobsText, otherItems),
                       CannotMergeText)
  {
  }

  /** The pipeline's failure message is used only when no specific reason
      applies. */
  lemma DefaultFailureOnlyWithoutReason(v: FailureView)
    ensures ReasonOf(v) == OtherFailure <==>
              !v.cannotMergeBundle && !Truthy(v.dequeuedNeedingChange) && !v.dequeuedMissingRequirements
              && !v.bundleFailing && !v.mergerFailed && |v.configErrors| == 0
  {
  }

  /* ---------------------------------------------------------------------- */
  /* Report assembly                                                         */
  /* ---------------------------------------------------------------------- */

  /** A headed, indented section listing `lines`, or nothing when there are
      none. */
  function Section(heading: string, lines: seq<string>): (r: string)
    ensures |lines| == 0 <==> r == ""
  {
    if |lines| == 0 then "" else "\n" + heading + ":\n  " + Join(lines, "\n  ") + "\n"
  }

  lemma SectionContains(heading: string, lines: seq<string>, i: int)
    requires 0 <= i < |lines|
    ensures Contains(Section(heading, lines), lines[i])
  {
    JoinContains(lines, "\n  ", i);
    ContainsInside("\n" + heading + ":\n  ", Join(lines, "\n  "), "\n", lines[i]);
  }

  /** `_formatItemReport` around a formatted body: warnings, then debug
      information, then the pipeline's footer, each only when present. */
  function FormatItemReport(body: string, warnings: seq<string>, debug: seq<string>, footer: string): (r: string)
    ensures StartsWith(r, body)
    ensures |warnings| == 0 && |debug| == 0 && |footer| == 0 ==> r == body
    ensures |footer| > 0 ==> EndsWith(r, "\n" + footer)
  {
    var w := Section("Warning", warnings);
    var d := Section("Debug information", debug);
    var f := if |footer| > 0 then "\n" + footer else "";
    var r := body + w + d + f;
    assert r[..|body|] == body;
    assert |footer| > 0 ==> r[|r| - |"\n" + footer|..] == "\n" + footer;
    r
  }

  /** The report is assembled section by section: the warnings follow the
      body, the debug information follows the warnings, and the footer
      comes last. Folding a section into the body gives the same report. */
  lemma FormatItemReportSections(body: string, warnings: seq<string>, debug: seq<string>, footer: string)
    ensures FormatItemReport(body, warnings, debug, footer) ==
              FormatItemReport(body + Section("Warning", warnings), [], debug, footer)
    ensures FormatItemReport(body, warnings, debug, footer) ==
              FormatItemReport(body + Section("Warning", warnings) + Section("Debug information", debug), [], [], footer)
    ensures FormatItemReport(body, warnings, debug, footer) ==
              FormatItemReport(body, warnings, debug, "") + (if |footer| > 0 then "\n" + footer else "")
  {
    var w := Section("Warning", warnings);
    var d := Section("Debug information", debug);
    var f := if |footer| > 0 then "\n" + footer else "";
    assert Section("Warning", []) == "" && Section("Debug information", []) == "";
    assert body + w + d + f == (body + w) + "" + d + f;
    assert body + w + d + f == (body + w + d) + "" + "" + f;
    assert body + w + d + f == (body + w + d + "") + f;
  }

  /** Every warning and every debug message appears in the report. */
  lemma ReportListsEveryMessage(body: string, warnings: seq<string>, debug: seq<string>, footer: string)
    ensures forall i :: 0 <= i < |warnings| ==> Contains(FormatItemReport(body, warnings, debug, footer), warnings[i])
    ensures forall i :: 0 <= i < |debug| ==> Contains(FormatItemReport(body, warnings, debug, footer), debug[i])
  {
    ReportListsWarnings(body, warnings, debug, footer);
    ReportListsDebug(body, warnings, debug, footer);
  }

  lemma ReportListsWarnings(body: string, warnings: seq<string>, debug: seq<string>, footer: string)
    ensures forall i :: 0 <= i < |warnings| ==> Contains(FormatItemReport(body, warnings, debug, footer), warnings[i])
  {
    var w := Section("Warning", warnings);
    var rest := Section("Debug information", debug) + (if |footer| > 0 then "\n" + footer else "");
    assert FormatItemReport(body, warnings, debug, footer) == body + w + rest;
    forall i | 0 <= i < |warnings|
      ensures Contains(body + w + rest, warnings[i])
    {
      SectionContains("Warning", warnings, i);
      ContainsInside(body, w, rest, warnings[i]);
    }
  }

  lemma ReportListsDebug(body: string, warnings: seq<string>, debug: seq<string>, footer: string)
    ensures forall i :: 0 <= i < |debug| ==> Contains(FormatItemReport(body, warnings, debug, footer), debug[i])
  {
    var before := body + Section("Warning", warnings);
    var d := Section("Debug information", debug);
    var f := if |footer| > 0 then "\n" + footer else "";
    assert FormatItemReport(body, warnings, debug, footer) == before + d + f;
    forall i | 0 <= i < |debug|
      ensures Contains(before + d + f, debug[i])
    {
      SectionContains("Debug information", debug, i);
      ContainsInside(before, d, f, debug[i]);
    }
  }

  lemma ContainsInside(a: string, mid: string, b: string, needle: string)
    requires Contains(mid, needle)
    ensures Contains(a + mid + b, needle)
  {
    var i :| 0 <= i <= |mid| - |needle| && OccursAt(mid, needle, i);
    var s := a + mid + b;
    assert s[|a| + i..|a| + i + |needle|] == mid[i..i + |needle|];
    assert OccursAt(s, needle, |a| + i);
  }

  lemma ContainsBefore(s: string, tail: string, needle: string)
    requires Contains(s, needle)
    ensures Contains(s + tail, needle)
  {
    var i :| 0 <= i <= |s| - |needle| && OccursAt(s, needle, i);
    assert (s + tail)[i..i + |needle|] == s[i..i + |needle|];
    assert OccursAt(s + tail, needle, i);
  }

  lemma {:induction false} JoinContains(xs: seq<string>, sep: string, i: int)
    requires 0 <= i < |xs|
    ensures Contains(Join(xs, sep), xs[i])
  {
    if |xs| == 1 {
      assert Join(xs, sep)[0..|xs[0]|] == xs[0];
      assert OccursAt(Join(xs, sep), xs[0], 0);
    } else if i == 0 {
      var j := Join(xs, sep);
      assert j[0..|xs[0]|] == xs[0];
      assert OccursAt(j, xs[0], 0);
    } else {
      JoinContains(xs[1..], sep, i - 1);
      ContainsInside(xs[0] + sep, Join(xs[1..], sep), "", xs[i]);
      assert Join(xs, sep) == (xs[0] + sep) + Join(xs[1..], sep) + "";
    }
  }

  /* ---------------------------------------------------------------------- */
  /* The job list                                                            */
  /* ---------------------------------------------------------------------- */

  /** Hours, minutes and seconds of a duration, as two `divmod`s by 60
      give them (floored, so the minutes and seconds are never negative). */
  function ElapsedParts(dt: int): (p: (int, int, int))
    ensures 0 <= p.1 < 60 && 0 <= p.2 < 60
    ensures p.0 * 3600 + p.1 * 60 + p.2 == dt
    ensures dt >= 0 ==> p.0 >= 0
  {
    (dt / 60 / 60, dt / 60 % 60, dt % 60)
  }

  /** A timestamp counts only when set and non-zero. */
  predicate Stamped(t: Option<int>) {
    t.Some? && t.value != 0
  }

  /** The elapsed-time text of a job: empty unless times are reported and
      the build has both a start and an end time; otherwise ` in ...s`
      with hours shown when non-zero and minutes shown when either is. */
  function Elapsed(reportTimes: bool, start: Option<int>, end: Option<int>): (r: string)
    ensures r == "" <==> !(reportTimes && Stamped(end) && Stamped(start))
    ensures r != "" ==> StartsWith(r, " in ") && EndsWith(r, "s")
    ensures r != "" ==>
              var (h, m, s) := ElapsedParts(end.value - start.value);
              && (h != 0 ==> r == " in " + IntToString(h) + "h " + Pad2(m) + "m " + Pad2(s) + "s")
              && (h == 0 && m != 0 ==> r == " in " + IntToString(m) + "m " + Pad2(s) + "s")
              && (h == 0 && m == 0 ==> r == " in " + IntToString(s) + "s")
  {
    if reportTimes && Stamped(end) && Stamped(start) then
      var (h, m, s) := ElapsedParts(end.value - start.value);
      var tail := if h != 0 then IntToString(h) + "h " + Pad2(m) + "m " + Pad2(s) + "s"
                  else if m != 0 then IntToString(m) + "m " + Pad2(s) + "s"
                  else IntToString(s) + "s";
      var r := " in " + tail;
      assert r[..4] == " in ";
      assert r[|r| - 1..] == "s";
      r
    else ""
  }

  /** Under a minute only the seconds show; under an hour, the minutes and
      zero-padded seconds. */
  lemma ElapsedShortDurations(start: int, end: int)
    requires start != 0 && end != 0 && 0 <= end - start < 3600
    ensures end - start < 60 ==> Elapsed(true, Some(start), Some(end)) == " in " + NatToString(end - start) + "s"
    ensures 60 <= end - start ==>
              Elapsed(true, Some(start), Some(end))
              == " in " + NatToString((end - start) / 60) + "m " + Pad2((end - start) % 60) + "s"
  {
  }

  /** What the job list reads of a job and its build. */
  datatype JobReport = JobReport(
    name: string,
    voting: bool,
    errorDetail: Option<string>,
    startTime: Option<int>,
    endTime: Option<int>,
    result: string,
    url: Option<string>,
    successMessage: Option<string>)

  datatype Fields = Fields(name: string, url: string, result: string, error: string,
                           elapsed: string, voting: string, successMessage: Option<string>)

  /** A build that `child_jobs` told Zuul to skip: its error detail
      contains the notice, scanned from the start. */
  predicate SkippedByChildJobs(j: JobReport) {
    j.errorDetail.Some? && ContainsFrom(j.errorDetail.value, "Skipped due to child_jobs", 0)
  }

  /** The scan is Python's `in` on the error detail. */
  lemma SkippedByChildJobsIsIn(j: JobReport)
    ensures SkippedByChildJobs(j) <==> j.errorDetail.Some? && Contains(j.errorDetail.value, "Skipped due to child_jobs")
  {
    if j.errorDetail.Some? {
      ContainsFromStart(j.errorDetail.value, "Skipped due to child_jobs");
    }
  }

  /** The fields of one reported job: the name with a trailing space, the
      URL falling back to the name, the error detail and the non-voting
      marker each with a leading space when present. */
  function FieldsOf(j: JobReport, reportTimes: bool): (f: Fields)
    ensures f.name == j.name + " "
    ensures f.url == if j.url.Some? && |j.url.value| > 0 then j.url.value else j.name
    ensures f.error == if j.errorDetail.Some? && |j.errorDetail.value| > 0 then " " + j.errorDetail.value else ""
    ensures f.voting == if j.voting then "" else " (non-voting)"
    ensures f.elapsed == Elapsed(reportTimes, j.startTime, j.endTime)
    ensures f.result == j.result && f.successMessage == j.successMessage
  {
    Fields(j.name + " ",
           if j.url.Some? && |j.url.value| > 0 then j.url.value else j.name,
           j.result,
           if j.errorDetail.Some? && |j.errorDetail.value| > 0 then " " + j.errorDetail.value else "",
           Elapsed(reportTimes, j.startTime, j.endTime),
           if j.voting then "" else " (non-voting)",
           j.successMessage)
  }

  /** `_getItemReportJobsFields`: every job is either listed, in order, or
      counted as skipped. */
  /** The job lines of `_formatItemReportJobs` and the number of jobs
      skipped by `child_jobs`. The lines are those of the jobs that were
      not skipped, in the order of the jobs. */
  function JobsFields(jobs: seq<JobReport>, reportTimes: bool): (r: (seq<Fields>, nat))
    ensures r.0 == FieldsAt(jobs, ListedFrom(jobs, 0), reportTimes)
    ensures r.1 == |SkippedFrom(jobs, 0)|
    ensures |r.0| + r.1 == |jobs|
    ensures r.1 == 0 <==> forall i :: 0 <= i < |jobs| ==> !SkippedByChildJobs(jobs[i])
    ensures r.0 == [] <==> forall i :: 0 <= i < |jobs| ==> SkippedByChildJobs(jobs[i])
  {
    TallyLines(jobs, reportTimes, 0);
    TallySkipped(jobs, reportTimes, 0);
    assert jobs[0..] == jobs;
    ListedOrSkipped(jobs, 0);
    NoneSkipped(jobs);
    NoneListed(jobs);
    Tally(jobs, reportTimes)
  }

  lemma NoneSkipped(jobs: seq<JobReport>)
    ensures SkippedFrom(jobs, 0) == {} <==> forall i :: 0 <= i < |jobs| ==> !SkippedByChildJobs(jobs[i])
  {
    forall i | 0 <= i < |jobs| && SkippedByChildJobs(jobs[i])
      ensures i in SkippedFrom(jobs, 0)
    {
    }
  }

  lemma NoneListed(jobs: seq<JobReport>)
    ensures ListedFrom(jobs, 0) == [] <==> forall i :: 0 <= i < |jobs| ==> SkippedByChildJobs(jobs[i])
  {
    var idx := ListedFrom(jobs, 0);
    if |idx| > 0 {
      assert !SkippedByChildJobs(jobs[idx[0]]);
    }
  }

  /** The loop of `_formatItemReportJobs`: skipped jobs are counted, the
      others give a line. */
  function Tally(jobs: seq<JobReport>, reportTimes: bool): (r: (seq<Fields>, nat))
  {
    if |jobs| == 0 then ([], 0)
    else
      var rest := Tally(jobs[1..], reportTimes);
      if SkippedByChildJobs(jobs[0]) then (rest.0, rest.1 + 1)
      else ([FieldsOf(jobs[0], reportTimes)] + rest.0, rest.1)
  }

  /** The indices, from `i` on, of the jobs that are listed (not skipped
      by their child jobs), in increasing order. */
  function ListedFrom(jobs: seq<JobReport>, i: nat): (idx: seq<nat>)
    requires i <= |jobs|
    ensures forall k :: 0 <= k < |idx| ==> i <= idx[k] < |jobs| && !SkippedByChildJobs(jobs[idx[k]])
    ensures forall k, l :: 0 <= k < l < |idx| ==> idx[k] < idx[l]
    ensures forall j :: i <= j < |jobs| && !SkippedByChildJobs(jobs[j]) ==> j in idx
    decreases |jobs| - i
  {
    if i == |jobs| then []
    else if SkippedByChildJobs(jobs[i]) then ListedFrom(jobs, i + 1)
    else [i] + ListedFrom(jobs, i + 1)
  }

  /** The indices, from `i` on, of the jobs skipped by their child jobs. */
  function SkippedFrom(jobs: seq<JobReport>, i: nat): set<nat>
    requires i <= |jobs|
  {
    set j: nat | i <= j < |jobs| && SkippedByChildJobs(jobs[j])
  }

  /** Each job from `i` on is either listed or skipped. */
  lemma {:induction false} ListedOrSkipped(jobs: seq<JobReport>, i: nat)
    requires i <= |jobs|
    ensures |ListedFrom(jobs, i)| + |SkippedFrom(jobs, i)| == |jobs| - i
    decreases |jobs| - i
  {
    if i == |jobs| {
      assert SkippedFrom(jobs, i) == {};
    } else {
      ListedOrSkipped(jobs, i + 1);
      SkippedFromStep(jobs, i);
    }
  }

  /** Counting the skipped jobs from `i` on, one job at a time. */
  lemma SkippedFromStep(jobs: seq<JobReport>, i: nat)
    requires i < |jobs|
    ensures |SkippedFrom(jobs, i)| == |SkippedFrom(jobs, i + 1)| + (if SkippedByChildJobs(jobs[i]) then 1 else 0)
  {
    var later := SkippedFrom(jobs, i + 1);
    assert i !in later;
    if SkippedByChildJobs(jobs[i]) {
      assert SkippedFrom(jobs, i) == later + {i};
    } else {
      assert SkippedFrom(jobs, i) == later;
    }
  }

  /** The job lines of the jobs at the given indices, in that order. */
  function FieldsAt(jobs: seq<JobReport>, idx: seq<nat>, reportTimes: bool): (r: seq<Fields>)
    requires forall k :: 0 <= k < |idx| ==> idx[k] < |jobs|
    ensures |r| == |idx|
    ensures forall k :: 0 <= k < |idx| ==> r[k] == FieldsOf(jobs[idx[k]], reportTimes)
  {
    if |idx| == 0 then [] else [FieldsOf(jobs[idx[0]], reportTimes)] + FieldsAt(jobs, idx[1..], reportTimes)
  }

  /** One step of `Tally` on the suffix from `i`. */
  lemma TallyStep(jobs: seq<JobReport>, reportTimes: bool, i: nat)
    requires i < |jobs|
    ensures var rest := Tally(jobs[i + 1..], reportTimes);
            SkippedByChildJobs(jobs[i]) ==> Tally(jobs[i..], reportTimes) == (rest.0, rest.1 + 1)
    ensures var rest := Tally(jobs[i + 1..], reportTimes);
            !SkippedByChildJobs(jobs[i]) ==> Tally(jobs[i..], reportTimes) == ([FieldsOf(jobs[i], reportTimes)] + rest.0, rest.1)
  {
    var suffix := jobs[i..];
    assert suffix[0] == jobs[i];
    assert suffix[1..] == jobs[i + 1..];
  }

  lemma {:induction false} TallyLines(jobs: seq<JobReport>, reportTimes: bool, i: nat)
    requires i <= |jobs|
    ensures Tally(jobs[i..], reportTimes).0 == FieldsAt(jobs, ListedFrom(jobs, i), reportTimes)
    decreases |jobs| - i
  {
    if i < |jobs| {
      TallyLines(jobs, reportTimes, i + 1);
      TallyStep(jobs, reportTimes, i);
      if !SkippedByChildJobs(jobs[i]) {
        var idx := ListedFrom(jobs, i);
        assert idx[0] == i && idx[1..] == ListedFrom(jobs, i + 1);
      }
    }
  }

  lemma {:induction false} TallySkipped(jobs: seq<JobReport>, reportTimes: bool, i: nat)
    requires i <= |jobs|
    ensures Tally(jobs[i..], reportTimes).1 == |SkippedFrom(jobs, i)|
    decreases |jobs| - i
  {
    if i == |jobs| {
      assert SkippedFrom(jobs, i) == {};
    } else {
      TallySkipped(jobs, reportTimes, i + 1);
      TallyStep(jobs, reportTimes, i);
      SkippedFromStep(jobs, i);
    }
  }

  /** Every job that was not skipped is listed. */
  lemma JobsFieldsComplete(jobs: seq<JobReport>, reportTimes: bool, i: int)
    requires 0 <= i < |jobs| && !SkippedByChildJobs(jobs[i])
    ensures FieldsOf(jobs[i], reportTimes) in JobsFields(jobs, reportTimes).0
  {
    var idx := ListedFrom(jobs, 0);
    var k :| 0 <= k < |idx| && idx[k] == i;
    assert JobsFields(jobs, reportTimes).0[k] == FieldsOf(jobs[i], reportTimes);
  }

  /** Only jobs that were not skipped are listed. */
  lemma JobsFieldsSound(jobs: seq<JobReport>, reportTimes: bool, k: int)
    requires 0 <= k < |JobsFields(jobs, reportTimes).0|
    ensures exists i :: 0 <= i < |jobs| && !SkippedByChildJobs(jobs[i])
                        && JobsFields(jobs, reportTimes).0[k] == FieldsOf(jobs[i], reportTimes)
  {
    var i := ListedFrom(jobs, 0)[k];
    assert JobsFields(jobs, reportTimes).0[k] == FieldsOf(jobs[i], reportTimes);
  }

  /** `- name url : result error elapsed voting`, one line per job. */
  function JobLine(f: Fields): string {
    "- " + f.name + f.url + " : " + f.result + f.error + f.elapsed + f.voting + "\n"
  }

  function JobLines(fields: seq<Fields>): string {
    if |fields| == 0 then "" else JobLine(fields[0]) + JobLines(fields[1..])
  }

  /** `Skipped 1 job` or `Skipped N jobs`, or nothing. */
  function SkippedTail(skipped: nat): (r: string)
    ensures skipped == 0 <==> r == ""
    ensures skipped == 1 ==> r == "Skipped 1 job\n"
    ensures skipped > 1 ==> r == "Skipped " + NatToString(skipped) + " jobs\n"
  {
    if skipped == 0 then ""
    else "Skipped " + NatToString(skipped) + " " + (if skipped == 1 then "job" else "jobs") + "\n"
  }

  /** The listed jobs' lines, then the tail. */
  function JobsText(fields: seq<Fields>, skipped: nat): (r: string)
    ensures StartsWith(r, JobLines(fields))
    ensures EndsWith(r, SkippedTail(skipped))
  {
    var r := JobLines(fields) + SkippedTail(skipped);
    assert r[..|JobLines(fields)|] == JobLines(fields);
    assert r[|r| - |SkippedTail(skipped)|..] == SkippedTail(skipped);
    r
  }

  /** `_formatItemReportJobs`. */
  function FormatJobs(jobs: seq<JobReport>, reportTimes: bool): (r: string)
    ensures StartsWith(r, JobLines(JobsFields(jobs, reportTimes).0))
    ensures EndsWith(r, SkippedTail(JobsFields(jobs, reportTimes).1))
  {
    JobsText(JobsFields(jobs, reportTimes).0, JobsFields(jobs, reportTimes).1)
  }

  lemma JobsTextContains(fields: seq<Fields>, skipped: nat, k: int)
    requires 0 <= k < |fields|
    ensures Contains(JobsText(fields, skipped), JobLine(fields[k]))
  {
    JobLinesContain(fields, k);
    ContainsBefore(JobLines(fields), SkippedTail(skipped), JobLine(fields[k]));
  }

  /** Every job that was not skipped has its line in the list. */
  lemma FormatJobsListsEveryJob(jobs: seq<JobReport>, reportTimes: bool, i: int)
    requires 0 <= i < |jobs| && !SkippedByChildJobs(jobs[i])
    ensures Contains(FormatJobs(jobs, reportTimes), JobLine(FieldsOf(jobs[i], reportTimes)))
  {
    var fields := JobsFields(jobs, reportTimes).0;
    JobsFieldsComplete(jobs, reportTimes, i);
    var k :| 0 <= k < |fields| && fields[k] == FieldsOf(jobs[i], reportTimes);
    JobsTextContains(fields, JobsFields(jobs, reportTimes).1, k);
  }

  lemma {:induction false} JobLinesContain(fields: seq<Fields>, k: int)
    requires 0 <= k < |fields|
    ensures Contains(JobLines(fields), JobLine(fields[k]))
  {
    if k == 0 {
      var s := JobLines(fields);
      assert s[0..|JobLine(fields[0])|] == JobLine(fields[0]);
      assert OccursAt(s, JobLine(fields[0]), 0);
    } else {
      JobLinesContain(fields[1..], k - 1);
      ContainsInside(JobLine(fields[0]), JobLines(fields[1..]), "", JobLine(fields[k]));
      assert JobLines(fields) == JobLine(fields[0]) + JobLines(fields[1..]) + "";
    }
  }

  /** A list where every job was skipped by `child_jobs` says only how
      many. */
  lemma AllSkipped(jobs: seq<JobReport>, reportTimes: bool)
    requires |jobs| > 0
    requires forall i :: 0 <= i < |jobs| ==> SkippedByChildJobs(jobs[i])
    ensures FormatJobs(jobs, reportTimes) == SkippedTail(|jobs|)
  {
    var fields := JobsFields(jobs, reportTimes).0;
    assert fields == [];
    assert JobLines(fields) == "";
    assert JobsText(fields, |jobs|) == "" + SkippedTail(|jobs|);
  }
}

=== FILE: scheduler.dfy ===
/** zuul/scheduler.py, the decisions the scheduler makes on plain data:
    the node-hold expiration of an autohold request, whether a pipeline's
    window survives a reconfiguration, which build a result event belongs
    to, the final result of a completed build, the order a promote event
    re-enqueues a queue in, and which item a dequeue event removes.

    Queues, items and builds are reduced to the fields these decisions
    read; the pipeline manager's own work (cancelling, dequeuing,
    re-enqueuing) is not modelled. */
module Scheduler {
  import opened Wrappers
  import opened Strings

  /* ---------------------------------------------------------------------- */
  /* autohold                                                                */
  /* ---------------------------------------------------------------------- */

  /** The node-hold expiration stored with a hold request: the default
      when none is requested; when a maximum is configured (non-zero), an
      unlimited request (0) or one above the maximum gets the maximum;
      otherwise the request as given. */
  function NodeHoldExpiration(requested: Option<int>, defaultExpiration: int, maxExpiration: int): (r: int)
    ensures requested.None? ==> r == defaultExpiration
    ensures requested.Some? && maxExpiration != 0 && (requested.value == 0 || requested.value > maxExpiration)
            ==> r == maxExpiration
    ensures requested.Some? && (maxExpiration == 0 || (requested.value != 0 && requested.value <= maxExpiration))
            ==> r == requested.value
  {
    if requested.None? then defaultExpiration
    else if maxExpiration != 0 && (requested.value == 0 || requested.value > maxExpiration) then maxExpiration
    else requested.value
  }

  /** With a positive maximum, a requested expiration is never unlimited
      and never above the maximum. */
  lemma HoldExpirationBounded(requested: int, defaultExpiration: int, maxExpiration: int)
    requires maxExpiration > 0
    ensures var r := NodeHoldExpiration(Some(requested), defaultExpiration, maxExpiration);
            r != 0 && r <= maxExpiration
  {
  }

  /* ---------------------------------------------------------------------- */
  /* Windows on reconfiguration                                              */
  /* ---------------------------------------------------------------------- */

  datatype WindowConfig = WindowConfig(
    window: int, floor: int, increaseType: string, increaseFactor: int, decreaseType: string, decreaseFactor: int)

  /** The static-window convention: a non-zero window that both grows and
      shrinks exponentially by a factor of 1 never changes. */
  predicate StaticWindow(w: WindowConfig) {
    w.window != 0 && w.increaseType == "exponential" && w.decreaseType == "exponential"
    && w.increaseFactor == 1 && w.decreaseFactor == 1
  }

  /** The window a pipeline or shared queue gets after a reconfiguration:
      a non-zero old window carries over, raised to the new floor, unless
      the new configuration is static. */
  function CarriedWindow(oldWindow: int, newConfig: WindowConfig, newWindow: int, newFloor: int): (r: int)
    ensures StaticWindow(newConfig) || oldWindow == 0 ==> r == newWindow
    ensures !StaticWindow(newConfig) && oldWindow != 0 ==> r >= oldWindow && r >= newFloor
    ensures !StaticWindow(newConfig) && oldWindow != 0 ==> r == oldWindow || r == newFloor
  {
    if oldWindow != 0 && !StaticWindow(newConfig) then
      if oldWindow >= newFloor then oldWindow else newFloor
    else newWindow
  }

  /** A static window keeps its configured size however large the old
      window was. */
  lemma StaticWindowKept(oldWindow: int, w: WindowConfig)
    requires StaticWindow(w)
    ensures CarriedWindow(oldWindow, w, w.window, w.floor) == w.window
  {
  }

  /* ---------------------------------------------------------------------- */
  /* Stale result events                                                     */
  /* ---------------------------------------------------------------------- */

  /** The current build set of a queue item: its UUID and the UUID of the
      build of each job. */
  datatype BuildSetView = BuildSetView(uuid: string, builds: map<string, string>)

  /** What a result event names. */
  datatype ResultEvent = ResultEvent(buildSetUuid: string, jobName: string, buildUuid: string)

  /** `_getBuildSetFromPipeline`: the first item whose current build set
      has the event's UUID; none when there is no pipeline. */
  function FindBuildSet(items: Option<seq<BuildSetView>>, uuid: string): (r: Option<nat>)
    ensures r.Some? ==> items.Some? && r.value < |items.value| && items.value[r.value].uuid == uuid
    ensures r.Some? ==> forall j :: 0 <= j < r.value ==> items.value[j].uuid != uuid
    ensures r.None? <==> items.None? || forall j :: 0 <= j < |items.value| ==> items.value[j].uuid != uuid
  {
    if items.None? then None else FirstWithUuid(items.value, uuid, 0)
  }

  function FirstWithUuid(items: seq<BuildSetView>, uuid: string, from: nat): (r: Option<nat>)
    requires from <= |items|
    ensures r.Some? ==> from <= r.value < |items| && items[r.value].uuid == uuid
    ensures r.Some? ==> forall j :: from <= j < r.value ==> items[j].uuid != uuid
    ensures r.None? <==> forall j :: from <= j < |items| ==> items[j].uuid != uuid
    decreases |items| - from
  {
    if from == |items| then None
    else if items[from].uuid == uuid then Some(from)
    else FirstWithUuid(items, uuid, from + 1)
  }

  /** `_getBuildFromPipeline`: the build of the event's job in that build
      set, provided its UUID is the event's; otherwise the event is stale. */
  function FindBuild(items: Option<seq<BuildSetView>>, ev: ResultEvent): (r: Option<(nat, string)>)
    ensures r.Some? ==> FindBuildSet(items, ev.buildSetUuid) == Some(r.value.0)
    ensures r.Some? ==> r.value.1 == ev.buildUuid
    ensures r.Some? ==> var bs := items.value[r.value.0];
                        ev.jobName in bs.builds && bs.builds[ev.jobName] == ev.buildUuid
  {
    match FindBuildSet(items, ev.buildSetUuid)
    case None => None
    case Some(i) =>
      var bs := items.value[i];
      if ev.jobName !in bs.builds then None
      else if bs.builds[ev.jobName] != ev.buildUuid then None
      else Some((i, ev.buildUuid))
  }

  /** A result is discarded exactly when no item's current build set has
      the event's UUID, or the first such build set has no build of the
      job, or that build has another UUID (a retry replaced it). */
  lemma StaleResultDiscarded(items: seq<BuildSetView>, ev: ResultEvent)
    ensures FindBuild(Some(items), ev).None? <==>
              (forall j :: 0 <= j < |items| ==> items[j].uuid != ev.buildSetUuid) ||
              (var i := FindBuildSet(Some(items), ev.buildSetUuid).value;
               ev.jobName !in items[i].builds || items[i].builds[ev.jobName] != ev.buildUuid)
  {
  }

  /* ---------------------------------------------------------------------- */
  /* _doBuildCompletedEvent                                                  */
  /* ---------------------------------------------------------------------- */

  /** The state of a build the completion reads: whether it is already
      marked for retry, whether it was canceled, the result it holds, and
      how many times its job has been tried against how many attempts. */
  datatype BuildState = BuildState(retry: bool, canceled: bool, result: Option<string>, tries: int, attempts: int)

  /** The final result and retry flag. */
  datatype Completion = Completion(result: Option<string>, retry: bool)

  /** Python's truth value of an optional result string. */
  predicate Set(s: Option<string>) {
    s.Some? && s.value != ""
  }

  /** The result classification: a missing result or an executor that went
      away is retried, a merger failure is retried while attempts remain,
      and a retry reports `RETRY`; a canceled build is never retried and
      keeps the result it had, or `CANCELED`. */
  function CompleteBuild(b: BuildState, result: Option<string>): (c: Completion)
    ensures b.canceled ==> !c.retry
    ensures b.canceled ==> c.result == (if Set(b.result) then b.result else Some("CANCELED"))
    ensures !b.canceled ==> (c.retry <==>
              b.retry || result.None? || result == Some("ABORTED")
              || (result == Some("MERGER_FAILURE") && b.tries < b.attempts))
    ensures !b.canceled && c.retry ==> c.result == Some("RETRY")
    ensures !b.canceled && !c.retry ==> c.result == result
  {
    var retry := b.retry || result.None? || result == Some("ABORTED")
                 || (result == Some("MERGER_FAILURE") && b.tries < b.attempts);
    var r := if retry then Some("RETRY") else result;
    if b.canceled then Completion(if Set(b.result) then b.result else Some("CANCELED"), false)
    else Completion(r, retry)
  }

  /** A merger failure after the last attempt is reported as such rather
      than as a retry-limit, and a success is passed through. */
  lemma MergerFailureAfterLastAttempt(b: BuildState)
    requires !b.canceled && !b.retry && b.tries >= b.attempts
    ensures CompleteBuild(b, Some("MERGER_FAILURE")) == Completion(Some("MERGER_FAILURE"), false)
    ensures CompleteBuild(b, Some("SUCCESS")) == Completion(Some("SUCCESS"), false)
  {
  }

  /** The result stored on a build a completion event finds: a stale event
      (its build is not current) records the executor's result as is. */
  function CompletedResult(current: bool, b: BuildState, result: Option<string>): (r: Option<string>)
    ensures !current ==> r == result
    ensures current ==> r == CompleteBuild(b, result).result
  {
    if current then CompleteBuild(b, result).result else result
  }

  /* ---------------------------------------------------------------------- */
  /* _doPromoteEvent                                                         */
  /* ---------------------------------------------------------------------- */

  /** A queue item: an identity (items are distinct objects) and the change
      number and patchset it is for. */
  datatype Item = Item(id: nat, number: string, patchset: string)

  /** A change named by a promote event, `number,patchset`. */
  datatype ChangeId = ChangeId(number: string, patchset: string)

  predicate IsFor(item: Item, c: ChangeId) {
    item.number == c.number && item.patchset == c.patchset
  }

  /** The first item of a queue that is for the change. */
  function FindItem(queue: seq<Item>, c: ChangeId): (r: Option<Item>)
    ensures r.Some? ==> r.value in queue && IsFor(r.value, c)
    ensures r.None? <==> forall i :: 0 <= i < |queue| ==> !IsFor(queue[i], c)
    ensures r.Some? ==> exists i :: 0 <= i < |queue| && queue[i] == r.value && forall j :: 0 <= j < i ==> !IsFor(queue[j], c)
  {
    if |queue| == 0 then None
    else if IsFor(queue[0], c) then Some(queue[0])
    else
      var r := FindItem(queue[1..], c);
      if r.Some? then
        var i :| 0 <= i < |queue[1..]| && queue[1..][i] == r.value && forall j :: 0 <= j < i ==> !IsFor(queue[1..][j], c);
        assert queue[i + 1] == r.value;
        assert forall j :: 1 <= j < i + 1 ==> queue[j] == queue[1..][j - 1];
        r
      else r
  }

  /** The first queue holding an item for the change. */
  function FindQueue(queues: seq<seq<Item>>, c: ChangeId): (r: Option<nat>)
    ensures r.Some? ==> r.value < |queues| && FindItem(queues[r.value], c).Some?
    ensures r.Some? ==> forall q :: 0 <= q < r.value ==> FindItem(queues[q], c).None?
    ensures r.None? <==> forall q :: 0 <= q < |queues| ==> FindItem(queues[q], c).None?
  {
    if |queues| == 0 then None
    else if FindItem(queues[0], c).Some? then Some(0)
    else
      var r := FindQueue(queues[1..], c);
      if r.None? then None else Some(r.value + 1)
  }

  /** The items requested, one per change in request order. */
  function Requested(queue: seq<Item>, ids: seq<ChangeId>): (r: Result<seq<Item>, string>)
    ensures r.Success? <==> forall k :: 0 <= k < |ids| ==> FindItem(queue, ids[k]).Some?
    ensures r.Success? ==> |r.value| == |ids|
    ensures r.Success? ==> forall k :: 0 <= k < |ids| ==> r.value[k] == FindItem(queue, ids[k]).value
  {
    if |ids| == 0 then Success([])
    else match FindItem(queue, ids[0])
      case None => Failure("Unable to find " + ids[0].number + "," + ids[0].patchset + " in queue")
      case Some(item) =>
        var rest := Requested(queue, ids[1..]);
        if rest.Failure? then rest
        else Success([item] + rest.value)
  }

  /** `queue` without the items in `taken`, in queue order. */
  function Others(queue: seq<Item>, taken: seq<Item>): (r: seq<Item>)
    ensures forall x :: x in r <==> x in queue && x !in taken
  {
    if |queue| == 0 then []
    else
      var rest := Others(queue[1..], taken);
      assert forall x :: x in queue <==> x == queue[0] || x in queue[1..];
      if queue[0] in taken then rest else [queue[0]] + rest
  }

  /** `_doPromoteEvent`: the queue holding the first named change, and its
      new order — the named changes in the order named, then every other
      item in its old order. */
  function Promote(queues: seq<seq<Item>>, ids: seq<ChangeId>): (r: Result<(nat, seq<Item>), string>)
    ensures |ids| == 0 ==> r.Failure?
    ensures |ids| > 0 && FindQueue(queues, ids[0]).None? ==> r.Failure?
    ensures r.Success? ==> |ids| > 0 && Some(r.value.0) == FindQueue(queues, ids[0])
    ensures r.Success? ==> var queue := queues[r.value.0];
              (forall k :: 0 <= k < |ids| ==> FindItem(queue, ids[k]).Some?) &&
              r.value.1 == Requested(queue, ids).value + Others(queue, Requested(queue, ids).value)
    ensures |ids| > 0 && FindQueue(queues, ids[0]).Some? ==>
              (r.Success? <==> forall k :: 0 <= k < |ids| ==> FindItem(queues[FindQueue(queues, ids[0]).value], ids[k]).Some?)
  {
    if |ids| == 0 then Failure("No change to promote")
    else match FindQueue(queues, ids[0])
      case None => Failure("Unable to find shared change queue for " + ids[0].number + "," + ids[0].patchset)
      case Some(q) =>
        var first :- Requested(queues[q], ids);
        Success((q, first + Others(queues[q], first)))
  }

  /** One `number,patchset` id of the event, split at its commas. Any
      other number of pieces than two is an error: unpacking them into
      `number, patchset` (or indexing a lone piece) raises. */
  function ParseChangeId(c: string): (r: Result<ChangeId, string>)
    ensures r.Success? <==> multiset(c)[','] == 1
    ensures r.Success? ==> ',' !in r.value.number && ',' !in r.value.patchset
    ensures r.Success? ==> r.value.number + "," + r.value.patchset == c
  {
    var parts := Split(c, ',');
    SplitCount(c, ',');
    if |parts| != 2 then Failure("Malformed change id " + c)
    else
      SplitJoin(c, ',');
      assert Join(parts, ",") == parts[0] + "," + parts[1];
      Success(ChangeId(parts[0], parts[1]))
  }

  /** Printing an id without commas and parsing it back gives the id. */
  lemma ChangeIdRoundTrip(c: ChangeId)
    requires ',' !in c.number && ',' !in c.patchset
    ensures ParseChangeId(c.number + "," + c.patchset) == Success(c)
  {
    SplitAfterPiece(c.number, ',', c.patchset);
    assert Split(c.patchset, ',') == [c.patchset] by {
      SplitJoin(c.patchset, ',');
    }
    assert c.number + "," + c.patchset == c.number + [','] + c.patchset;
  }

  /** `[c.split(',') for c in event.change_ids]`, every id well formed. */
  function ParseChangeIds(raw: seq<string>): (r: Result<seq<ChangeId>, string>)
    ensures r.Success? <==> forall k :: 0 <= k < |raw| ==> ParseChangeId(raw[k]).Success?
    ensures r.Success? ==> |r.value| == |raw|
    ensures r.Success? ==> forall k :: 0 <= k < |raw| ==> r.value[k] == ParseChangeId(raw[k]).value
  {
    if |raw| == 0 then Success([])
    else
      var first := ParseChangeId(raw[0]);
      var rest := ParseChangeIds(raw[1..]);
      assert forall k :: 1 <= k < |raw| ==> raw[k] == raw[1..][k - 1];
      if first.Failure? then Failure(first.error)
      else if rest.Failure? then Failure(rest.error)
      else Success([first.value] + rest.value)
  }

  /** `_doPromoteEvent` on the event's ids as given: a malformed id fails
      the event, otherwise the parsed ids are promoted. */
  function PromoteEvent(queues: seq<seq<Item>>, raw: seq<string>): (r: Result<(nat, seq<Item>), string>)
    ensures (exists k :: 0 <= k < |raw| && multiset(raw[k])[','] != 1) ==> r.Failure?
    ensures (forall k :: 0 <= k < |raw| ==> multiset(raw[k])[','] == 1) ==>
              r == Promote(queues, ParseChangeIds(raw).value)
  {
    var ids :- ParseChangeIds(raw);
    Promote(queues, ids)
  }

  /** An event naming well-formed ids promotes exactly those changes. */
  lemma PromoteEventOfPrinted(queues: seq<seq<Item>>, ids: seq<ChangeId>)
    requires forall k :: 0 <= k < |ids| ==> ',' !in ids[k].number && ',' !in ids[k].patchset
    ensures PromoteEvent(queues, seq(|ids|, k requires 0 <= k < |ids| => ids[k].number + "," + ids[k].patchset))
            == Promote(queues, ids)
  {
    var raw := seq(|ids|, k requires 0 <= k < |ids| => ids[k].number + "," + ids[k].patchset);
    forall k | 0 <= k < |ids|
      ensures ParseChangeId(raw[k]) == Success(ids[k])
    {
      ChangeIdRoundTrip(ids[k]);
    }
    assert ParseChangeIds(raw).value == ids;
  }

  predicate DistinctItems(xs: seq<Item>) {
    forall i, j :: 0 <= i < j < |xs| ==> xs[i] != xs[j]
  }

  predicate DistinctIds(ids: seq<ChangeId>) {
    forall i, j :: 0 <= i < j < |ids| ==> ids[i] != ids[j]
  }

  /** With distinct items, each change named once, the promoted order is a
      permutation of the queue. */
  lemma PromoteIsPermutation(queues: seq<seq<Item>>, ids: seq<ChangeId>)
    requires Promote(queues, ids).Success?
    requires DistinctIds(ids)
    requires DistinctItems(queues[Promote(queues, ids).value.0])
    ensures multiset(Promote(queues, ids).value.1) == multiset(queues[Promote(queues, ids).value.0])
  {
    var q := queues[Promote(queues, ids).value.0];
    var first := Requested(q, ids).value;
    forall i, j | 0 <= i < j < |first|
      ensures first[i] != first[j]
    {
      assert IsFor(first[i], ids[i]) && IsFor(first[j], ids[j]);
    }
    var rest := Others(q, first);
    OthersDistinct(q, first);
    DistinctCount(first);
    DistinctCount(rest);
    DistinctCount(q);
    assert forall z :: multiset(first + rest)[z] == multiset(first)[z] + multiset(rest)[z];
    assert forall z :: multiset(first + rest)[z] == multiset(q)[z];
  }

  /** An item of a duplicate-free list occurs in it once. */
  lemma {:induction false} DistinctCount(xs: seq<Item>)
    requires DistinctItems(xs)
    ensures forall z :: multiset(xs)[z] == if z in xs then 1 else 0
  {
    if |xs| > 0 {
      assert xs == [xs[0]] + xs[1..];
      assert DistinctItems(xs[1..]);
      DistinctCount(xs[1..]);
      assert xs[0] !in xs[1..];
    }
  }

  lemma {:induction false} OthersDistinct(q: seq<Item>, taken: seq<Item>)
    requires DistinctItems(q)
    ensures DistinctItems(Others(q, taken))
  {
    if |q| > 0 {
      assert DistinctItems(q[1..]);
      OthersDistinct(q[1..], taken);
      assert q[0] !in q[1..];
    }
  }

  /* ---------------------------------------------------------------------- */
  /* _doDequeueEvent                                                         */
  /* ---------------------------------------------------------------------- */

  /** What the dequeue search compares: the project, whether the item is a
      change (rather than a ref), its number, patchset and ref. */
  datatype QueuedChange = QueuedChange(project: string, isChange: bool, number: string, patchset: string, ref: string)

  /** An item is the one to dequeue when it is for the same project and is
      the same change (number and patchset) or has the same ref. */
  predicate DequeueMatch(item: QueuedChange, change: QueuedChange) {
    item.project == change.project &&
    ((item.isChange && item.number == change.number && item.patchset == change.patchset) || item.ref == change.ref)
  }

  /** The position, in queue order, of the first item in the first queue
      holding a match. */
  function FindDequeue(queues: seq<seq<QueuedChange>>, change: QueuedChange): (r: Option<(nat, nat)>)
    ensures r.Some? ==> r.value.0 < |queues| && r.value.1 < |queues[r.value.0]| &&
                        DequeueMatch(queues[r.value.0][r.value.1], change)
    ensures r.Some? ==> forall j :: 0 <= j < r.value.1 ==> !DequeueMatch(queues[r.value.0][j], change)
    ensures r.Some? ==> forall q, j :: 0 <= q < r.value.0 && 0 <= j < |queues[q]| ==> !DequeueMatch(queues[q][j], change)
    ensures r.None? <==> forall q, j :: 0 <= q < |queues| && 0 <= j < |queues[q]| ==> !DequeueMatch(queues[q][j], change)
  {
    if |queues| == 0 then None
    else match FirstMatch(queues[0], change, 0)
      case Some(j) => Some((0, j))
      case None =>
        var r := FindDequeue(queues[1..], change);
        assert forall q :: 1 <= q < |queues| ==> queues[q] == queues[1..][q - 1];
        if r.None? then None else Some((r.value.0 + 1, r.value.1))
  }

  function FirstMatch(queue: seq<QueuedChange>, change: QueuedChange, from: nat): (r: Option<nat>)
    requires from <= |queue|
    ensures r.Some? ==> from <= r.value < |queue| && DequeueMatch(queue[r.value], change)
    ensures r.Some? ==> forall j :: from <= j < r.value ==> !DequeueMatch(queue[j], change)
    ensures r.None? <==> forall j :: from <= j < |queue| ==> !DequeueMatch(queue[j], change)
    decreases |queue| - from
  {
    if from == |queue| then None
    else if DequeueMatch(queue[from], change) then Some(from)
    else FirstMatch(queue, change, from + 1)
  }

  datatype DequeueError =
    | UnknownTenant
    | UnknownPipeline
    | UnknownProject
    | WrongProject
    | NotQueued

  /** `_doDequeueEvent`: the tenant, pipeline and project must exist, the
      change must belong to the named project, and some item must match.
      `queues` is `None` when the pipeline is unknown; `project` is the
      lookup's result. */
  function DoDequeue(tenantKnown: bool, queues: Option<seq<seq<QueuedChange>>>, project: Option<string>,
                     change: QueuedChange): (r: Result<(nat, nat), DequeueError>)
    ensures !tenantKnown ==> r == Failure(UnknownTenant)
    ensures tenantKnown && queues.None? ==> r == Failure(UnknownPipeline)
    ensures tenantKnown && queues.Some? && project.None? ==> r == Failure(UnknownProject)
    ensures tenantKnown && queues.Some? && project.Some? && change.project != project.value ==>
              r == Failure(WrongProject)
    ensures r.Success? ==> queues.Some? && FindDequeue(queues.value, change) == Some(r.value)
    ensures tenantKnown && queues.Some? && project == Some(change.project) ==>
              (r.Failure? <==> FindDequeue(queues.value, change).None?)
  {
    if !tenantKnown then Failure(UnknownTenant)
    else if queues.None? then Failure(UnknownPipeline)
    else if project.None? then Failure(UnknownProject)
    else if change.project != project.value then Failure(WrongProject)
    else match FindDequeue(queues.value, change)
      case None => Failure(NotQueued)
      case Some(pos) => Success(pos)
  }
}

=== FILE: strings.dfy ===
/** Text helpers the Python code gets from its runtime: code-point ordering
    of `str` (what `sorted` uses), a stable sort by key, prefix and suffix
    tests, ASCII lower-casing and the decimal rendering of `%d`/`%02d`. */
module Strings {

  /* ---------------------------------------------------------------------- */
  /* Ordering                                                                */
  /* ---------------------------------------------------------------------- */

  /** Python's `a <= b` on str: lexicographic by code point, a proper prefix
      sorting first. */
  predicate LessEq(a: string, b: string)
    decreases |a|
  {
    if |a| == 0 then true
    else if |b| == 0 then false
    else if a[0] < b[0] then true
    else if a[0] > b[0] then false
    else LessEq(a[1..], b[1..])
  }

  lemma {:induction false} LessEqTotal(a: string, b: string)
    ensures LessEq(a, b) || LessEq(b, a)
    decreases |a|
  {
    if |a| != 0 && |b| != 0 && a[0] == b[0] {
      LessEqTotal(a[1..], b[1..]);
    }
  }

  lemma {:induction false} LessEqAntisymmetric(a: string, b: string)
    requires LessEq(a, b) && LessEq(b, a)
    ensures a == b
    decreases |a|
  {
    if |a| != 0 {
      LessEqAntisymmetric(a[1..], b[1..]);
      assert a == [a[0]] + a[1..];
      assert b == [b[0]] + b[1..];
    }
  }

  lemma {:induction false} LessEqTransitive(a: string, b: string, c: string)
    requires LessEq(a, b) && LessEq(b, c)
    ensures LessEq(a, c)
    decreases |a|
  {
    if |a| != 0 && a[0] == b[0] && b[0] == c[0] {
      LessEqTransitive(a[1..], b[1..], c[1..]);
    }
  }

  /** `xs` is ordered by `key` (non-decreasing). */
  ghost predicate SortedBy<T>(xs: seq<T>, key: T -> string) {
    forall i, j :: 0 <= i < j < |xs| ==> LessEq(key(xs[i]), key(xs[j]))
  }

  /** Inserts `x` after every element whose key is not greater than its own,
      so equal keys keep their arrival order. */
  function InsertBy<T>(x: T, xs: seq<T>, key: T -> string): (r: seq<T>)
    requires SortedBy(xs, key)
    ensures multiset(r) == multiset(xs) + multiset{x}
    ensures SortedBy(r, key)
    ensures |r| == |xs| + 1
    decreases |xs|
  {
    if |xs| == 0 then [x]
    else if LessEq(key(xs[0]), key(x)) then
      var tail := InsertBy(x, xs[1..], key);
      InsertByHeadBound(x, xs, key, tail);
      assert xs == [xs[0]] + xs[1..];
      [xs[0]] + tail
    else
      LessEqTotal(key(xs[0]), key(x));
      InsertByFrontBound(x, xs, key);
      [x] + xs
  }

  lemma InsertByHeadBound<T>(x: T, xs: seq<T>, key: T -> string, tail: seq<T>)
    requires |xs| > 0 && SortedBy(xs, key) && LessEq(key(xs[0]), key(x))
    requires SortedBy(tail, key)
    requires multiset(tail) == multiset(xs[1..]) + multiset{x}
    ensures SortedBy([xs[0]] + tail, key)
  {
    forall j | 0 <= j < |tail|
      ensures LessEq(key(xs[0]), key(tail[j]))
    {
      assert tail[j] in multiset(tail);
      if tail[j] in multiset(xs[1..]) {
        var k :| 0 <= k < |xs[1..]| && xs[1..][k] == tail[j];
        assert xs[k + 1] == tail[j];
      }
    }
  }

  lemma InsertByFrontBound<T>(x: T, xs: seq<T>, key: T -> string)
    requires |xs| > 0 && SortedBy(xs, key) && LessEq(key(x), key(xs[0]))
    ensures SortedBy([x] + xs, key)
  {
    forall j | 0 <= j < |xs|
      ensures LessEq(key(x), key(xs[j]))
    {
      if j > 0 {
        LessEqTransitive(key(x), key(xs[0]), key(xs[j]));
      }
    }
  }

  /** Python's stable `sorted(xs, key=key)`. */
  function SortBy<T>(xs: seq<T>, key: T -> string): (r: seq<T>)
    ensures multiset(r) == multiset(xs)
    ensures SortedBy(r, key)
    ensures |r| == |xs|
    decreases |xs|
  {
    if |xs| == 0 then []
    else
      assert xs == xs[..|xs| - 1] + [xs[|xs| - 1]];
      InsertBy(xs[|xs| - 1], SortBy(xs[..|xs| - 1], key), key)
  }

  function Identity(s: string): string { s }

  /** Python's `sorted(xs)` on a list of str. */
  function Sort(xs: seq<string>): (r: seq<string>)
    ensures multiset(r) == multiset(xs)
    ensures SortedBy(r, Identity)
  {
    SortBy(xs, Identity)
  }

  /* ---------------------------------------------------------------------- */
  /* Prefixes, suffixes, substrings                                          */
  /* ---------------------------------------------------------------------- */

  predicate StartsWith(s: string, prefix: string) {
    |prefix| <= |s| && s[..|prefix|] == prefix
  }

  predicate EndsWith(s: string, suffix: string) {
    |suffix| <= |s| && s[|s| - |suffix|..] == suffix
  }

  /** Python's `needle in haystack` on two str values. */
  predicate Contains(haystack: string, needle: string) {
    exists i | 0 <= i <= |haystack| - |needle| :: OccursAt(haystack, needle, i)
  }

  predicate OccursAt(haystack: string, needle: string, i: int) {
    0 <= i <= |haystack| - |needle| && haystack[i..i + |needle|] == needle
  }

  /** `needle` occurs in `haystack` at index `i` or later, tried one index
      at a time (the way `in` scans). */
  predicate ContainsFrom(haystack: string, needle: string, i: nat)
    decreases |haystack| + 1 - i
  {
    i + |needle| <= |haystack| && (OccursAt(haystack, needle, i) || ContainsFrom(haystack, needle, i + 1))
  }

  lemma {:induction false} ContainsFromAny(haystack: string, needle: string, i: nat)
    ensures ContainsFrom(haystack, needle, i) <==>
            exists k | i <= k <= |haystack| - |needle| :: OccursAt(haystack, needle, k)
    decreases |haystack| + 1 - i
  {
    if i + |needle| <= |haystack| {
      ContainsFromAny(haystack, needle, i + 1);
      if exists k | i <= k <= |haystack| - |needle| :: OccursAt(haystack, needle, k) {
        var k :| i <= k <= |haystack| - |needle| && OccursAt(haystack, needle, k);
        assert k == i || i + 1 <= k;
      }
    }
  }

  /** Scanning from the start finds exactly what `Contains` finds. */
  lemma ContainsFromStart(haystack: string, needle: string)
    ensures ContainsFrom(haystack, needle, 0) <==> Contains(haystack, needle)
  {
    ContainsFromAny(haystack, needle, 0);
  }

  /** The text before the first occurrence of `sep`: `s.split(sep)[0]`. */
  function BeforeFirst(s: string, sep: char): (r: string)
    ensures StartsWith(s, r)
    ensures sep !in r
    ensures |r| < |s| ==> s[|r|] == sep
  {
    if |s| == 0 then ""
    else if s[0] == sep then ""
    else [s[0]] + BeforeFirst(s[1..], sep)
  }

  /** The elements of `xs` joined with `sep` between them (`sep.join(xs)`). */
  function Join(xs: seq<string>, sep: string): string {
    if |xs| == 0 then ""
    else if |xs| == 1 then xs[0]
    else xs[0] + sep + Join(xs[1..], sep)
  }

  /** `s.split(sep)` for a one-character separator: the pieces between the
      separators, one more than there are separators. */
  function Split(s: string, sep: char): (r: seq<string>)
    ensures |r| > 0
    ensures forall k :: 0 <= k < |r| ==> sep !in r[k]
  {
    if |s| == 0 then [""]
    else
      var rest := Split(s[1..], sep);
      if s[0] == sep then [""] + rest
      else [[s[0]] + rest[0]] + rest[1..]
  }

  /** There is one piece more than there are separators. */
  lemma {:induction false} SplitCount(s: string, sep: char)
    ensures |Split(s, sep)| == multiset(s)[sep] + 1
  {
    if |s| > 0 {
      SplitCount(s[1..], sep);
      assert s == [s[0]] + s[1..];
    }
  }

  /** Joining the pieces with the separator gives back the text. */
  lemma {:induction false} SplitJoin(s: string, sep: char)
    ensures Join(Split(s, sep), [sep]) == s
  {
    if |s| > 0 {
      SplitJoin(s[1..], sep);
      if s[0] == sep {
        SplitJoinAtSep(s, sep);
      } else {
        SplitJoinInPiece(s, sep);
      }
    }
  }

  lemma SplitJoinAtSep(s: string, sep: char)
    requires |s| > 0 && s[0] == sep
    requires Join(Split(s[1..], sep), [sep]) == s[1..]
    ensures Join(Split(s, sep), [sep]) == s
  {
    var rest := Split(s[1..], sep);
    assert Split(s, sep) == [""] + rest;
    JoinCons("", rest, [sep]);
    assert s == [sep] + s[1..];
  }

  lemma SplitJoinInPiece(s: string, sep: char)
    requires |s| > 0 && s[0] != sep
    requires Join(Split(s[1..], sep), [sep]) == s[1..]
    ensures Join(Split(s, sep), [sep]) == s
  {
    var rest := Split(s[1..], sep);
    assert Split(s, sep) == [[s[0]] + rest[0]] + rest[1..];
    JoinFrontPiece(s[0], rest, [sep]);
    assert s == [s[0]] + s[1..];
  }

  /** A character added to the front of the first piece ends up in front
      of the joined text. */
  lemma JoinFrontPiece(c: char, xs: seq<string>, sep: string)
    requires |xs| > 0
    ensures Join([[c] + xs[0]] + xs[1..], sep) == [c] + Join(xs, sep)
  {
    if |xs| > 1 {
      var tail := Join(xs[1..], sep);
      JoinCons([c] + xs[0], xs[1..], sep);
      assert xs == [xs[0]] + xs[1..];
      JoinCons(xs[0], xs[1..], sep);
      assert ([c] + xs[0]) + sep + tail == [c] + (xs[0] + sep + tail);
    }
  }

  lemma JoinCons(x: string, xs: seq<string>, sep: string)
    requires |xs| > 0
    ensures Join([x] + xs, sep) == x + sep + Join(xs, sep)
  {
    assert ([x] + xs)[1..] == xs;
  }

  /** Text before the first separator is the first piece. */
  lemma {:induction false} SplitAfterPiece(a: string, sep: char, t: string)
    requires sep !in a
    ensures Split(a + [sep] + t, sep) == [a] + Split(t, sep)
  {
    var s := a + [sep] + t;
    if |a| == 0 {
      assert s[1..] == t;
    } else {
      assert s[1..] == a[1..] + [sep] + t;
      SplitAfterPiece(a[1..], sep, t);
      assert [a[0]] + a[1..] == a;
    }
  }

  /** ASCII lower-casing; for the words this model compares against
      (`on`, `yes`, `true`) only ASCII letters can lower-case into them. */
  function LowerChar(c: char): char {
    if 'A' <= c <= 'Z' then (c as int - 'A' as int + 'a' as int) as char else c
  }

  function Lower(s: string): (r: string)
    ensures |r| == |s|
    ensures forall i :: 0 <= i < |s| ==> r[i] == LowerChar(s[i])
  {
    if |s| == 0 then "" else [LowerChar(s[0])] + Lower(s[1..])
  }

  /* ---------------------------------------------------------------------- */
  /* Decimal text (`%d`, `%02d`, `str(int)`)                                 */
  /* ---------------------------------------------------------------------- */

  function DigitChar(d: nat): char
    requires d < 10
  {
    ('0' as int + d) as char
  }

  predicate IsDigit(c: char) {
    '0' <= c <= '9'
  }

  function DigitValue(c: char): nat
    requires IsDigit(c)
  {
    c as int - '0' as int
  }

  /** `'%d' % n` for a non-negative `n`. */
  function NatToString(n: nat): (r: string)
    ensures |r| > 0
    ensures forall i :: 0 <= i < |r| ==> IsDigit(r[i])
    ensures n < 10 <==> |r| == 1
  {
    if n < 10 then [DigitChar(n)]
    else
      var prefix := NatToString(n / 10);
      prefix + [DigitChar(n % 10)]
  }

  /** The value of a string of decimal digits (the partner of NatToString). */
  function ParseDigits(s: string): nat
    requires forall i :: 0 <= i < |s| ==> IsDigit(s[i])
  {
    if |s| == 0 then 0
    else ParseDigits(s[..|s| - 1]) * 10 + DigitValue(s[|s| - 1])
  }

  lemma {:induction false} ParseNatToString(n: nat)
    ensures ParseDigits(NatToString(n)) == n
  {
    if n >= 10 {
      ParseNatToString(n / 10);
      var r := NatToString(n);
      assert r[..|r| - 1] == NatToString(n / 10);
    }
  }

  /** Two numbers with the same decimal text are equal. */
  lemma NatToStringInjective(a: nat, b: nat)
    requires NatToString(a) == NatToString(b)
    ensures a == b
  {
    ParseNatToString(a);
    ParseNatToString(b);
  }

  /** `'%d' % i` (and `str(i)`) for any integer. */
  function IntToString(i: int): (r: string)
    ensures i >= 0 ==> r == NatToString(i)
    ensures i < 0 ==> r == "-" + NatToString(-i)
  {
    if i >= 0 then NatToString(i) else "-" + NatToString(-i)
  }

  /** `'%02d' % n` for `0 <= n < 100`. */
  function Pad2(n: nat): (r: string)
    requires n < 100
    ensures |r| == 2
    ensures forall i :: 0 <= i < |r| ==> IsDigit(r[i])
    ensures ParseDigits(r) == n
  {
    if n < 10 then
      ParseNatToString(n);
      ['0'] + NatToString(n)
    else
      ParseNatToString(n);
      ParseNatToString(n / 10);
      NatToString(n)
  }
}

=== FILE: tenant_branches.dfy ===
/** zuul/configloader.py, the branch and file ordering of tenant loading:
    `TenantParser._getProjectBranches` (sorted branches with the default
    branch first, split into statically loaded and always-dynamic ones)
    and, in `_loadDynamicProjectData`, the branches a dynamic
    reconfiguration reads and the order of the configuration files read on
    each of them.

    The branch list and default branch come from the source, and the
    project's `includesBranch` and `isAlwaysDynamicBranch` tests live in
    zuul/model.py; all are parameters here. */
module TenantBranches {
  import opened Strings

  /* ---------------------------------------------------------------------- */
  /* _getProjectBranches                                                     */
  /* ---------------------------------------------------------------------- */

  /** The index of the first occurrence of `x`. */
  function IndexOf(xs: seq<string>, x: string): (i: nat)
    requires x in xs
    ensures i < |xs| && xs[i] == x
    ensures forall j :: 0 <= j < i ==> xs[j] != x
  {
    if xs[0] == x then 0 else 1 + IndexOf(xs[1..], x)
  }

  /** `list.remove(x)`: drop the first occurrence. */
  function RemoveFirst(xs: seq<string>, x: string): (r: seq<string>)
    requires x in xs
    ensures multiset(r) + multiset{x} == multiset(xs)
  {
    var i := IndexOf(xs, x);
    assert xs == xs[..i] + [x] + xs[i + 1..];
    xs[..i] + xs[i + 1..]
  }

  /** Dropping an element keeps a sorted list sorted. */
  lemma RemoveFirstSorted(xs: seq<string>, x: string)
    requires x in xs && SortedBy(xs, Identity)
    ensures SortedBy(RemoveFirst(xs, x), Identity)
  {
    var i := IndexOf(xs, x);
    var r := RemoveFirst(xs, x);
    forall a, b | 0 <= a < b < |r|
      ensures LessEq(r[a], r[b])
    {
      var a' := if a < i then a else a + 1;
      var b' := if b < i then b else b + 1;
      assert r[a] == xs[a'] && r[b] == xs[b'];
    }
  }

  /** The branch order: sorted, then the default branch (when it is one of
      them) moved to the front. */
  function OrderBranches(branches: seq<string>, defaultBranch: string): (r: seq<string>)
    ensures multiset(r) == multiset(branches)
    ensures defaultBranch in branches ==> |r| > 0 && r[0] == defaultBranch && SortedBy(r[1..], Identity)
    ensures defaultBranch !in branches ==> SortedBy(r, Identity)
  {
    var sorted := Sort(branches);
    SameElements(sorted, branches, defaultBranch);
    if defaultBranch in sorted then
      var rest := RemoveFirst(sorted, defaultBranch);
      RemoveFirstSorted(sorted, defaultBranch);
      var r := [defaultBranch] + rest;
      assert r[1..] == rest;
      assert multiset(r) == multiset{defaultBranch} + multiset(rest);
      r
    else
      sorted
  }

  lemma SameElements(a: seq<string>, b: seq<string>, x: string)
    requires multiset(a) == multiset(b)
    ensures x in a <==> x in b
  {
    assert x in a <==> x in multiset(a);
    assert x in b <==> x in multiset(b);
  }

  /** The loop that splits the ordered branches: included branches are
      loaded statically; of the rest, always-dynamic ones are listed as
      dynamic; all others are dropped. */
  function Partition(branches: seq<string>, includes: string -> bool, alwaysDynamic: string -> bool)
    : (r: (seq<string>, seq<string>))
    ensures forall b :: b in r.0 <==> b in branches && includes(b)
    ensures forall b :: b in r.1 <==> b in branches && !includes(b) && alwaysDynamic(b)
    ensures |r.0| + |r.1| <= |branches|
    ensures |branches| > 0 && includes(branches[0]) ==> |r.0| > 0 && r.0[0] == branches[0]
  {
    if |branches| == 0 then ([], [])
    else
      var rest := Partition(branches[1..], includes, alwaysDynamic);
      var b := branches[0];
      assert forall x :: x in branches <==> x == b || x in branches[1..];
      if includes(b) then ([b] + rest.0, rest.1)
      else if alwaysDynamic(b) then (rest.0, [b] + rest.1)
      else rest
  }

  /** `_getProjectBranches`: the project's static and always-dynamic
      branch lists. */
  function ProjectBranches(branches: seq<string>, defaultBranch: string,
                           includes: string -> bool, alwaysDynamic: string -> bool): (r: (seq<string>, seq<string>))
    ensures forall b :: b in r.0 <==> b in branches && includes(b)
    ensures forall b :: b in r.1 <==> b in branches && !includes(b) && alwaysDynamic(b)
    ensures defaultBranch in branches && includes(defaultBranch) ==> |r.0| > 0 && r.0[0] == defaultBranch
  {
    var ordered := OrderBranches(branches, defaultBranch);
    assert forall b :: b in ordered <==> b in multiset(branches);
    Partition(ordered, includes, alwaysDynamic)
  }

  /** No branch is both static and always-dynamic, and every branch the
      project includes is static. */
  lemma BranchListsDisjoint(branches: seq<string>, defaultBranch: string,
                            includes: string -> bool, alwaysDynamic: string -> bool)
    ensures var r := ProjectBranches(branches, defaultBranch, includes, alwaysDynamic);
            (forall b :: b in r.0 ==> b !in r.1) &&
            (forall b :: b in branches && includes(b) ==> b in r.0)
  {
  }

  /* ---------------------------------------------------------------------- */
  /* _loadDynamicProjectData                                                 */
  /* ---------------------------------------------------------------------- */

  /** The branches a dynamic reconfiguration reads: for a trusted project
      only its load branch (`master` when unset or empty); otherwise the
      cached branches followed by the queue's extra branches that are new
      and always-dynamic. */
  function DynamicBranches(trusted: bool, loadBranch: string, cached: seq<string>,
                           additional: seq<string>, alwaysDynamic: string -> bool): (r: seq<string>)
    ensures trusted && loadBranch != "" ==> r == [loadBranch]
    ensures trusted && loadBranch == "" ==> r == ["master"]
    ensures !trusted ==> |r| >= |cached| && r[..|cached|] == cached
    ensures !trusted ==> forall b :: b in r <==> b in cached || (b in additional && alwaysDynamic(b))
  {
    if trusted then [if loadBranch != "" then loadBranch else "master"]
    else cached + NewDynamic(additional, cached, alwaysDynamic)
  }

  function NewDynamic(additional: seq<string>, cached: seq<string>, alwaysDynamic: string -> bool): (r: seq<string>)
    ensures forall b :: b in r <==> b in additional && b !in cached && alwaysDynamic(b)
  {
    if |additional| == 0 then []
    else
      var rest := NewDynamic(additional[1..], cached, alwaysDynamic);
      assert forall x :: x in additional <==> x == additional[0] || x in additional[1..];
      if additional[0] !in cached && alwaysDynamic(additional[0]) then [additional[0]] + rest else rest
  }

  /** The names among `files` with the given prefix, in their order. */
  function WithPrefix(files: seq<string>, prefix: string): (r: seq<string>)
    ensures forall f :: f in r <==> f in files && StartsWith(f, prefix)
  {
    if |files| == 0 then []
    else
      var rest := WithPrefix(files[1..], prefix);
      assert forall x :: x in files <==> x == files[0] || x in files[1..];
      if StartsWith(files[0], prefix) then [files[0]] + rest else rest
  }

  /** One copy of `fn` per extra file equal to it. */
  function FileHits(fn: string, extraFiles: seq<string>): (r: seq<string>)
    ensures forall x :: x in r ==> x == fn
    ensures fn in r <==> fn in extraFiles
  {
    if |extraFiles| == 0 then []
    else
      var rest := FileHits(fn, extraFiles[1..]);
      assert forall x :: x in extraFiles <==> x == extraFiles[0] || x in extraFiles[1..];
      if fn == extraFiles[0] then [fn] + rest else rest
  }

  /** `fn` lies under one of the extra directories. */
  predicate UnderSome(fn: string, extraDirs: seq<string>) {
    exists d :: d in extraDirs && StartsWith(fn, d + "/")
  }

  /** One copy of `fn` per extra directory it lies under. */
  function DirHits(fn: string, extraDirs: seq<string>): (r: seq<string>)
    ensures forall x :: x in r ==> x == fn
    ensures fn in r <==> UnderSome(fn, extraDirs)
  {
    if |extraDirs| == 0 then []
    else
      var rest := DirHits(fn, extraDirs[1..]);
      assert forall x :: x in extraDirs <==> x == extraDirs[0] || x in extraDirs[1..];
      if StartsWith(fn, extraDirs[0] + "/") then [fn] + rest else rest
  }

  function AllFileHits(files: seq<string>, extraFiles: seq<string>): (r: seq<string>)
    ensures forall f :: f in r <==> f in files && f in extraFiles
  {
    if |files| == 0 then []
    else
      var rest := AllFileHits(files[1..], extraFiles);
      assert forall x :: x in files <==> x == files[0] || x in files[1..];
      FileHits(files[0], extraFiles) + rest
  }

  function AllDirHits(files: seq<string>, extraDirs: seq<string>): (r: seq<string>)
    ensures forall f :: f in r <==> f in files && UnderSome(f, extraDirs)
  {
    if |files| == 0 then []
    else
      var rest := AllDirHits(files[1..], extraDirs);
      assert forall x :: x in files <==> x == files[0] || x in files[1..];
      DirHits(files[0], extraDirs) + rest
  }

  /** The names among `files` with the given prefix, sorted. */
  function SortedSection(files: seq<string>, prefix: string): (r: seq<string>)
    ensures SortedBy(r, Identity)
    ensures forall f :: f in r <==> f in files && StartsWith(f, prefix)
  {
    var r := Sort(WithPrefix(files, prefix));
    assert forall f :: f in r <==> f in multiset(WithPrefix(files, prefix));
    r
  }

  /** What follows `.zuul.yaml`. */
  function AfterDotZuulYaml(files: seq<string>, extraFiles: seq<string>, extraDirs: seq<string>): (r: seq<string>)
    ensures forall f :: f in r <==>
              f in files && (StartsWith(f, ".zuul.d/") || f in extraFiles || UnderSome(f, extraDirs))
    ensures var n := |SortedSection(files, ".zuul.d/")|;
            var m := |AllFileHits(files, extraFiles)|;
            && n + m <= |r|
            && r[..n] == SortedSection(files, ".zuul.d/")
            && r[n..n + m] == AllFileHits(files, extraFiles)
            && SortedBy(r[n + m..], Identity)
            && multiset(r[n + m..]) == multiset(AllDirHits(files, extraDirs))
  {
    var dotZuulD := SortedSection(files, ".zuul.d/");
    var fileHits := AllFileHits(files, extraFiles);
    var dirHits := Sort(AllDirHits(files, extraDirs));
    assert forall f :: f in dirHits <==> f in multiset(AllDirHits(files, extraDirs));
    assert forall f :: f in dirHits <==> f in files && UnderSome(f, extraDirs);
    var r := dotZuulD + fileHits + dirHits;
    assert forall f :: f in r <==> f in dotZuulD || f in fileHits || f in dirHits;
    assert r[..|dotZuulD|] == dotZuulD;
    assert r[|dotZuulD|..|dotZuulD| + |fileHits|] == fileHits;
    assert r[|dotZuulD| + |fileHits|..] == dirHits;
    r
  }

  /** A file the branch's configuration is read from. */
  predicate IsConfigFile(f: string, files: seq<string>, extraFiles: seq<string>, extraDirs: seq<string>) {
    f == "zuul.yaml" || f == ".zuul.yaml" ||
    (f in files && (StartsWith(f, "zuul.d/") || StartsWith(f, ".zuul.d/") || f in extraFiles ||
                    UnderSome(f, extraDirs)))
  }

  /** The order files are read on a branch: `zuul.yaml`, the sorted
      `zuul.d/` files, `.zuul.yaml`, the sorted `.zuul.d/` files, the extra
      files in the order the branch lists them, and the sorted files under
      the extra directories. */
  function ConfigFileOrder(files: seq<string>, extraFiles: seq<string>, extraDirs: seq<string>): (r: seq<string>)
    ensures forall f :: f in r <==> IsConfigFile(f, files, extraFiles, extraDirs)
    ensures |r| >= |SortedSection(files, "zuul.d/")| + 2 && r[0] == "zuul.yaml"
    ensures var n := |SortedSection(files, "zuul.d/")|;
            r[n + 1] == ".zuul.yaml" && r[1..n + 1] == SortedSection(files, "zuul.d/")
    ensures var n := |SortedSection(files, "zuul.d/")|;
            r[n + 2..] == AfterDotZuulYaml(files, extraFiles, extraDirs)
  {
    var zuulD := SortedSection(files, "zuul.d/");
    var r := (["zuul.yaml"] + zuulD) + ([".zuul.yaml"] + AfterDotZuulYaml(files, extraFiles, extraDirs));
    assert r[1..|zuulD| + 1] == zuulD;
    assert r[|zuulD| + 2..] == AfterDotZuulYaml(files, extraFiles, extraDirs);
    r
  }

  /** The `zuul.d/` section is sorted and holds exactly the branch's
      `zuul.d/` files. */
  lemma ZuulDSection(files: seq<string>, extraFiles: seq<string>, extraDirs: seq<string>)
    ensures var n := |SortedSection(files, "zuul.d/")|;
            var r := ConfigFileOrder(files, extraFiles, extraDirs);
            SortedBy(r[1..n + 1], Identity) &&
            forall f :: f in r[1..n + 1] <==> f in files && StartsWith(f, "zuul.d/")
  {
  }

  /** A file under two nested extra directories is listed once per
      directory, so it is read twice. */
  lemma NestedExtraDirsRepeatFile()
    ensures AllDirHits(["a/b/c.yaml"], ["a", "a/b"]) == ["a/b/c.yaml", "a/b/c.yaml"]
  {
    assert StartsWith("a/b/c.yaml", "a" + "/");
    assert StartsWith("a/b/c.yaml", "a/b" + "/");
    assert DirHits("a/b/c.yaml", ["a", "a/b"]) == ["a/b/c.yaml", "a/b/c.yaml"];
  }
}

=== FILE: tenant_parser.dfy ===
/** zuul/configloader.py, `TenantParser._getProject` and
    `TenantParser._getProjects`: how a tenant's source entry (a project
    name, a project with overrides, or a group of projects) turns into
    tenant project configurations — the configuration classes each project
    loads, its branch filters and its extra configuration paths.

    Entries are the untyped values the YAML loader produces. Branch
    patterns are kept as the values they are compiled from, and the
    project is its name: the source's project lookup is not part of this
    model. */
module TenantParser {
  import opened Wrappers
  import opened Strings
  import opened Values
  import ConfigLoader

  datatype TenantProjectConfig = TenantProjectConfig(
    project: string,
    loadClasses: set<Value>,
    shadowProjects: seq<Value>,
    excludeUnprotectedBranches: Option<Value>,
    includeBranches: Option<seq<Value>>,
    excludeBranches: Option<seq<Value>>,
    alwaysDynamicBranches: Option<seq<Value>>,
    extraConfigFiles: seq<string>,
    extraConfigDirs: seq<string>,
    loadBranch: Option<Value>,
    impliedBranchMatchers: Option<Value>)

  /** A project named without overrides. */
  function Plain(name: string, classes: set<Value>): TenantProjectConfig {
    TenantProjectConfig(name, classes, [], None, None, None, None, [], [], None, None)
  }

  /* ---------------------------------------------------------------------- */
  /* Pieces                                                                  */
  /* ---------------------------------------------------------------------- */

  /** `conf.get(key)` when it is not None. */
  function Setting(opts: map<string, Value>, key: string): (r: Option<Value>)
    ensures r.Some? <==> key in opts && opts[key] != Null
    ensures r.Some? ==> r.value == opts[key]
  {
    if key in opts && opts[key] != Null then Some(opts[key]) else None
  }

  /** `set(as_list(v))`. */
  function ClassSet(v: Value): (s: set<Value>)
    ensures forall c :: c in s <==> c in ConfigLoader.AsList(v)
  {
    set c | c in ConfigLoader.AsList(v)
  }

  /** The single key of a one-entry mapping. */
  function OnlyKey(m: map<string, Value>): (k: string)
    requires |m| == 1
    ensures k in m
    ensures forall j :: j in m ==> j == k
  {
    var k :| k in m;
    OneKey(m, k);
    k
  }

  lemma OneKey(m: map<string, Value>, k: string)
    requires |m| == 1 && k in m
    ensures forall j :: j in m ==> j == k
  {
    assert |m.Keys - {k}| == 0;
  }

  /** Splitting `extra-config-paths`: a path ending in `/` names a
      directory (kept without the slash), any other path a file. Every path
      must be a string. */
  function SplitExtraPaths(paths: seq<Value>): (r: Result<(seq<string>, seq<string>), string>)
    ensures r.Success? <==> forall i :: 0 <= i < |paths| ==> paths[i].Str?
    ensures r.Success? ==> |r.value.0| + |r.value.1| == |paths|
    ensures r.Success? ==> forall f :: f in r.value.0 <==> Str(f) in paths && !EndsWith(f, "/")
    ensures r.Success? ==> forall d :: d in r.value.1 <==> Str(d + "/") in paths
  {
    if |paths| == 0 then Success(([], []))
    else if !paths[0].Str? then Failure("extra-config-paths entries must be strings")
    else
      var rest := SplitExtraPaths(paths[1..]);
      if rest.Failure? then
        NotAllStrings(paths);
        rest
      else
        var x := paths[0].s;
        if EndsWith(x, "/") then
          var d := x[..|x| - 1];
          SplitDirStep(paths, rest.value.0, rest.value.1, d);
          Success((rest.value.0, [d] + rest.value.1))
        else
          SplitFileStep(paths, rest.value.0, rest.value.1);
          Success(([x] + rest.value.0, rest.value.1))
  }

  lemma NotAllStrings(paths: seq<Value>)
    requires |paths| > 0
    requires !forall i :: 0 <= i < |paths[1..]| ==> paths[1..][i].Str?
    ensures !forall i :: 0 <= i < |paths| ==> paths[i].Str?
  {
    var i :| 0 <= i < |paths[1..]| && !paths[1..][i].Str?;
    assert paths[i + 1] == paths[1..][i];
  }

  /** Extending the split by a leading directory path `d/`. */
  lemma SplitDirStep(paths: seq<Value>, files: seq<string>, dirs: seq<string>, d: string)
    requires |paths| > 0 && paths[0] == Str(d + "/")
    requires forall f :: f in files <==> Str(f) in paths[1..] && !EndsWith(f, "/")
    requires forall e :: e in dirs <==> Str(e + "/") in paths[1..]
    ensures forall f :: f in files <==> Str(f) in paths && !EndsWith(f, "/")
    ensures forall e :: e in [d] + dirs <==> Str(e + "/") in paths
  {
    assert (d + "/")[|d|..] == "/";
    forall v ensures v in paths <==> v == paths[0] || v in paths[1..] {
      assert paths == [paths[0]] + paths[1..];
    }
    forall e | e + "/" == d + "/" ensures e == d {
      assert (e + "/")[..|e|] == e;
      assert (d + "/")[..|d|] == d;
    }
  }

  /** Extending the split by a leading file path. */
  lemma SplitFileStep(paths: seq<Value>, files: seq<string>, dirs: seq<string>)
    requires |paths| > 0 && paths[0].Str? && !EndsWith(paths[0].s, "/")
    requires forall f :: f in files <==> Str(f) in paths[1..] && !EndsWith(f, "/")
    requires forall e :: e in dirs <==> Str(e + "/") in paths[1..]
    ensures forall f :: f in [paths[0].s] + files <==> Str(f) in paths && !EndsWith(f, "/")
    ensures forall e :: e in dirs <==> Str(e + "/") in paths
  {
    forall v ensures v in paths <==> v == paths[0] || v in paths[1..] {
      assert paths == [paths[0]] + paths[1..];
    }
    forall e ensures EndsWith(e + "/", "/") {
      assert (e + "/")[|e|..] == "/";
    }
  }

  /** The always-dynamic loop: each pattern becomes always-dynamic, and is
      also appended to the excluded patterns unless the `exclude-branches`
      list already names it. */
  function AlwaysDynamic(patterns: seq<Value>, excludeList: seq<Value>, excluded: seq<Value>)
    : (r: (seq<Value>, seq<Value>))
    ensures r.1 == patterns
    ensures |r.0| >= |excluded| && r.0[..|excluded|] == excluded
    ensures forall b :: b in r.0 <==> b in excluded || (b in patterns && b !in excludeList)
  {
    if |patterns| == 0 then (excluded, [])
    else
      var b := patterns[0];
      var excluded' := if b in excludeList then excluded else excluded + [b];
      var rest := AlwaysDynamic(patterns[1..], excludeList, excluded');
      assert excluded'[..|excluded|] == excluded;
      assert rest.0[..|excluded|] == rest.0[..|excluded'|][..|excluded|];
      assert forall v :: v in patterns <==> v == b || v in patterns[1..];
      (rest.0, [b] + rest.1)
  }

  /** The `for b in always_dynamic_branches` loop as written: it walks the
      raw setting, so a single string is walked character by character,
      and `b not in exclude_branches` tests the raw setting, which for a
      single string is a substring test. A mapping, which the schema does
      not allow, is left out. */
  function AlwaysDynamicAsWritten(raw: Value, rawExclude: Value, excluded: seq<Value>)
    : (r: (seq<Value>, seq<Value>))
    requires raw.Str? || raw.List?
    ensures raw.List? ==> r.1 == raw.items
    ensures raw.Str? ==> |r.1| == |raw.s| && forall i :: 0 <= i < |raw.s| ==> r.1[i] == Str([raw.s[i]])
  {
    AlwaysDynamicWalk(IterateAsWritten(raw), rawExclude, excluded)
  }

  /** What `for x in v` visits for a string, a list or a mapping: the
      characters, the items, or the keys. */
  function IterateAsWritten(v: Value): (r: seq<Value>)
    requires v.Str? || v.List? || v.Dict?
    ensures v.List? ==> r == v.items
    ensures v.Str? ==> |r| == |v.s| && forall i :: 0 <= i < |v.s| ==> r[i] == Str([v.s[i]])
    ensures v.Dict? ==> |r| == |v.entries| && forall x :: x in r <==> x.Str? && x.s in v.entries
  {
    if v.List? then v.items
    else if v.Dict? then KeysAsWritten(v.entries.Keys)
    else seq(|v.s|, i requires 0 <= i < |v.s| => Str([v.s[i]]))
  }

  /** A mapping's keys as string values, least first. In the source the
      order is the mapping's insertion order, which a map does not record. */
  function KeysAsWritten(keys: set<string>): (r: seq<Value>)
    ensures |r| == |keys|
    ensures forall x :: x in r <==> x.Str? && x.s in keys
    decreases |keys|
  {
    if keys == {} then []
    else
      HasLeast(keys);
      LeastIsUnique(keys);
      var k :| IsLeast(k, keys);
      var rest := KeysAsWritten(keys - {k});
      [Str(k)] + rest
  }

  predicate IsLeast(k: string, keys: set<string>) {
    k in keys && forall j :: j in keys ==> LessEq(k, j)
  }

  lemma {:induction false} HasLeast(keys: set<string>)
    requires keys != {}
    ensures exists k :: IsLeast(k, keys)
    decreases |keys|
  {
    var x :| x in keys;
    if keys - {x} == {} {
      assert keys == {x};
      LessEqTotal(x, x);
      assert IsLeast(x, keys);
    } else {
      HasLeast(keys - {x});
      var m :| IsLeast(m, keys - {x});
      LessEqTotal(m, x);
      if LessEq(m, x) {
        forall j | j in keys ensures LessEq(m, j) {
          if j != x { assert j in keys - {x}; }
        }
        assert IsLeast(m, keys);
      } else {
        forall j | j in keys ensures LessEq(x, j) {
          if j == x {
            LessEqTotal(x, x);
          } else {
            assert j in keys - {x};
            LessEqTransitive(x, m, j);
          }
        }
        assert IsLeast(x, keys);
      }
    }
  }

  lemma LeastIsUnique(keys: set<string>)
    ensures forall a, b :: IsLeast(a, keys) && IsLeast(b, keys) ==> a == b
  {
    forall a, b | IsLeast(a, keys) && IsLeast(b, keys) ensures a == b {
      LessEqAntisymmetric(a, b);
    }
  }

  /** Python's `b in v` for a string or list `v`. */
  predicate InRaw(b: Value, v: Value) {
    if v.List? then b in v.items
    else v.Str? && b.Str? && Contains(v.s, b.s)
  }

  function AlwaysDynamicWalk(patterns: seq<Value>, rawExclude: Value, excluded: seq<Value>)
    : (r: (seq<Value>, seq<Value>))
    ensures r.1 == patterns
  {
    if |patterns| == 0 then (excluded, [])
    else
      var b := patterns[0];
      var excluded' := if InRaw(b, rawExclude) then excluded else excluded + [b];
      var rest := AlwaysDynamicWalk(patterns[1..], rawExclude, excluded');
      (rest.0, [b] + rest.1)
  }

  /** A single string `always-dynamic-branches: ab` yields the patterns
      `a` and `b` as written and the pattern `ab` once normalised by
      `as_list`, as every other branch-pattern setting is; on a list the
      two agree. */
  lemma AlwaysDynamicStringSetting()
    ensures AlwaysDynamicAsWritten(Str("ab"), List([]), []).1 == [Str("a"), Str("b")]
    ensures AlwaysDynamic(ConfigLoader.AsList(Str("ab")), [], []).1 == [Str("ab")]
    ensures forall items: seq<Value>, excl: seq<Value> ::
              AlwaysDynamicAsWritten(List(items), List(excl), []) ==
              AlwaysDynamic(ConfigLoader.AsList(List(items)), ConfigLoader.AsList(List(excl)), [])
  {
    forall items: seq<Value>, excl: seq<Value>
      ensures AlwaysDynamicAsWritten(List(items), List(excl), []) ==
              AlwaysDynamic(ConfigLoader.AsList(List(items)), ConfigLoader.AsList(List(excl)), [])
    {
      WalkAgrees(items, excl, []);
    }
  }

  lemma {:induction false} WalkAgrees(patterns: seq<Value>, excl: seq<Value>, excluded: seq<Value>)
    ensures AlwaysDynamicWalk(patterns, List(excl), excluded) ==
            AlwaysDynamic(patterns, ConfigLoader.AsList(List(excl)), excluded)
    decreases |patterns|
  {
    if |patterns| > 0 {
      var b := patterns[0];
      var excluded' := if b in excl then excluded else excluded + [b];
      WalkAgrees(patterns[1..], excl, excluded');
    }
  }

  /* ---------------------------------------------------------------------- */
  /* _getProject                                                             */
  /* ---------------------------------------------------------------------- */

  /** A branch-pattern setting as a list: `as_list` of the value when it
      is set and not None, no patterns otherwise. */
  function BranchList(opts: map<string, Value>, key: string): (r: seq<Value>)
    ensures Setting(opts, key).None? ==> r == []
    ensures Setting(opts, key).Some? ==> r == ConfigLoader.AsList(opts[key])
  {
    if Setting(opts, key).Some? then ConfigLoader.AsList(opts[key]) else []
  }

  /** The settings of a project with overrides. A missing or null
      `include` inherits the current classes; `exclude` is taken away from
      whichever applies. `exclude-branches` and `always-dynamic-branches`
      combine as `AlwaysDynamic` describes. */
  function ProjectWithOptions(name: string, opts: map<string, Value>, currentInclude: set<Value>)
    : (r: Result<TenantProjectConfig, string>)
    ensures r.Success? ==> r.value.project == name
    ensures r.Success? && Setting(opts, "include").None? ==>
              r.value.loadClasses == currentInclude - ClassSet(GetOr(opts, "exclude", List([])))
    ensures r.Success? && Setting(opts, "include").Some? ==>
              r.value.loadClasses == ClassSet(opts["include"]) - ClassSet(GetOr(opts, "exclude", List([])))
    ensures r.Success? ==> r.value.shadowProjects == ConfigLoader.AsList(GetOr(opts, "shadow", List([])))
    ensures r.Success? ==> (r.value.alwaysDynamicBranches.Some? <==> Setting(opts, "always-dynamic-branches").Some?)
    ensures r.Success? ==> (r.value.excludeBranches.Some? <==>
              Setting(opts, "exclude-branches").Some? || Setting(opts, "always-dynamic-branches").Some?)
    ensures r.Success? && Setting(opts, "always-dynamic-branches").Some? ==>
              forall b :: b in BranchList(opts, "always-dynamic-branches") ==> b in r.value.excludeBranches.value
    ensures r.Success? ==> r.value.excludeUnprotectedBranches == Setting(opts, "exclude-unprotected-branches")
    ensures r.Success? ==> r.value.loadBranch == Setting(opts, "load-branch")
    ensures r.Success? ==> r.value.impliedBranchMatchers == Setting(opts, "implied-branch-matchers")
    ensures r.Success? && Setting(opts, "include-branches").None? ==> r.value.includeBranches.None?
    ensures r.Success? && Setting(opts, "include-branches").Some? ==>
              r.value.includeBranches == Some(BranchList(opts, "include-branches"))
    ensures r.Success? && Setting(opts, "always-dynamic-branches").Some? ==>
              r.value.alwaysDynamicBranches == Some(BranchList(opts, "always-dynamic-branches"))
    ensures r.Success? && r.value.excludeBranches.Some? ==>
              BranchList(opts, "exclude-branches") <= r.value.excludeBranches.value
    ensures r.Success? && r.value.excludeBranches.Some? ==>
              forall b :: (b in r.value.excludeBranches.value <==>
                           (b in BranchList(opts, "exclude-branches") || b in BranchList(opts, "always-dynamic-branches")))
    ensures Setting(opts, "extra-config-paths").None? && r.Success? ==>
              r.value.extraConfigFiles == [] && r.value.extraConfigDirs == []
    ensures Setting(opts, "extra-config-paths").Some? ==>
              (r.Success? <==> forall p :: p in ConfigLoader.AsList(opts["extra-config-paths"]) ==> p.Str?)
    ensures Setting(opts, "extra-config-paths").Some? && r.Success? ==>
              forall f :: f in r.value.extraConfigFiles <==>
                Str(f) in ConfigLoader.AsList(opts["extra-config-paths"]) && !EndsWith(f, "/")
    ensures Setting(opts, "extra-config-paths").Some? && r.Success? ==>
              forall d :: d in r.value.extraConfigDirs <==> Str(d + "/") in ConfigLoader.AsList(opts["extra-config-paths"])
  {
    var shadow := ConfigLoader.AsList(GetOr(opts, "shadow", List([])));
    var classes := if Setting(opts, "include").None? then currentInclude else ClassSet(opts["include"]);
    var classes := classes - ClassSet(GetOr(opts, "exclude", List([])));
    var includeBranches := if Setting(opts, "include-branches").Some?
                           then Some(BranchList(opts, "include-branches")) else None;
    var excludeList := BranchList(opts, "exclude-branches");
    var excludeBranches := if Setting(opts, "exclude-branches").Some? then Some(excludeList) else None;
    var (excludeBranches, alwaysDynamic) :=
      if Setting(opts, "always-dynamic-branches").Some? then
        var ad := AlwaysDynamic(BranchList(opts, "always-dynamic-branches"), excludeList,
                                excludeBranches.GetOr([]));
        (Some(ad.0), Some(ad.1))
      else (excludeBranches, None);
    var extra :-
      if Setting(opts, "extra-config-paths").Some?
      then SplitExtraPaths(ConfigLoader.AsList(opts["extra-config-paths"]))
      else Success(([], []));
    Success(TenantProjectConfig(
      name, classes, shadow, Setting(opts, "exclude-unprotected-branches"),
      includeBranches, excludeBranches, alwaysDynamic, extra.0, extra.1,
      Setting(opts, "load-branch"), Setting(opts, "implied-branch-matchers")))
  }

  /** `_getProject`: a name inherits the current classes and sets nothing
      else; a one-entry mapping is a project with overrides, whose options
      must themselves be a mapping. */
  function GetProject(conf: Value, currentInclude: set<Value>): (r: Result<TenantProjectConfig, string>)
    requires conf.Str? || (conf.Dict? && |conf.entries| == 1)
    ensures conf.Str? ==> r == Success(Plain(conf.s, currentInclude))
    ensures conf.Dict? ==> (r.Success? ==> r.value.project in conf.entries)
    ensures conf.Dict? && !conf.entries[OnlyKey(conf.entries)].Dict? ==> r.Failure?
  {
    if conf.Str? then Success(Plain(conf.s, currentInclude))
    else
      var name := OnlyKey(conf.entries);
      var opts := conf.entries[name];
      if !opts.Dict? then Failure("The options of project " + name + " are not a mapping")
      else ProjectWithOptions(name, opts.entries, currentInclude)
  }

  /* ---------------------------------------------------------------------- */
  /* _getProjects                                                            */
  /* ---------------------------------------------------------------------- */

  /** A mapping with more than one key, one of them `projects`. */
  predicate IsGroup(conf: Value) {
    conf.Dict? && |conf.entries| > 1 && "projects" in conf.entries
  }

  /** The classes a group starts from: its own `include` when the key is
      present, else the inherited ones. */
  function GroupBase(entries: map<string, Value>, currentInclude: set<Value>): set<Value> {
    if "include" in entries then ClassSet(entries["include"]) else currentInclude
  }

  /** The classes a group hands to its projects: its own `include` when
      the key is present, else the inherited ones, less its `exclude`. */
  function GroupInclude(entries: map<string, Value>, currentInclude: set<Value>): (s: set<Value>)
    ensures "include" !in entries && "exclude" !in entries ==> s == currentInclude
    ensures forall c :: (c in s <==> (c in GroupBase(entries, currentInclude) &&
                                      ("exclude" !in entries || c !in ClassSet(entries["exclude"]))))
  {
    var inc := if "include" in entries then ClassSet(entries["include"]) else currentInclude;
    if "exclude" in entries then inc - ClassSet(entries["exclude"]) else inc
  }

  /** The entries the group loop visits, normalised by `as_list`. */
  function GroupEntries(projects: Value): (r: seq<Value>)
    ensures projects.Str? && projects.s != "" ==> r == [projects]
    ensures projects.List? ==> r == projects.items
    ensures !Truthy(projects) ==> r == []
  {
    ConfigLoader.AsList(projects)
  }

  /** The group loop as written walks `conf['projects']` itself, so a
      single string is read as one project per character and a single
      project mapping as its bare project names. The schema lets
      `projects` be a string, a mapping or a list of them. */
  function GroupEntriesAsWritten(projects: Value): (r: seq<Value>)
    requires projects.Str? || projects.List? || projects.Dict?
    ensures projects.List? ==> r == projects.items
    ensures projects.Str? ==> |r| == |projects.s| && forall x :: x in r ==> x.Str? && |x.s| == 1
    ensures projects.Dict? ==> |r| == |projects.entries|
    ensures projects.Dict? ==> forall x :: x in r <==> x.Str? && x.s in projects.entries
  {
    IterateAsWritten(projects)
  }

  /** A group listing the single project `ab` as a plain string visits
      `a` and `b` as written and `ab` once normalised; on a non-empty list
      of projects the two agree. */
  lemma GroupEntriesStringSetting()
    ensures GroupEntriesAsWritten(Str("ab")) == [Str("a"), Str("b")]
    ensures GroupEntries(Str("ab")) == [Str("ab")]
    ensures forall items: seq<Value> :: GroupEntriesAsWritten(List(items)) == GroupEntries(List(items))
  {
  }

  /** A group whose `projects` is the single mapping `foo: {include: []}`
      loads `foo` as a plain project as written, inheriting the group's
      classes, while once normalised it loads `foo` with its override and
      so with no classes. */
  lemma GroupSingleMappingDropsOverrides(classes: set<Value>)
    ensures var projects := Dict(map["foo" := Dict(map["include" := List([])])]);
            && GroupEntriesAsWritten(projects) == [Str("foo")]
            && GetProjects(Str("foo"), classes) == Success([Plain("foo", classes)])
            && GroupEntries(projects) == [projects]
            && GetAll(projects, 0, classes).Success?
            && |GetAll(projects, 0, classes).value| == 1
            && GetAll(projects, 0, classes).value[0].project == "foo"
            && GetAll(projects, 0, classes).value[0].loadClasses == {}
  {
    var opts := map["include" := List([])];
    var projects := Dict(map["foo" := Dict(opts)]);
    var w := GroupEntriesAsWritten(projects);
    assert |w| == 1 && w[0] in w;
    assert w == [Str("foo")];
    assert OnlyKey(projects.entries) == "foo";
    assert ClassSet(List([])) == {};
    assert GetProject(projects, classes).Success?;
    assert GetProject(projects, classes).value.loadClasses == {};
  }

  /** `_getProjects`: a name is one project; a group hands its classes to
      every project it lists, flattened in order; a one-entry mapping is a
      project with overrides, even when its key is `projects`; anything
      else is an error. */
  function GetProjects(conf: Value, currentInclude: set<Value>): (r: Result<seq<TenantProjectConfig>, string>)
    ensures conf.Str? ==> r == Success([Plain(conf.s, currentInclude)])
    ensures conf.Dict? && |conf.entries| == 1 ==>
              (r.Success? <==> GetProject(conf, currentInclude).Success?) &&
              (r.Success? ==> r.value == [GetProject(conf, currentInclude).value])
    ensures !conf.Str? && !IsGroup(conf) && !(conf.Dict? && |conf.entries| == 1) ==>
              r == Failure("Unable to parse project")
    ensures IsGroup(conf) ==>
              r == GetAll(conf.entries["projects"], 0, GroupInclude(conf.entries, currentInclude))
    decreases conf, 0, 0
  {
    if conf.Str? then
      Success([GetProject(conf, currentInclude).value])
    else if IsGroup(conf) then
      var projects := conf.entries["projects"];
      GetAll(projects, 0, GroupInclude(conf.entries, currentInclude))
    else if conf.Dict? && |conf.entries| == 1 then
      var p :- GetProject(conf, currentInclude);
      Success([p])
    else Failure("Unable to parse project")
  }

  /** The projects of the entries of `holder` from the `i`-th on,
      concatenated in order. */
  function GetAll(holder: Value, i: nat, classes: set<Value>): (r: Result<seq<TenantProjectConfig>, string>)
    requires i <= |GroupEntries(holder)|
    ensures (forall j :: i <= j < |GroupEntries(holder)| ==> GroupEntries(holder)[j].Str?) ==>
              r.Success? && |r.value| == |GroupEntries(holder)| - i &&
              forall j :: 0 <= j < |r.value| ==> r.value[j] == Plain(GroupEntries(holder)[i + j].s, classes)
    decreases holder, 1, |GroupEntries(holder)| - i
  {
    var entries := GroupEntries(holder);
    if i == |entries| then Success([])
    else
      var first :- (if holder.List? then GetProjects(holder.items[i], classes) else GetProjects(holder, classes));
      var rest :- GetAll(holder, i + 1, classes);
      Success(first + rest)
  }
}

=== FILE: values.dfy ===
/** The untyped values configuration and serialized data arrive as (YAML,
    JSON, Python literals), and Python's notion of truthiness over them. */
module Values {
  import opened Wrappers

  datatype Value =
    | Null
    | Bool(b: bool)
    | Int(i: int)
    | Str(s: string)
    | List(items: seq<Value>)
    | Dict(entries: map<string, Value>)

  /** Python's `bool(v)`: None, False, 0 and empty containers are falsy. */
  predicate Truthy(v: Value) {
    match v
    case Null => false
    case Bool(b) => b
    case Int(i) => i != 0
    case Str(s) => |s| > 0
    case List(items) => |items| > 0
    case Dict(entries) => |entries| > 0
  }

  /** `d.get(k)` on a dict. */
  function Get(d: map<string, Value>, k: string): Option<Value> {
    if k in d then Some(d[k]) else None
  }

  /** `d.get(k, default)` on a dict. */
  function GetOr(d: map<string, Value>, k: string, default: Value): Value {
    if k in d then d[k] else default
  }
}

=== FILE: wrappers.dfy ===
/** Failure-compatible datatypes used throughout the model: `Option` for
    values Python represents as "possibly None" and `Result` for operations
    that raise an exception on some inputs. */
module Wrappers {

  datatype Option<+T> = None | Some(value: T) {

    predicate IsFailure() {
      None?
    }

    function PropagateFailure<U>(): Option<U>
      requires None?
    {
      None
    }

    function Extract(): T
      requires Some?
    {
      value
    }

    /** The value, or `default` when there is none (Python's `x or default`
        for a value that is never falsy when present). */
    function GetOr(default: T): T {
      match this
      case Some(v) => v
      case None => default
    }
  }

  datatype Result<+R, +E> = Success(value: R) | Failure(error: E) {

    predicate IsFailure() {
      Failure?
    }

    function PropagateFailure<U>(): Result<U, E>
      requires Failure?
    {
      Failure(error)
    }

    function Extract(): R
      requires Success?
    {
      value
    }
  }

  /** A check that either passes or fails with an error. */
  datatype Outcome<+E> = Pass | Fail(error: E) {

    predicate IsFailure() {
      Fail?
    }

    function PropagateFailure<U>(): Result<U, E>
      requires Fail?
    {
      Failure(error)
    }
  }

  function Need<E>(condition: bool, error: E): (r: Outcome<E>)
    ensures r.Pass? <==> condition
  {
    if condition then Pass else Fail(error)
  }
}
